=== FILE: README.md ===
# Tor.NET controller core in Dafny

This project models the deterministic core of Tor.NET, a C# library that starts or attaches to a Tor process and drives it over Tor's control protocol. The model covers these parts:

- **Quote-aware field splitter** (`StringHelper.GetAll` / `GetNext`).
- **Event listener** (`Events`):
  - the chunk reassembler that turns received text into complete replies, holding a backlog and a pending multi-line block;
  - the `650 NAME` front end that routes each reply to a body parser;
  - the per-kind reference counts behind `SETEVENTS`.
- **Event-body parsers** for configuration changes, log messages and bandwidth.
- **Status registry** (`Status`): three lists of circuits, streams and OR connections, each capped at 30 records.
- **Control commands**: create, extend and close a circuit, close a stream, `setconf`, `getconf`, `getinfo`, and the `ns/all` and `ns/id` router-status parsers.
- **Argument checks** of `Control`.
- **Circuit path-name lookup** (`Circuit.GetRouters`).
- **Byte-size unit arithmetic** (`Bytes.Normalize`, `Bytes.ToUnit`).
- **SOCKS5 client handshake** (`Socks5Processor`), following RFC 1928.
- **HTTP proxy request-header reader and writer** (`Proxy.Connection`).
- **Value types** `Host` and `HostAuth`, and the `HostAuth` string converter.
- **Process-launch and remote-connection parameters** (`ClientCreateParams`, `ClientRemoteParams`).

Everything is a pure function over immutable datatypes:

- Strings are `seq<char>`. An octet (an IP address byte, a SOCKS message byte) is the one `byte` newtype of `Wrappers`, an `int` from 0 to 255.
- A C# `null` is `None` wherever the code tests for it.
- An exception is a `Failure` carrying the exception's kind.
- Each control command becomes a function of its arguments and of an `Exchange`. An `Exchange` is either a failed write or the reply `(ok, lines)` that `connection.Read()` would return.
- Parsers the library takes from the framework become function parameters. These are `double.TryParse`, `DateTime.TryParse`, `IPAddress.TryParse`, the router-status lookup and string hash codes.
- The enumerations read by reflection are written out as tables: `Event`, `RouterFlags`, `StreamReason`, `Bits`, `ConfigurationNames` and `ConfigurationValidation`.

The modules follow the source layout:

| module | file | models |
|---|---|---|
| `Wrappers` | `wrappers.dfy` | `Option`, `Result`, exception kinds |
| `Text` | `text.dfy` | the .NET string operations used (`Trim`, `Split`, `IndexOf`, CRLF splits, integer formatting and parsing) |
| `Dictionaries` | `dictionary.dfy` | `Dictionary<K, V>` filled by the indexer setter |
| `StringHelper` | `string_helper.dfy` | `StringHelper.cs` |
| `ByteSizes` | `bytes.dfy` | `Bytes.cs`, `Bits.cs` |
| `EventKinds` | `event_kinds.dfy` | `Events/Enumerators/Event.cs`, `EventAssoc` of the dispatchers |
| `EventStream` | `event_stream.dfy` | `Events.SetEventResponse` |
| `EventDispatch` | `event_dispatch.dfy` | `Events.Dispatch`, `Events.OnSocketReceive` |
| `Subscriptions` | `subscriptions.dfy` | `Events.AddEvent`, `RemoveEvent`, `SetEvents`, event accessors, `Dispose` |
| `EventBodies` | `event_bodies.dfy` | the config-changed, log and bandwidth dispatchers |
| `Records` | `records.dfy` | `Router`, `Circuit`, `Stream`, `ORConnection` and their enumerations |
| `StatusRegistry` | `status.dfy` | `Status.OnCircuitChanged`, `OnStreamChanged`, `OnORConnectionChanged` |
| `ControlReplies` | `control_replies.dfy` | `ConnectionResponse` as a command sees it |
| `RouterStatus` | `router_status.dfy` | `GetAllRouterStatusCommand`, `GetRouterStatusCommand` |
| `ControlCommands` | `commands.dfy` | the create, extend and close circuit commands, close stream, setconf, getconf and getinfo |
| `Controller` | `control.dfy` | `Control`, `Command.Dispatch` |
| `Socks5` | `socks5.dfy` | `Socks5Processor.cs` |
| `HttpProxy` | `http_proxy.dfy` | `Proxy/Connection/Connection.cs` |
| `Hosts` | `hosts.dfy` | `Host.cs`, `HostAuth.cs`, `HostAuthTypeConverter.cs` |
| `ClientParams` | `client_params.dfy` | `ClientCreateParams.cs`, `ClientRemoteParams.cs`, `ConfigurationNames.cs` |

All `.dfy` files are verified together with the resource limit fixed, not a time limit:

```
dafny verify --resource-limit 2000000 --verification-time-limit 0 --warn-contradictory-assumptions *.dfy
```

## Model

| member | source | states |
|---|---|---|
| StringHelper.Scan | src/Tor/Core/Helpers/StringHelper.cs:55-70 | The field scan stops either at the end of the text or on a delimiter, and the delimiter is never the quote character. |
| StringHelper.ScanParity | src/Tor/Core/Helpers/StringHelper.cs:59-69 | The `escaped` flag is the parity of the quotes seen since the field began. Every delimiter the scan passes over lies inside quotes, and the one it stops at lies outside them. |
| StringHelper.GetNext | src/Tor/Core/Helpers/StringHelper.cs:44-73 | Null exactly for a null input or a start at or past the end; otherwise a prefix of the text from `start`. |
| StringHelper.GetAll | src/Tor/Core/Helpers/StringHelper.cs:19-35 | Null exactly for null; the empty string gives no fields; any other string at least one. |
| StringHelper.FieldNoBareDelimiter | src/Tor/Core/Helpers/StringHelper.cs:59-69 | A field holds no delimiter outside a quoted span. |
| StringHelper.FieldsWellFormed | src/Tor/Core/Helpers/StringHelper.cs:28-32 | Every field of the loop is free of bare delimiters, and every field a delimiter closes has balanced quotes. |
| StringHelper.FieldsJoin | src/Tor/Core/Helpers/StringHelper.cs:19-73 | The fields from any start, joined with the delimiter, give the rest of the input back. The only exception is a final unquoted delimiter, which the join lacks. |
| StringHelper.GetAllJoin | src/Tor/Core/Helpers/StringHelper.cs:19-73 | `GetAll` is inverted by joining: the join equals the input when it does not end in an unquoted delimiter, and lacks exactly that delimiter otherwise; all fields are well formed. |
| StringHelper.GetAllNoQuotes | src/Tor/Core/Helpers/StringHelper.cs:19-73 | On quote-free text not ending in the delimiter, the quote-aware split equals the plain `Split`, so leading and adjacent delimiters give empty fields. |
| StringHelper.ScanBeforeQuote | src/Tor/Core/Helpers/StringHelper.cs:55-70 | Counting from a field start with balanced quotes, the scan ends before an opening quote that is never closed, or runs to the end of the text. |
| StringHelper.UnterminatedQuote | src/Tor/Core/Helpers/StringHelper.cs:55-72 | An opening quote that is never closed puts everything after it into the last field. |
| Text.Trim | src/Tor/Events/Events.cs:426 | `Trim` removes the leading and the trailing white space and keeps the text between. A non-empty result neither starts nor ends with white space. |
| Text.Split | src/Tor/Proxy/Connection/Connection.cs:249 | Every piece is free of the separator, and the pieces joined with it give the input back. |
| Text.SplitJoin | src/Tor/Proxy/Connection/Connection.cs:249 | Splitting pieces that were joined by a character none of them holds gives the pieces back. |
| Text.SplitCrlf | src/Tor/Events/Dispatchers/ConfigChangedDispatcher.cs:25 | The CRLF split yields at least one piece and no piece holds a CRLF. |
| Text.SplitCrlfJoin | src/Tor/Events/Dispatchers/LogDispatcher.cs:25 | Lines without CR joined by CRLF split back into the same lines. |
| Text.SplitCrlfAppend | src/Tor/Events/Events.cs:550-559 | Appending text changes only the last CRLF-separated piece; the complete pieces stay. |
| Text.SplitCrlfLast | src/Tor/Events/Events.cs:598-602 | The last CRLF-separated piece is the suffix after the last CRLF. |
| Text.ParseInt32ToString | src/Tor/Controller/Commands/CreateCircuitCommand.cs:76-79 | Every 32-bit integer, once formatted, is read back by `int.TryParse` as itself. |
| Text.ParseInteger | src/Tor/Controller/Commands/CreateCircuitCommand.cs:76-79 | A successful `TryParse` lies in the target type's range. |
| Dictionaries.Put | src/Tor/Proxy/Connection/Connection.cs:217 | The indexer setter keeps the keys unique. A new key is appended; an existing key is overwritten in place, and every other entry is kept. |
| Dictionaries.PutLookup | src/Tor/Proxy/Connection/Connection.cs:217 | After `d[k] = v`, reading `k` gives `v` and every other key reads as before. |
| Dictionaries.FromPairsLookup | src/Tor/Controller/Commands/GetConfCommand.cs:53-62 | A dictionary filled pair by pair maps every key to the value of its last pair, and holds no key no pair named. |
| ByteSizes.Round4 | src/Tor/Core/Bytes.cs:148 | Rounding to four decimals moves a value by at most half of the last place. |
| ByteSizes.NormalizeLoop | src/Tor/Core/Bytes.cs:146-150 | The loop never lowers the unit or passes TB. It stops at TB or below 1024, and any step it takes leaves at least 1. |
| ByteSizes.Normalize | src/Tor/Core/Bytes.cs:135-156 | TB sizes and zero are returned unchanged. Any other size comes back below 1024 of a unit no smaller than before, or in TB, and keeps its sign. |
| ByteSizes.NormalizeLoopIsDivSteps | src/Tor/Core/Bytes.cs:146-150 | The normalizing loop is the dividing loop of `ToUnit` run once per unit climbed. |
| ByteSizes.NormalizeIsToUnit | src/Tor/Core/Bytes.cs:135-195 | `Normalize` agrees with `ToUnit` to the unit it picks. |
| ByteSizes.ToUnit | src/Tor/Core/Bytes.cs:163-195 | The result is in the requested unit. The same unit returns the input; zero gives zero; the sign is kept. |
| ByteSizes.MulStepsLast | src/Tor/Core/Bytes.cs:176-180 | On values with at most four decimals, each multiplying step scales by exactly 1024. |
| ByteSizes.DivStepsUndoMulSteps | src/Tor/Core/Bytes.cs:174-189 | Dividing n times undoes multiplying n times when nothing is rounded away. |
| ByteSizes.ToUnitRoundTrip | src/Tor/Core/Bytes.cs:163-195 | Converting to a smaller unit and back gives the original size, for values with at most four decimals. |
| ByteSizes.NormalizeExample | src/Tor/Core/Bytes.cs:135-156 | 1536 B normalizes to 1.5 KB. |
| EventKinds.FindByName | src/Tor/Events/Events.cs:458 | The lookup returns a kind from the list whose name matches ignoring case, or `Unknown` when none matches. |
| EventKinds.FromName | src/Tor/Events/Events.cs:458-461 | A name resolves to a kind exactly when some kind's wire name matches it ignoring case. |
| EventKinds.FromNameOfName | src/Tor/Events/Enumerators/Event.cs:18-79 | Every named kind is found again from its own wire name. |
| EventKinds.NamesDistinct | src/Tor/Events/Enumerators/Event.cs:18-79 | Two wire names are equal ignoring case exactly when the kinds are equal. |
| EventKinds.DispatcherFor | src/Tor/Events/Dispatchers/LogDispatcher.cs:11 | Every named kind has a body parser. The log parser serves exactly the five log kinds. |
| EventStream.StepLine | src/Tor/Events/Events.cs:565-591 | Skipped lines (empty, or starting with `250`) change nothing. A continuation line joins the pending block with its CRLF. Any other line emits the block when one is open, otherwise the line itself, and closes the block. |
| EventStream.Receive | src/Tor/Events/Events.cs:543-607 | A null chunk throws and an empty chunk changes nothing. After any other chunk the backlog holds no CRLF. |
| EventStream.ReceiveBacklog | src/Tor/Events/Events.cs:550-602 | The backlog after a chunk is exactly the text after the last CRLF of the old backlog followed by the chunk. |
| EventStream.StepLinesAppend | src/Tor/Events/Events.cs:559-595 | Feeding lines in two runs gives the same block and the same units, in order, as feeding them in one. |
| EventStream.LinesAppend | src/Tor/Events/Events.cs:550-602 | The complete lines and the remainder of `x + y` are those of `x`, followed by those of `x`'s remainder plus `y`. |
| EventStream.ReceiveChunked | src/Tor/Events/Events.cs:550-606 | Two chunks give the same session and the same units, in order, as their concatenation given at once. |
| EventStream.SkippedLines | src/Tor/Events/Events.cs:565-574 | Empty and `250` lines are never emitted and never join the pending block. |
| EventStream.BlockLines | src/Tor/Events/Events.cs:576-583 | Continuation lines collect in the pending block, each followed by CRLF, and emit nothing. |
| EventStream.MultiLineReply | src/Tor/Events/Events.cs:576-591 | A multi-line reply is emitted as one unit holding its continuation lines; the closing line itself is discarded. |
| EventStream.SingleLineReply | src/Tor/Events/Events.cs:590-591 | With no block open, an ordinary line is emitted alone. |
| EventDispatch.Parts | src/Tor/Events/Events.cs:431-451 | The fields of a unit number at most three. |
| EventDispatch.RouteParts | src/Tor/Events/Events.cs:453-476 | A unit is routed only with status `650`, a known name and a body field. Routing goes to that kind's parser, and a routed unit without a body field fails on the missing index. |
| EventDispatch.Dispatch | src/Tor/Events/Events.cs:421-478 | Null throws. Anything routed goes to a known kind's parser, and the only other failure is the missing body field. |
| EventDispatch.RouteKnown | src/Tor/Events/Events.cs:456-476 | `650`, a known name and a body are routed to that kind's parser with that body. |
| EventDispatch.RouteNeedsStatus | src/Tor/Events/Events.cs:426-461 | Only units whose trimmed text starts with `650` are routed, and always to the kind named in the unit. |
| EventDispatch.DispatchSpaceForm | src/Tor/Events/Events.cs:451-476 | `650 NAME body` reaches NAME's parser with the whole body, spaces included. |
| EventDispatch.DispatchMissingBody | src/Tor/Events/Events.cs:453-476 | `650 NAME` with no body passes every check and then faults on the missing third field. |
| EventDispatch.DispatchDashForm | src/Tor/Events/Events.cs:433-449 | `650-NAME CRLF body`, with trailing line breaks, reaches NAME's parser with the body. |
| EventDispatch.DispatchBlock | src/Tor/Events/Events.cs:426-476 | A reassembled multi-line event reaches its kind's parser with the following lines joined by CRLF. |
| EventDispatch.DispatchAll | src/Tor/Events/Events.cs:604-606 | The units are dispatched in order, and the first fault ends the loop. |
| EventDispatch.UntilFault | src/Tor/Events/Events.cs:604-606 | The outcomes are kept up to and including the first fault. |
| EventDispatch.OnReceive | src/Tor/Events/Events.cs:350-365 | Nothing received ends listening. A fault in any dispatched unit also ends it, because the receive is not posted again. A stopped listener ignores further data. |
| Subscriptions.SubscribedIn | src/Tor/Events/Events.cs:524-530 | The subscribed kinds are listed in table order, each kind that has a count. |
| Subscriptions.Subscribed | src/Tor/Events/Events.cs:524-530 | A kind is listed exactly when it has a stored count. |
| Subscriptions.SetEventsCommand | src/Tor/Events/Events.cs:522-532 | The command starts with `SETEVENTS` and ends with CRLF; with nothing subscribed it is `SETEVENTS` alone, which clears every event. |
| Subscriptions.SetEventsCommandWords | src/Tor/Events/Events.cs:522-532 | The command splits on spaces into `SETEVENTS` and then exactly the names of the subscribed kinds, before its CRLF. |
| Subscriptions.NameListWords | src/Tor/Events/Events.cs:524-530 | A head followed by ` NAME` per kind splits into the head and the names. |
| Subscriptions.SetEvents | src/Tor/Events/Events.cs:512-537 | After disposal it throws. It writes the command exactly when the socket is connected and events are enabled. |
| Subscriptions.AddEvent | src/Tor/Events/Events.cs:400-415 | After disposal it throws. Otherwise it adds one to the kind's count, changes no other count, and writes `SETEVENTS` exactly on a change from 0 to 1 while enabled and connected. |
| Subscriptions.RemoveEvent | src/Tor/Events/Events.cs:484-507 | After disposal it throws. An unsubscribed kind is left alone. Otherwise the count drops by one. Reaching 0 deletes the kind and rewrites `SETEVENTS`. Stored counts stay at least 1. |
| Subscriptions.AddThenRemove | src/Tor/Events/Events.cs:400-507 | Removing right after adding restores the counts. |
| Subscriptions.SameCounts | src/Tor/Events/Events.cs:400-507 | Valid monitors that agree on every kind's count have the same count map. |
| Subscriptions.Dispose | src/Tor/Events/Events.cs:275-295 | Disposal marks the monitor disposed and disconnected and keeps the counts. |
| Subscriptions.DisposedThrows | src/Tor/Events/Events.cs:402-403 | Once disposed, adding, removing and `SetEvents` throw `ObjectDisposedException`. |
| Subscriptions.RemoveLast | src/Tor/Events/Events.cs:103 | Delegate removal drops one occurrence of the handler when present, and otherwise leaves the list as it is. |
| Subscriptions.Subscribe | src/Tor/Events/Events.cs:102 | `add` appends the handler to the invocation list and raises only that kind's count. |
| Subscriptions.UnsubscribeAsWritten | src/Tor/Events/Events.cs:94 | Removing a bandwidth handler appends it again. For every other kind the handler leaves the list. |
| Subscriptions.Unsubscribe | src/Tor/Events/Events.cs:103 | `remove` drops the handler from the list and lowers the kind's count when the kind is subscribed. |
| Subscriptions.SubscribeThenUnsubscribe | src/Tor/Events/Events.cs:100-104 | Subscribing then unsubscribing a handler restores the invocation list and the counts. |
| Subscriptions.UnsubscribeCounts | src/Tor/Events/Events.cs:484-507 | Unsubscribing after one added reference restores the counts whatever the handler. |
| EventBodies.ConfigText | src/Tor/Events/Dispatchers/ConfigChangedDispatcher.cs:34-45 | A line that trims to nothing yields no setting, and a kept text is never empty. |
| EventBodies.ConfigEntry | src/Tor/Events/Dispatchers/ConfigChangedDispatcher.cs:47-52 | The text is cut at its first `=` with both sides trimmed. Without `=`, the trimmed key maps to null. |
| EventBodies.ConfigChangedDispatch | src/Tor/Events/Dispatchers/ConfigChangedDispatcher.cs:23-58 | A body with no non-empty line raises nothing; any other raises one event with unique keys. The parser returns false either way. |
| EventBodies.ConfigLineRoundTrip | src/Tor/Events/Dispatchers/ConfigChangedDispatcher.cs:34-52 | A line `650-key=value` or `650-key` reads back as the setting it was printed from. |
| EventBodies.ConfigSettingsOfLines | src/Tor/Events/Dispatchers/ConfigChangedDispatcher.cs:30-53 | Printed settings read back as the same settings, in order. |
| EventBodies.ConfigChangedRoundTrip | src/Tor/Events/Dispatchers/ConfigChangedDispatcher.cs:23-58 | A body of reportable settings raises one event. Each key maps to the value of its last line, and there are no other keys. |
| EventBodies.LogEntries | src/Tor/Events/Dispatchers/LogDispatcher.cs:30-39 | Every event raised carries a trimmed message that is not blank, `.` or a `250` line, tagged with the current kind. |
| EventBodies.LogEntriesAppend | src/Tor/Events/Dispatchers/LogDispatcher.cs:30-39 | Lines are handled independently and in order. |
| EventBodies.LogDispatch | src/Tor/Events/Dispatchers/LogDispatcher.cs:23-43 | The parser returns true exactly when the body has a non-empty line, and raises nothing otherwise. |
| EventBodies.LogRoundTrip | src/Tor/Events/Dispatchers/LogDispatcher.cs:23-43 | Messages sent one per line come out as events in the same order, each with its text and the current kind. |
| EventBodies.LogOnlySkipped | src/Tor/Events/Dispatchers/LogDispatcher.cs:34-42 | A body made only of skipped lines raises nothing yet returns true. |
| EventBodies.NoMessages | src/Tor/Events/Dispatchers/LogDispatcher.cs:34-37 | Lines that trim to blank, `.` or `250` raise nothing. |
| EventBodies.BandwidthDispatch | src/Tor/Events/Dispatchers/BandwidthDispatcher.cs:24-42 | An event is raised, and true returned, exactly when the quote-aware split has two fields that both parse as numbers. The sizes it carries are normalized. |
| EventBodies.BandwidthFields | src/Tor/Events/Dispatchers/BandwidthDispatcher.cs:26-41 | `read written` raises the two byte counts normalized, exactly when both parse. |
| Records.NewCircuit | src/Tor/Circuits/Circuit.cs:36-47 | A new circuit has no flags, no hidden-service state, no paths, no purpose, no reason and no routers yet. Its status is the zero value and its creation time is `MinValue`. |
| Records.PathToken | src/Tor/Circuits/Circuit.cs:184-195 | A null entry is not looked up. A kept name is non-blank and free of `~`, and is a prefix of the entry after an optional leading `$`. |
| Records.PathTokenLongName | src/Tor/Circuits/Circuit.cs:189-192 | `$fingerprint~nickname` is looked up by the fingerprint. |
| Records.PathTokenPlain | src/Tor/Circuits/Circuit.cs:184-195 | A plain name is looked up as it is. |
| Records.PathTokens | src/Tor/Circuits/Circuit.cs:182-195 | The names looked up are non-blank, free of `~` and no more numerous than the paths. |
| Records.Resolved | src/Tor/Circuits/Circuit.cs:197-201 | When every lookup succeeds, the result lists one router per name, in order. |
| Records.ResolvedAppend | src/Tor/Circuits/Circuit.cs:182-201 | Lookups are independent and keep path order; failed lookups contribute nothing. |
| Records.GetRouters | src/Tor/Circuits/Circuit.cs:170-207 | Only the router list changes. No paths give an empty list, and there are never more routers than paths. |
| Records.GetRoutersAllFound | src/Tor/Circuits/Circuit.cs:182-205 | When every lookup succeeds, the stored routers are exactly the lookups' results in path order. |
| Records.Nicknames | src/Tor/Circuits/Circuit.cs:156-164 | The routers' nicknames are passed on in the same order. |
| Records.NewStream | src/Tor/Streams/Stream.cs:29-38 | A new stream keeps its ID and target, has circuit 0 and no purpose, reason or status. |
| StatusRegistry.FirstIndex | src/Tor/Status/Status.cs:146 | `Where(p).FirstOrDefault()` gives the first position where `p` holds, or none when it holds nowhere. |
| StatusRegistry.RemoveAt | src/Tor/Status/Status.cs:157 | Removing one record keeps the others in order. |
| StatusRegistry.Admit | src/Tor/Status/Status.cs:148-162 | A list below 30 appends the new record. A full list first evicts its first terminal record; with none, nothing changes and nothing is announced. The list never grows past 30. |
| StatusRegistry.AdmitUnique | src/Tor/Status/Status.cs:148-162 | Admitting a record with a new key keeps keys unique. |
| StatusRegistry.UpdateCircuit | src/Tor/Status/Status.cs:166-177 | The update copies flags, hidden-service state, paths, purpose, reason, status and time, and keeps the ID. Routers are resolved again exactly when the path count changed or the new status is `Extended`. |
| StatusRegistry.CircuitChanged | src/Tor/Status/Status.cs:139-183 | A null report changes nothing. A known ID is updated where it stands; a new circuit is admitted with its routers resolved. The bound is kept. |
| StatusRegistry.CircuitChangedKeepsValid | src/Tor/Status/Status.cs:139-183 | Circuits stay unique by ID and within 30. A known ID keeps the list's length and order. |
| StatusRegistry.FullOfOpenCircuits | src/Tor/Status/Status.cs:150-155 | Thirty open circuits make a new report drop silently. |
| StatusRegistry.UpdateStream | src/Tor/Status/Status.cs:264-267 | The update copies circuit, purpose, reason and status, and keeps the ID and the target. |
| StatusRegistry.StreamChanged | src/Tor/Status/Status.cs:238-273 | A null report changes nothing. A known ID is updated in place; a new stream is admitted. The bound is kept. |
| StatusRegistry.StreamChangedKeepsValid | src/Tor/Status/Status.cs:238-273 | Streams stay unique by ID and within 30. |
| StatusRegistry.ORConnectionChanged | src/Tor/Status/Status.cs:190-231 | A report is matched by ID when the ID is not 0, and otherwise by target ignoring case. A matched entry becomes the report; an unmatched report is admitted. The bound is kept. |
| StatusRegistry.Apply | src/Tor/Status/Status.cs:139-273 | Each report touches its own list only. |
| StatusRegistry.ApplyKeepsValid | src/Tor/Status/Status.cs:139-273 | Every report keeps all three lists within 30, and circuits and streams unique by ID. |
| StatusRegistry.ApplyAllKeepsValid | src/Tor/Status/Status.cs:139-273 | Any run of reports keeps the registry valid. |
| ControlReplies.FirstLine | src/Tor/Controller/Commands/CreateCircuitCommand.cs:71 | `Responses[0]` exists exactly when the reply has lines, and otherwise throws. |
| RouterStatus.FirstFlag | src/Tor/Controller/Commands/GetAllRouterStatusCommand.cs:92-99 | The first flag whose description matches ignoring case, or none when no description matches. |
| RouterStatus.FlagOf | src/Tor/Controller/Commands/GetAllRouterStatusCommand.cs:92-99 | A token names a flag only when it matches that flag's description, and names none when it matches no description. |
| RouterStatus.FlagOfName | src/Tor/Routers/Enumerators/RouterFlags.cs:18-91 | Every flag's description reads back as that flag. |
| RouterStatus.FlagsOf | src/Tor/Controller/Commands/GetAllRouterStatusCommand.cs:88-101 | An `s` line adds exactly the flags its tokens name; other tokens are ignored. |
| RouterStatus.FlagsOfNames | src/Tor/Controller/Commands/GetAllRouterStatusCommand.cs:88-101 | Listing flags by description and reading them back gives the same set. |
| RouterStatus.RouterOfFields | src/Tor/Controller/Commands/GetAllRouterStatusCommand.cs:57-84 | Fields 1 to 3 are nickname, identity and digest. Fields 4 and 5 are the publication time. Field 6 is the address (null when it does not parse) and fields 7 and 8 the ports (0 when they do not parse). There are no flags and no bandwidth yet. |
| RouterStatus.WithBandwidth | src/Tor/Controller/Commands/GetAllRouterStatusCommand.cs:103-119 | A `w` line changes only the bandwidth, and any bandwidth it sets is normalized. |
| RouterStatus.AnnotateLine | src/Tor/Controller/Commands/GetAllRouterStatusCommand.cs:88-119 | `s` and `w` lines keep the router's names, and flags only gain bits. |
| RouterStatus.Flush | src/Tor/Controller/Commands/GetAllRouterStatusCommand.cs:122-126 | The router being read, if any, is added to the list. |
| RouterStatus.ScanLine | src/Tor/Controller/Commands/GetAllRouterStatusCommand.cs:37-120 | Blank lines and `.` change nothing. An `r` line adds the current router to the list and starts a new one exactly when it has nine fields, named by fields 1 and 2. Any other line keeps the list and only adds flags or a bandwidth to the current router. |
| RouterStatus.ScanLinesAppend | src/Tor/Controller/Commands/GetAllRouterStatusCommand.cs:37-120 | Scanning two runs of lines equals scanning them together. |
| RouterStatus.GetAllRouterStatus | src/Tor/Controller/Commands/GetAllRouterStatusCommand.cs:25-132 | Success with routers exactly when the reply is OK and its first line starts with `ns/all` ignoring case. An OK reply with no lines throws. |
| RouterStatus.GetRouterStatus | src/Tor/Controller/Commands/GetRouterStatusCommand.cs:55-154 | A null identity writes nothing and fails. Success holds exactly when the reply is OK and its first line starts with `ns/id/<identity>` ignoring case. |
| RouterStatus.ScanOne | src/Tor/Controller/Commands/GetRouterStatusCommand.cs:71-148 | Blank lines change nothing. An `r` line with fewer than nine fields keeps the router read so far; with nine it starts a new router named by fields 1 and 2. Any other line only adds flags or a bandwidth to the current router. |
| RouterStatus.ScanOneLinesAppend | src/Tor/Controller/Commands/GetRouterStatusCommand.cs:71-148 | Scanning two runs of lines equals scanning them together. |
| RouterStatus.RLineReads | src/Tor/Controller/Commands/GetAllRouterStatusCommand.cs:44-85 | A printed `r` line splits into its nine fields and reads as the entry's router, without flags or bandwidth. |
| RouterStatus.SLineAnnotates | src/Tor/Controller/Commands/GetAllRouterStatusCommand.cs:88-101 | A printed `s` line adds exactly its flags. |
| RouterStatus.WFieldReads | src/Tor/Controller/Commands/GetAllRouterStatusCommand.cs:103-119 | `bandwidth=n` sets the bandwidth to n KB normalized. |
| RouterStatus.WLineAnnotates | src/Tor/Controller/Commands/GetAllRouterStatusCommand.cs:103-119 | A printed `w` line sets the bandwidth to its kilobytes normalized. |
| RouterStatus.EntryScans | src/Tor/Controller/Commands/GetAllRouterStatusCommand.cs:37-120 | The lines of one entry hand the previous router to the list and leave the entry's router current. |
| RouterStatus.EntriesScan | src/Tor/Controller/Commands/GetAllRouterStatusCommand.cs:37-126 | Printed entries add their routers to the list in order. |
| RouterStatus.AllRoutersOfEntries | src/Tor/Controller/Commands/GetAllRouterStatusCommand.cs:37-128 | Printed entries and a closing `.` read as the entries' routers in order. |
| RouterStatus.GetAllRouterStatusRoundTrip | src/Tor/Controller/Commands/GetAllRouterStatusCommand.cs:25-132 | A `ns/all` reply of printed entries yields exactly their routers, in order. |
| RouterStatus.EntryScansOne | src/Tor/Controller/Commands/GetRouterStatusCommand.cs:71-148 | One printed entry replaces the current router with its own. |
| RouterStatus.EntriesScanOne | src/Tor/Controller/Commands/GetRouterStatusCommand.cs:71-148 | Over several entries the last one wins. |
| RouterStatus.OneRouterOfEntries | src/Tor/Controller/Commands/GetRouterStatusCommand.cs:71-150 | The reply's lines give the last entry's router, or none when there are no entries. |
| RouterStatus.GetRouterStatusRoundTrip | src/Tor/Controller/Commands/GetRouterStatusCommand.cs:55-154 | A `ns/id` reply of printed entries yields the last entry's router, and a successful empty result when there are none. |
| ControlCommands.RouterArgsFields | src/Tor/Controller/Commands/ExtendCircuitCommand.cs:57-61 | The head and router arguments split back into the head and the routers' names; a null router gives an empty field. |
| ControlCommands.CreateRequestFields | src/Tor/Controller/Commands/CreateCircuitCommand.cs:56-62 | The request splits into `extendcircuit`, `0` and the routers in order. |
| ControlCommands.CreateReply | src/Tor/Controller/Commands/CreateCircuitCommand.cs:66-81 | A non-OK reply is `(false, -1)`, and an OK reply with no lines throws. Otherwise the result is success exactly when the first line reads `extended <int>`, with that number as the ID. |
| ControlCommands.CreateCircuit | src/Tor/Controller/Commands/CreateCircuitCommand.cs:54-85 | The request is always written. A failed write gives `(false, -1)`; otherwise the reply decides. |
| ControlCommands.CreateReplyRoundTrip | src/Tor/Controller/Commands/CreateCircuitCommand.cs:71-81 | `EXTENDED <id>` reads back as success with that ID, whatever lines follow. |
| ControlCommands.ExtendRequestFields | src/Tor/Controller/Commands/ExtendCircuitCommand.cs:52-61 | The request splits into `extendcircuit`, the circuit ID (0 for null) and the routers in order. |
| ControlCommands.ExtendCircuit | src/Tor/Controller/Commands/ExtendCircuitCommand.cs:47-70 | No routers means nothing is written. The result is true exactly when a request was sent and the reply is OK. |
| ControlCommands.RefusedReasonNames | src/Tor/Controller/Commands/CloseStreamCommand.cs:43-44 | Comparing reasons by number refuses exactly `None`, `End` and `PrivateAddr`. |
| ControlCommands.CloseStreamRequestFields | src/Tor/Controller/Commands/CloseStreamCommand.cs:46 | The request splits into `closestream`, the stream ID and the reason's number, and both numbers parse back. |
| ControlCommands.CloseStream | src/Tor/Controller/Commands/CloseStreamCommand.cs:37-53 | The request is written exactly when the stream exists and has a positive ID, is neither failed nor closed, and the reason is not refused. The result is true exactly when it was written and the reply is OK. |
| ControlCommands.CloseCircuitRequestFields | src/Tor/Controller/Commands/CloseCircuitCommand.cs:38 | The request splits into `closecircuit` and the ID, which parses back. |
| ControlCommands.CloseCircuit | src/Tor/Controller/Commands/CloseCircuitCommand.cs:33-45 | The request is written exactly for a circuit that is not closed, failed circuits included. The result is true exactly when it was written and the reply is OK. |
| ControlCommands.ConfValueRoundTrip | src/Tor/Controller/Commands/SetConfCommand.cs:41 | The corrected quoting reads back as the value, for every value. |
| ControlCommands.ConfValueAgrees | src/Tor/Controller/Commands/SetConfCommand.cs:41 | For values without `\` or `"`, the corrected quoting is the written one. |
| ControlCommands.ConfValueAsWrittenDropsBackslashes | src/Tor/Controller/Commands/SetConfCommand.cs:41 | The written quoting sends `C:\Tor Data` so that it reads back as `C:Tor Data`. |
| ControlCommands.ConfValueAsWrittenRefusesQuote | src/Tor/Controller/Commands/SetConfCommand.cs:41 | The written quoting makes a value holding a space and a quote unreadable. |
| ControlCommands.ConfValueAsWritten | src/Tor/Controller/Commands/SetConfCommand.cs:41 | A value holding a space is sent inside quotes, as it is; any other value is sent bare. |
| ControlCommands.ConfValueAsWrittenRefusesLeadingQuote | src/Tor/Controller/Commands/SetConfCommand.cs:41 | As written, the value `"x` (no space) is sent bare and Tor cannot read it. |
| ControlCommands.SetConfAsWritten | src/Tor/Controller/Commands/SetConfCommand.cs:36-48 | As written: a null name or value writes nothing; otherwise `setconf <name>=<value>` is written with the written quoting. The result is true exactly when the request was written and the reply is OK. |
| ControlCommands.SetConf | src/Tor/Controller/Commands/SetConfCommand.cs:36-48 | With the corrected quoting: a null name or value writes nothing. The result is true exactly when the request was written and the reply is OK. |
| ControlCommands.SetConfAgrees | src/Tor/Controller/Commands/SetConfCommand.cs:36-48 | For values without `\` or `"`, the written and the corrected command write the same request and give the same result. |
| ControlCommands.SetConfRequestReads | src/Tor/Controller/Commands/SetConfCommand.cs:41 | In the corrected request, Tor finds the name after `setconf ` and reads the value back after the first `=`, for every value. |
| ControlCommands.SetConfRequestAsWrittenReads | src/Tor/Controller/Commands/SetConfCommand.cs:41 | The request as written reads back the same way for values without `\` or `"`. |
| ControlCommands.ConfPair | src/Tor/Controller/Commands/GetConfCommand.cs:55-61 | A line is cut at its first `=` with both sides trimmed. A line without `=` gives its trimmed key and null. |
| ControlCommands.GetConfReply | src/Tor/Controller/Commands/GetConfCommand.cs:46-64 | Success follows the reply's status. Each key holds the value of its last line, and a non-OK reply has no values. |
| ControlCommands.GetConf | src/Tor/Controller/Commands/GetConfCommand.cs:34-68 | The request is always written. A failed write is `(false, null)`; otherwise the reply decides. |
| ControlCommands.GetConfRoundTrip | src/Tor/Controller/Commands/GetConfCommand.cs:53-64 | Printed `name=value` lines read back: each name gives its last value, and an unprinted name gives nothing. |
| ControlCommands.UntilDot | src/Tor/Controller/Commands/GetInfoCommand.cs:64-70 | The lines are taken up to the first `.` line, which is excluded. |
| ControlCommands.SingleValue | src/Tor/Controller/Commands/GetInfoCommand.cs:58-59 | A one-line reply's value is the text after the first `=`, or null without one. |
| ControlCommands.GetInfoReply | src/Tor/Controller/Commands/GetInfoCommand.cs:49-72 | The reply must be OK with a first line starting with the request, ignoring case. One line gives its single value; more lines give those up to the first `.`. An OK reply with no lines throws. |
| ControlCommands.GetInfo | src/Tor/Controller/Commands/GetInfoCommand.cs:42-76 | A null request writes nothing and fails. A failed write fails; otherwise `getinfo <request>` is written and the reply decides. |
| ControlCommands.GetInfoSingleRoundTrip | src/Tor/Controller/Commands/GetInfoCommand.cs:56-60 | `key=value` answering `key` gives `value`. |
| ControlCommands.GetInfoBlockRoundTrip | src/Tor/Controller/Commands/GetInfoCommand.cs:62-70 | A multi-line reply gives the lines between the header and the first `.`. |
| Controller.Dispatched | src/Tor/Controller/Base/Command.cs:45-69 | A command's exception reaches the caller as a `TorException`; what it wrote is unchanged. |
| Controller.CloseCircuit | src/Tor/Controller/Control.cs:46-56 | A null circuit or ID 0 throws before anything is sent. Otherwise the result is the command's. |
| Controller.CloseStream | src/Tor/Controller/Control.cs:64-76 | A null stream, ID 0, or a reason of `None`, `End` or `PrivateAddr` throws before anything is sent. Otherwise the result is the command's. |
| Controller.CloseStreamSendsWhenValid | src/Tor/Controller/Control.cs:64-76 | Past the checks, a valid open stream is sent and the result is the reply's status. |
| Controller.CreateCircuit | src/Tor/Controller/Control.cs:82-87 | The result is true exactly when the command succeeded with an ID of at least 0. |
| Controller.CreateCircuitOutcome | src/Tor/Controller/Control.cs:82-87 | `EXTENDED <id>` gives `id >= 0`. An OK reply with no lines surfaces as a `TorException`. |
| Controller.ExtendCircuit | src/Tor/Controller/Control.cs:106-120 | A null circuit, ID 0 or no routers throws. Otherwise the routers go to the command in order and the result is the reply's status. |
| Controller.ExtendWithRouters | src/Tor/Circuits/Circuit.cs:155-163 | Circuit ID 0 throws `ArgumentException` and no routers throws `ArgumentOutOfRangeException`, with nothing written. Otherwise the request lists the routers' nicknames in order, and the result is the reply's status. |
| Controller.ExtendWithRoutersSendsNicknames | src/Tor/Circuits/Circuit.cs:156-164 | Extending by routers sends the circuit ID and then each router's nickname, in order. |
| Socks5.AfterGreeting | src/Tor/Net/Processors/Socks5Processor.cs:51-56 | The greeting is `05 01 00`. |
| Socks5.MethodAccepted | src/Tor/Net/Processors/Socks5Processor.cs:144-147 | The method reply passes exactly when it is `05 00`. |
| Socks5.PortBytes | src/Tor/Net/Processors/Socks5Processor.cs:159 | The port is sent as its low 16 bits, high byte first. |
| Socks5.ConnectRequestAsWritten | src/Tor/Net/Processors/Socks5Processor.cs:151-181 | An end point gives a 10-byte type-1 request; it needs four address bytes. A host name gives a type-3 request of its length plus 7, with the length byte cut to 8 bits; it must fit the buffer. |
| Socks5.ConnectRequest | src/Tor/Net/Processors/Socks5Processor.cs:166-181 | Host names longer than 255 characters are refused. Otherwise the request is the written one. |
| Socks5.ConnectRequestRoundTrip | src/Tor/Net/Processors/Socks5Processor.cs:151-181 | An RFC 1928 server reads the corrected request back as the destination asked for. |
| Socks5.LongHostAsWritten | src/Tor/Net/Processors/Socks5Processor.cs:172 | As written, any host name of 256 to 505 characters is sent with its length less 256 in the length byte (44 for 300 characters), so the server reads a different destination. |
| Socks5.RemainingLength | src/Tor/Net/Processors/Socks5Processor.cs:73-97 | The reply prefix passes exactly as five bytes with version 5, status 0 and address type 1, 3 or 4. |
| Socks5.RemainingLengthMatchesReply | src/Tor/Net/Processors/Socks5Processor.cs:80-93 | The expected length is exactly the rest of a success reply. |
| Socks5.DrainCompletes | src/Tor/Net/Processors/Socks5Processor.cs:114-127 | The handshake completes exactly when the first receives add up to what remained. |
| Socks5.HandshakeAsWritten | src/Tor/Net/Processors/Socks5Processor.cs:140-190 | The exchange connects exactly when the method reply is `05 00`, the written request can be built (host names up to 505 characters included), the reply prefix passes and the receives drain exactly what remains. |
| Socks5.Handshake | src/Tor/Net/Processors/Socks5Processor.cs:140-190 | The corrected exchange connects under the same conditions, except that a host name over 255 characters is never sent. |
| Socks5.HandshakeAgrees | src/Tor/Net/Processors/Socks5Processor.cs:140-190 | For host names of at most 255 characters, and for end points, the corrected and the written exchange have the same outcome. |
| Socks5.LongHostHandshakeAsWritten | src/Tor/Net/Processors/Socks5Processor.cs:166-183 | As written, any host name of 256 to 505 characters is sent with a wrong length byte, and a success reply is reported as a connection; the corrected exchange fails it. |
| HttpProxy.Received | src/Tor/Proxy/Connection/Connection.cs:186-192 | The first read collects lines up to and including the first blank one. |
| HttpProxy.UntilBlank | src/Tor/Proxy/Connection/Connection.cs:205-210 | The header lines stop before the first blank line. |
| HttpProxy.HeaderPair | src/Tor/Proxy/Connection/Connection.cs:207-217 | A line without `:` is skipped. |
| HttpProxy.ReadHeaders | src/Tor/Proxy/Connection/Connection.cs:196-218 | No line at all fails. Otherwise the request line is first, and each header name holds the value of its last line. |
| HttpProxy.ConnectRequest | src/Tor/Proxy/Connection/Connection.cs:247-268 | `CONNECT` needs three tokens, and the third is the version. The target `h:p` gives host and port; any other target gives its first `:` segment and port 443. |
| HttpProxy.ConnectTarget | src/Tor/Proxy/Connection/Connection.cs:256-263 | `CONNECT host:port version` reaches that host and port. |
| HttpProxy.ConnectTargetDefaultPort | src/Tor/Proxy/Connection/Connection.cs:264-268 | `CONNECT host version` reaches the host on port 443. |
| HttpProxy.HostRequest | src/Tor/Proxy/Connection/Connection.cs:270-285 | Other requests need a `Host` header, whose first `:` segment is the host. The version stays `HTTP/1.1`. |
| HttpProxy.HostTarget | src/Tor/Proxy/Connection/Connection.cs:275-284 | `Host: h:p` gives `(h, p)`, and `Host: h` gives `(h, 80)`. |
| HttpProxy.Parse | src/Tor/Proxy/Connection/Connection.cs:196-291 | Every failure surfaces as one `TorException`. A POST without `Content-Length` fails; otherwise the request line picks the CONNECT or the Host form. |
| HttpProxy.UntilBlankExtend | src/Tor/Proxy/Connection/Connection.cs:205-210 | Header reading stops at the first blank line; nothing after it is read. |
| HttpProxy.ReadHeadersOfEntries | src/Tor/Proxy/Connection/Connection.cs:196-218 | A request line, one `Name: Value` line per header, an empty line and any body read back as that request line and exactly those headers. |
| HttpProxy.ParseConnect | src/Tor/Proxy/Connection/Connection.cs:196-268 | A client's `CONNECT host:port version` with any headers and any body reaches that host and port with that version. |
| HttpProxy.ParseConnectDefaultPort | src/Tor/Proxy/Connection/Connection.cs:247-268 | `CONNECT host version` with any headers reaches the host on port 443. |
| HttpProxy.ParseHost | src/Tor/Proxy/Connection/Connection.cs:220-285 | Any other request (a POST with a length that parses included) reaches the `Host` header's host: port 80 for `host`, the named port for `host:port`; the version is `HTTP/1.1`. |
| HttpProxy.ParseNoHost | src/Tor/Proxy/Connection/Connection.cs:270-273 | A request other than CONNECT without a `Host` header fails with a `TorException`. |
| HttpProxy.ParsePostWithoutLength | src/Tor/Proxy/Connection/Connection.cs:220-225 | A POST with no `Content-Length` header, or one that does not parse, fails with a `TorException` whatever its target. |
| HttpProxy.Forwarded | src/Tor/Proxy/Connection/Connection.cs:163-166 | Exactly the headers whose name does not start with `proxy`, in any case, are forwarded. |
| HttpProxy.GetHeader | src/Tor/Proxy/Connection/Connection.cs:156-172 | The header is the request line, one line per forwarded header and an empty line, each followed by CRLF. |
| HttpProxy.GetHeaderLines | src/Tor/Proxy/Connection/Connection.cs:156-172 | The header text splits at CRLF into the request line, one `Name: Value` line per forwarded header, and the empty last line. |
| HttpProxy.EntryLinesRead | src/Tor/Proxy/Connection/Connection.cs:168 | Each written header line reads back as its name and value. |
| HttpProxy.ForwardedUnique | src/Tor/Proxy/Connection/Connection.cs:163-169 | Filtering keeps header names unique. |
| HttpProxy.GetHeaderReadsBack | src/Tor/Proxy/Connection/Connection.cs:156-218 | The header written, read again, gives the same request line and exactly the forwarded headers, in order. |
| Hosts.NewHost | src/Tor/Core/Host.cs:24-31 | A blank address throws. The port is -1 and the host is not null. |
| Hosts.NewHostWithPort | src/Tor/Core/Host.cs:38-47 | The address is checked first, then the port must be -1 or 1..32767. |
| Hosts.SetAddress | src/Tor/Core/Host.cs:57-63 | A blank address throws; otherwise only the address changes. |
| Hosts.SetPortAsWritten | src/Tor/Core/Host.cs:80-86 | The setter succeeds exactly when the current port is valid, whatever the new value. |
| Hosts.SetPortAsWrittenAcceptsInvalid | src/Tor/Core/Host.cs:80-86 | Port 0 gets in, and after it no port can be set, even a valid one. |
| Hosts.SetPort | src/Tor/Core/Host.cs:80-86 | The corrected setter succeeds exactly for a valid new port. |
| Hosts.HostText | src/Tor/Core/Host.cs:136-142 | Port -1 prints the address alone. Any other port prints the address, `:` and then the port. |
| Hosts.HostTextInjective | src/Tor/Core/Host.cs:136-142 | Hosts with `:`-free addresses print alike only when equal. |
| Hosts.AuthText | src/Tor/Core/HostAuth.cs:106-114 | Null prints `""`. Without a password it prints the user name; otherwise `user:password`. |
| Hosts.AuthFromText | src/Tor/Core/Converters/HostAuthTypeConverter.cs:43-66 | Null converts to `HostAuth.Null`. Text without `:` is a user name alone. Text with `:` must split into exactly two parts, or the conversion throws an invalid cast. |
| Hosts.AuthFromTextTwoColons | src/Tor/Core/Converters/HostAuthTypeConverter.cs:52-57 | Two or more `:` throw an invalid cast. |
| Hosts.AuthTextRoundTrip | src/Tor/Core/Converters/HostAuthTypeConverter.cs:45-90 | Text with at most one `:` converts and prints back as itself. |
| Hosts.AuthFromTextRoundTrip | src/Tor/Core/Converters/HostAuthTypeConverter.cs:45-90 | A value with a user name and `:`-free parts prints and converts back as itself. |
| ClientParams.ChecksMatchKinds | src/Tor/Configuration/Enumerators/ConfigurationNames.cs:13-115 | Numeric checks sit only on integer options. The size check sits only on size options that also refuse null. |
| ClientParams.NewCreateParams | src/Tor/ClientCreateParams.cs:28-83 | The constructors store their arguments. The defaults are port 9051, password `""`, no configuration files and no overrides. |
| ClientParams.ValidateCreate | src/Tor/ClientCreateParams.cs:284-290 | The parameters pass exactly with a non-blank path and a port in 1..32767. |
| ClientParams.DefaultsNeedPath | src/Tor/ClientCreateParams.cs:28-36 | The parameterless constructor fails validation; a path with the default port passes. |
| ClientParams.TypeAndRangeChecks | src/Tor/ClientCreateParams.cs:242-264 | The type must match. The option's NonNull, NonZero, NonNegative and PortRange checks must pass. Each check has its own exception. |
| ClientParams.Store | src/Tor/ClientCreateParams.cs:275-278 | `ControlPort` sets only the port field. Any other option sets only its own override. |
| ClientParams.SetConfigAsWritten | src/Tor/ClientCreateParams.cs:235-279 | Anything accepted is stored as `Store` says. |
| ClientParams.SetConfig | src/Tor/ClientCreateParams.cs:235-279 | A value is accepted exactly when its type matches and every check passes, with sizes needing whole kilobytes. A wrong type throws `ArgumentException`. |
| ClientParams.SetConfigAgrees | src/Tor/ClientCreateParams.cs:242-264 | Options without the size check behave the same in both versions. |
| ClientParams.SetConfigAsWrittenRefusesSizes | src/Tor/ClientCreateParams.cs:266-272 | As written, every size value is refused with an invalid cast; the corrected check stores 1 MB. |
| ClientParams.KilobyteSizes | src/Tor/ClientCreateParams.cs:270 | 1 MB is a whole number of kilobytes; 1 B is not. |
| ClientParams.EqualsLaws | src/Tor/ClientCreateParams.cs:146-178 | Equality is an equivalence that ignores the overrides, and equal parameters hash alike. |
| ClientParams.HashCode | src/Tor/ClientCreateParams.cs:166-178 | The hash is a 32-bit value. |
| ClientParams.ValueText | src/Tor/ClientCreateParams.cs:213-217 | Converting a value to text fails exactly for sizes, hosts and credentials. |
| Text.QuoteIfSpaced | src/Tor/ClientCreateParams.cs:218-219 | Quotes are added exactly when the text holds a space; nothing inside is escaped. `setconf` as written quotes its value the same way. |
| ClientParams.OverrideArgument | src/Tor/ClientCreateParams.cs:204-222 | Each override gives `--Name` and its quoted text. |
| ClientParams.OverrideArguments | src/Tor/ClientCreateParams.cs:204-222 | Overrides give two arguments each, in order, or fail at the first value without a text form. |
| ClientParams.FileArgument | src/Tor/ClientCreateParams.cs:198-202 | A file argument appears, quoted, only for a non-blank path. |
| ClientParams.Arguments | src/Tor/ClientCreateParams.cs:186-225 | The arguments start with the six fixed ones carrying the control port. |
| ClientParams.CommandLine | src/Tor/ClientCreateParams.cs:186-225 | The command line exists exactly when every override value has a text form. |
| ClientParams.CommandLineReadsBack | src/Tor/ClientCreateParams.cs:186-225 | Splitting the line at spaces gives the arguments back, and the control port parses back. |
| ClientParams.NewRemoteParams | src/Tor/ClientRemoteParams.cs:23-55 | The constructors store their arguments. The defaults are a null address, port 9051 and password `""`. |
| ClientParams.ValidateRemote | src/Tor/ClientRemoteParams.cs:92-98 | The parameters pass exactly with a non-blank address and a port in 1..32767. |
| ClientParams.PortBounds | src/Tor/ClientRemoteParams.cs:94-97 | Ports 1 and 32767 pass, 0 and 32768 fail, and the defaults fail for lack of an address. |

## Left out

- Sockets, asynchronous callbacks, locks and processes are not modelled:
  - `Events` connect and authenticate;
  - the controller `Connection` class's `Write`, `Read` and reply framing;
  - `ForwardSocket`, `Socks5Stream`, the proxy listener and byte relay;
  - `Client`'s process start.

  A command sees the outcome of `Write` and `Read` as an `Exchange`, and SOCKS5 receives are the bytes or byte counts they deliver.
- The first read of `Proxy.Connection.GetHeaderData` is given as a sequence of lines rather than a socket stream. The POST body loop (which reads `Content-Length` bytes) is not modelled; only its precondition, a `Content-Length` header that parses, is checked.
- Reflection is replaced by written-out tables: the dispatcher scan, `ReflectionHelper`, the `Description` and `ConfigurationAssoc` attributes. `ReflectionHelper.Convert` to string is modelled for the value kinds an override can hold.
- `double.TryParse`, `DateTime.TryParse`, `IPAddress.TryParse`, string hash codes and the router-status lookup are function parameters. `int` and `long` parsing and formatting are modelled concretely.
- Floating point is modelled on reals:
  - `Math.Round(x, 4)` is exact decimal rounding with ties to even, not IEEE `double` arithmetic;
  - `Bytes.ToString`, `Bytes.GetHashCode` and `BytesTypeConverter` are not modelled.
- `Bytes.Equals`, `Host.Equals` and `HostAuth.Equals` compare every field, which is Dafny's datatype equality, so they have no separate member. `Host.GetHashCode` and `HostAuth.GetHashCode` are not modelled.
- Culture-aware comparisons (`StartsWith(string)`, `CurrentCultureIgnoreCase`) use ordinal prefixes and ASCII case folding. String lengths count characters, not UTF-16 code units.
- Parsing circuit, stream and OR-connection event bodies (`FromLine`) is not part of this model. The status registry takes the parsed records as given.
- `HostTypeConverter` is not part of this model.
- The status getters that run commands (dormancy, version, country, traffic totals) are not modelled.
- These trivial commands are not modelled: `SaveConfCommand`, `SignalNewCircuitCommand`, `SignalClearDNSCacheCommand`. The same goes for `Logging`, `Socks5Proxy` and the event-args classes.
- The older duplicates `src/Tor/Events/Enumerators/Events.cs` and `src/Tor/Events/Event.cs` are not modelled; the current `Events/Events.cs` and `Events/Enumerators/Event.cs` are.
- `Events.SetEventResponse` joins the lines of a multi-line reply with `StringBuilder.AppendLine`, which writes `Environment.NewLine`. The model fixes that as CRLF, the newline on Windows. On other platforms it is LF alone, and the dispatchers' CRLF splits would then see one line.
- `SETEVENTS` lists kinds in enumeration order. The source lists them in its `Dictionary`'s enumeration order, which Tor does not depend on.
- Socks5.ConnectRequestAsWritten: an IPv6 end point is modelled as sending its first four address bytes, as `Array.Copy(address, 0, buffer, 4, 4)` does. The model does not say whether that is intended.
- Socks5.PortBytes: the `(short)` cast and byte swap are stated through the port's low 16 bits, not through the bit pattern of a negative `short`.
- ClientParams.HashCode: states only the 32-bit range and, in `EqualsLaws`, agreement with equality. The exact mixing is given by the body.
- EventDispatch.Parts: states only the field count. The field contents are stated by `DispatchSpaceForm`, `DispatchDashForm` and `DispatchBlock` for the forms Tor sends.
- Controller.ExtendWithRouters: a null array or a null router makes the source throw `NullReferenceException` (`routers.Length`, `routers[i].Nickname`). A `seq<Router>` holds neither, so that case is not modelled; a router with a null nickname is, and sends an empty field.
- Subscriptions.Subscribe: after disposal the source's `add` accessor appends the handler before `AddEvent` throws; the model's failure drops it. Once disposed, no event is dispatched, so the difference cannot be seen.
- HttpProxy.HeaderPair: states when a line is skipped. What a kept line reads as is stated by `EntryLinesRead` for the lines `GetHeader` writes.

## Findings

| source | as written | input that shows it | evidently intended | confidence | as-written member | corrected member |
|---|---|---|---|---|---|---|
| src/Tor/Events/Events.cs:94 | The `BandwidthChanged` `remove` accessor uses `+=`, so it adds the handler again. | Subscribe handler h to bandwidth, then unsubscribe h. | `-=`, as every other event's accessor has. | not executed | Subscriptions.UnsubscribeAsWritten, Subscriptions.BandwidthRemoveReAdds | Subscriptions.Unsubscribe, Subscriptions.SubscribeThenUnsubscribe |
| src/Tor/Core/Host.cs:80-86 | The `Port` setter validates the field's current port, not `value`. | Set port 0 on `localhost:9050`: it is accepted, and later valid ports are refused. | Validate `value`, as the constructor does. | not executed | Hosts.SetPortAsWritten, Hosts.SetPortAsWrittenAcceptsInvalid | Hosts.SetPort |
| src/Tor/Net/Processors/Socks5Processor.cs:172 | The host length is cast to a byte, so lengths of 256 and above wrap. | A 300-character host name is sent with length byte 44. | Refuse host names over 255 characters, the most section 5 of RFC 1928 allows. | not executed | Socks5.ConnectRequestAsWritten, Socks5.LongHostAsWritten, Socks5.HandshakeAsWritten, Socks5.LongHostHandshakeAsWritten | Socks5.ConnectRequest, Socks5.ConnectRequestRoundTrip, Socks5.Handshake |
| src/Tor/ClientCreateParams.cs:266-272 | The `SizeDivision` check calls `Convert.ToDouble` on a `Bytes` value, which throws `InvalidCastException`. | `SetConfig(BandwidthRate, new Bytes(1, MB))` | Check that the size's byte count is a multiple of 1024. | not executed | ClientParams.SetConfigAsWritten, ClientParams.SetConfigAsWrittenRefusesSizes | ClientParams.SetConfig |
| src/Tor/Controller/Commands/SetConfCommand.cs:41 | A value holding a space is wrapped in quotes without escaping `\` or `"`. | The value `C:\Tor Data` reads back as `C:Tor Data`, and `say "hi"` does not read at all. | Escape `\` and `"` inside the quotes, and also quote a value that starts with `"`. | not executed | ControlCommands.SetConfAsWritten, ControlCommands.ConfValueAsWrittenDropsBackslashes, ControlCommands.ConfValueAsWrittenRefusesQuote, ControlCommands.ConfValueAsWrittenRefusesLeadingQuote | ControlCommands.ConfValueRoundTrip, ControlCommands.SetConf |

=== FILE: bytes.dfy ===
/** `Tor.Bytes`: a size in one of five binary units, with `Normalize` (move to
    the largest unit that keeps the magnitude at least 1) and `ToUnit`.
    Values are reals; `Math.Round(x, 4)` is decimal rounding to four places with
    ties to even, as .NET's default midpoint rule does. */
module ByteSizes {

  /** `Bits`: B = 0, KB = 1, MB = 2, GB = 3, TB = 4. */
  type Bits = u: int | 0 <= u <= 4

  const B: Bits := 0
  const KB: Bits := 1
  const MB: Bits := 2
  const GB: Bits := 3
  const TB: Bits := 4

  datatype Bytes = Bytes(value: real, units: Bits)

  /** `Bytes.Empty`, the default struct value. */
  const Empty := Bytes(0.0, B)

  function Abs(x: real): (r: real)
    ensures r >= 0.0 && (r == x || r == -x)
  {
    if x < 0.0 then -x else x
  }

  /** Nearest integer, ties to the even neighbour. */
  function RoundHalfEven(x: real): (n: int)
    ensures x - 0.5 <= n as real <= x + 0.5
  {
    var f := x.Floor;
    var frac := x - f as real;
    if frac < 0.5 then f
    else if frac > 0.5 then f + 1
    else if f % 2 == 0 then f else f + 1
  }

  /** `Math.Round(x, 4)`. */
  function Round4(x: real): (r: real)
    ensures x - 0.00005 <= r <= x + 0.00005
  {
    RoundHalfEven(x * 10000.0) as real / 10000.0
  }

  /** `x` has at most four decimal places, so `Round4` leaves it alone. */
  predicate FourDecimals(x: real) {
    (x * 10000.0).Floor as real == x * 10000.0
  }

  lemma Round4Exact(x: real)
    requires FourDecimals(x)
    ensures Round4(x) == x
  {
  }

  lemma Round4NonNegative(x: real)
    requires x >= 0.0
    ensures Round4(x) >= 0.0
  {
    assert (x * 10000.0).Floor >= 0;
  }

  lemma Round4AtLeastOne(x: real)
    requires x >= 1.0
    ensures Round4(x) >= 1.0
  {
    assert (x * 10000.0).Floor >= 10000;
  }

  /** The `while` loop of `Normalize`: divide by 1024 and raise the unit while the
      magnitude is at least 1024 and the unit is below TB. */
  function NormalizeLoop(absolute: real, unit: Bits): (r: (real, Bits))
    requires absolute >= 0.0
    ensures unit <= r.1 <= TB
    ensures r.1 == TB || r.0 < 1024.0
    ensures r.0 >= 0.0
    ensures r.1 > unit ==> r.0 >= 1.0
    ensures r.1 == unit ==> r.0 == absolute
    decreases TB - unit
  {
    if 1024.0 <= absolute && unit < TB then
      Round4AtLeastOne(absolute / 1024.0);
      NormalizeLoop(Round4(absolute / 1024.0), unit + 1)
    else (absolute, unit)
  }

  function Sign(negative: bool, x: real): real {
    if negative then -x else x
  }

  /** A size as `Normalize` leaves it: below 1024 of its unit, or in terabytes. */
  predicate IsNormal(b: Bytes) {
    b.units == TB || Abs(b.value) < 1024.0
  }

  /** `Bytes.Normalize`. */
  function Normalize(b: Bytes): (r: Bytes)
    ensures b.units == TB || b.value == 0.0 ==> r == b
    ensures b.units <= r.units <= TB
    ensures IsNormal(r)
    ensures (r.value > 0.0 <==> b.value > 0.0) && (r.value < 0.0 <==> b.value < 0.0)
  {
    if b.units == TB then b
    else if b.value == 0.0 then b
    else
      var (a, u) := NormalizeLoop(Abs(b.value), b.units);
      Bytes(Sign(b.value < 0.0, a), u)
  }

  /** Normalizing twice is normalizing once. */
  lemma NormalizeIdempotent(b: Bytes)
    ensures Normalize(Normalize(b)) == Normalize(b)
  {
  }

  /** The multiplying loop of `ToUnit`, run `n` times. */
  function MulSteps(absolute: real, n: nat): (r: real)
    requires absolute >= 0.0
    ensures r >= 0.0
    decreases n
  {
    if n == 0 then absolute
    else
      Round4NonNegative(absolute * 1024.0);
      MulSteps(Round4(absolute * 1024.0), n - 1)
  }

  /** The dividing loop of `ToUnit`, run `n` times. */
  function DivSteps(absolute: real, n: nat): (r: real)
    requires absolute >= 0.0
    ensures r >= 0.0
    decreases n
  {
    if n == 0 then absolute
    else
      Round4NonNegative(absolute / 1024.0);
      DivSteps(Round4(absolute / 1024.0), n - 1)
  }

  /** `Bytes.ToUnit(unit)`: `from = 10 - units`, `to = 10 - unit`; multiply while
      `from < to`, otherwise divide while `to < from`. */
  function ToUnit(b: Bytes, unit: Bits): (r: Bytes)
    ensures r.units == unit
    ensures b.units == unit ==> r == b
    ensures b.value == 0.0 ==> r.value == 0.0
    ensures b.value >= 0.0 ==> r.value >= 0.0
    ensures b.value <= 0.0 ==> r.value <= 0.0
  {
    if b.units == unit then b
    else if b.value == 0.0 then Bytes(0.0, unit)
    else
      var from := 10 - b.units;
      var to := 10 - unit;
      var absolute := Abs(b.value);
      var a := if from < to then MulSteps(absolute, to - from) else DivSteps(absolute, from - to);
      Bytes(Sign(b.value < 0.0, a), unit)
  }

  lemma FourDecimalsTimes1024(x: real)
    requires FourDecimals(x)
    ensures FourDecimals(x * 1024.0)
  {
    var k := (x * 10000.0).Floor;
    assert x * 10000.0 == k as real;
    var y := x * 1024.0 * 10000.0;
    assert y == (k * 1024) as real;
    assert y.Floor == k * 1024;
  }

  /** Without anything to round, the multiplying loop scales by 1024 per step, so
      its last step multiplies the result of the others by 1024. */
  lemma {:induction false} MulStepsLast(x: real, n: nat)
    requires x >= 0.0 && FourDecimals(x) && n > 0
    ensures FourDecimals(MulSteps(x, n - 1)) && FourDecimals(MulSteps(x, n))
    ensures MulSteps(x, n) == MulSteps(x, n - 1) * 1024.0
    ensures MulSteps(x, n) >= x
    decreases n
  {
    FourDecimalsTimes1024(x);
    Round4Exact(x * 1024.0);
    if n > 1 {
      MulStepsLast(x * 1024.0, n - 1);
    }
  }

  /** Dividing `n` times undoes multiplying `n` times when nothing is rounded away. */
  lemma {:induction false} DivStepsUndoMulSteps(x: real, n: nat)
    requires x >= 0.0 && FourDecimals(x)
    ensures DivSteps(MulSteps(x, n), n) == x
    decreases n
  {
    if n > 0 {
      MulStepsLast(x, n);
      Round4Exact(MulSteps(x, n - 1));
      DivStepsUndoMulSteps(x, n - 1);
    }
  }

  lemma FourDecimalsAbs(x: real)
    requires FourDecimals(x)
    ensures FourDecimals(Abs(x))
  {
    if x < 0.0 {
      var k := (x * 10000.0).Floor;
      assert x * 10000.0 == k as real;
      var y := Abs(x) * 10000.0;
      assert Abs(x) == -x;
      assert y == (-k) as real;
      assert y.Floor == -k;
    }
  }

  /** Converting to a smaller unit and back gives the original size whenever its
      value has at most four decimal places. */
  lemma ToUnitRoundTrip(b: Bytes, unit: Bits)
    requires unit < b.units && FourDecimals(b.value)
    ensures ToUnit(ToUnit(b, unit), b.units) == b
  {
    if b.value != 0.0 {
      var n := b.units - unit;
      var x := Abs(b.value);
      var negative := b.value < 0.0;
      FourDecimalsAbs(b.value);
      MulStepsLast(x, n);
      var m := MulSteps(x, n);
      var c := ToUnit(b, unit);
      assert c == Bytes(Sign(negative, m), unit);
      assert m > 0.0 && Abs(c.value) == m && (c.value < 0.0 <==> negative);
      DivStepsUndoMulSteps(x, n);
      assert ToUnit(c, b.units) == Bytes(Sign(negative, x), b.units);
    }
  }

  /** The loop of `Normalize` is the dividing loop of `ToUnit`, run once per unit
      it climbs. */
  lemma {:induction false} NormalizeLoopIsDivSteps(absolute: real, unit: Bits)
    requires absolute >= 0.0
    ensures var r := NormalizeLoop(absolute, unit); r.0 == DivSteps(absolute, r.1 - unit)
    decreases TB - unit
  {
    if 1024.0 <= absolute && unit < TB {
      Round4AtLeastOne(absolute / 1024.0);
      NormalizeLoopIsDivSteps(Round4(absolute / 1024.0), unit + 1);
    }
  }

  /** `Normalize` agrees with `ToUnit` to the unit it picks. */
  lemma NormalizeIsToUnit(b: Bytes)
    ensures Normalize(b) == ToUnit(b, Normalize(b).units)
  {
    if b.units != TB && b.value != 0.0 {
      NormalizeLoopIsDivSteps(Abs(b.value), b.units);
    }
  }

  /** 1536 bytes normalize to 1.5 KB. */
  lemma NormalizeExample()
    ensures Normalize(Bytes(1536.0, B)) == Bytes(1.5, KB)
  {
    assert FourDecimals(1.5);
    Round4Exact(1.5);
  }
}

=== FILE: client_params.dfy ===
/** `Tor.ClientCreateParams` (how to start a Tor process: its path, control
    port and password, configuration files and option overrides) and
    `Tor.ClientRemoteParams` (how to reach a running one). The option table
    is the `ConfigurationAssoc` attribute of each `ConfigurationNames` member,
    written out. */
module ClientParams {
  import opened Wrappers
  import opened Text
  import opened Dictionaries
  import opened ByteSizes
  import Hosts

  /** `ConfigurationValidation`, one flag each; `Positive` is NonNegative
      together with NonZero. */
  datatype Checks = Checks(nonNull: bool, nonNegative: bool, nonZero: bool, portRange: bool, sizeDivision: bool)

  const NoChecks := Checks(false, false, false, false, false)
  const NonNull := NoChecks.(nonNull := true)
  const Positive := NoChecks.(nonNegative := true, nonZero := true)
  const PortRange := NoChecks.(portRange := true)
  const SizeChecks := NoChecks.(nonNull := true, sizeDivision := true)

  /** The declared type of an option's value. */
  datatype Kind = BoolKind | IntKind | StringKind | BytesKind | AutoKind | HostKind | HostAuthKind

  /** `Tor.Auto`. */
  datatype AutoMode = AutoAuto | AutoFalse | AutoTrue

  /** A non-null option value, tagged with its runtime type. */
  datatype Value =
    | BoolValue(b: bool)
    | IntValue(i: int)
    | StringValue(s: string)
    | BytesValue(size: Bytes)
    | AutoValue(mode: AutoMode)
    | HostValue(host: Hosts.Host)
    | HostAuthValue(auth: Hosts.HostAuth)

  function KindOf(v: Value): Kind {
    match v
    case BoolValue(_) => BoolKind
    case IntValue(_) => IntKind
    case StringValue(_) => StringKind
    case BytesValue(_) => BytesKind
    case AutoValue(_) => AutoKind
    case HostValue(_) => HostKind
    case HostAuthValue(_) => HostAuthKind
  }

  /** `ConfigurationNames`. */
  datatype ConfigName =
    | AllowDotExit | AllowNonRFC953HostNames | AvoidDiskWrites | BandwidthRate
    | CircuitBuildTimeout | CircuitIdleTimeout | ClientPreferIPv6ORPort | ClientUseIPv6
    | ControlPort | ConstrainedSockets | ConstrainedSockSize | DisableNetwork
    | EnforceDistinctSubnets | ExcludeSingleHopRelays | FascistFirewall | FastFirstHopPK
    | GeoIPFile | GeoIPv6File | HardwareAcceleration | HashedControlPassword
    | HTTPProxy | HTTPProxyAuthenticator | HTTPSProxy | HTTPSProxyAuthenticator
    | KeepAlivePeriod | LearnCircuitBuildTimeout | MaxCircuitDirtiness | MaxClientCircuitsPending
    | NewCircuitPeriod | OptimisticData | SafeSocks | SocksPort
    | SocksTimeout | UseMicroDescriptors

  /** `ConfigurationAssocAttribute`, one column at a time: the option's name
      on the command line, its value type and its checks. */
  function OptionName(n: ConfigName): string {
    match n
    case AllowDotExit => "AllowDotExit"
    case AllowNonRFC953HostNames => "AllowNonRFC953HostNames"
    case AvoidDiskWrites => "AvoidDiskWrites"
    case BandwidthRate => "BandwidthRate"
    case CircuitBuildTimeout => "CircuitBuildTimeout"
    case CircuitIdleTimeout => "CircuitIdleTimeout"
    case ClientPreferIPv6ORPort => "ClientPreferIPv6ORPort"
    case ClientUseIPv6 => "ClientUseIPv6"
    case ControlPort => "ControlPort"
    case ConstrainedSockets => "ConstrainedSockets"
    case ConstrainedSockSize => "ConstrainedSockSize"
    case DisableNetwork => "DisableNetwork"
    case EnforceDistinctSubnets => "EnforceDistinctSubnets"
    case ExcludeSingleHopRelays => "ExcludeSingleHopRelays"
    case FascistFirewall => "FascistFirewall"
    case FastFirstHopPK => "FastFirstHopPK"
    case GeoIPFile => "GeoIPFile"
    case GeoIPv6File => "GeoIPv6File"
    case HardwareAcceleration => "HardwareAccel"
    case HashedControlPassword => "HashedControlPassword"
    case HTTPProxy => "HTTPProxy"
    case HTTPProxyAuthenticator => "HTTPProxyAuthenticator"
    case HTTPSProxy => "HTTPSProxy"
    case HTTPSProxyAuthenticator => "HTTPSProxyAuthenticator"
    case KeepAlivePeriod => "KeepalivePeriod"
    case LearnCircuitBuildTimeout => "LearnCircuitBuildTimeout"
    case MaxCircuitDirtiness => "MaxCircuitDirtiness"
    case MaxClientCircuitsPending => "MaxClientCircuitsPending"
    case NewCircuitPeriod => "NewCircuitPeriod"
    case OptimisticData => "OptimisticData"
    case SafeSocks => "SafeSocks"
    case SocksPort => "SocksPort"
    case SocksTimeout => "SocksTimeout"
    case UseMicroDescriptors => "UseMicrodescriptors"
  }

  function OptionKind(n: ConfigName): Kind {
    match n
    case AllowDotExit | AllowNonRFC953HostNames | AvoidDiskWrites | ClientPreferIPv6ORPort |
      ClientUseIPv6 | ConstrainedSockets | DisableNetwork | EnforceDistinctSubnets |
      ExcludeSingleHopRelays | FascistFirewall | HardwareAcceleration | LearnCircuitBuildTimeout |
      SafeSocks => BoolKind
    case BandwidthRate | ConstrainedSockSize => BytesKind
    case CircuitBuildTimeout | CircuitIdleTimeout | ControlPort | KeepAlivePeriod |
      MaxCircuitDirtiness | MaxClientCircuitsPending | NewCircuitPeriod | SocksPort |
      SocksTimeout => IntKind
    case FastFirstHopPK | OptimisticData | UseMicroDescriptors => AutoKind
    case GeoIPFile | GeoIPv6File | HashedControlPassword => StringKind
    case HTTPProxy | HTTPSProxy => HostKind
    case HTTPProxyAuthenticator | HTTPSProxyAuthenticator => HostAuthKind
  }

  function OptionChecks(n: ConfigName): Checks {
    match n
    case AllowDotExit | AllowNonRFC953HostNames | AvoidDiskWrites | ClientPreferIPv6ORPort |
      ClientUseIPv6 | ConstrainedSockets | DisableNetwork | EnforceDistinctSubnets |
      ExcludeSingleHopRelays | FascistFirewall | FastFirstHopPK | GeoIPFile | GeoIPv6File |
      HardwareAcceleration | HTTPProxy | HTTPProxyAuthenticator | HTTPSProxy |
      HTTPSProxyAuthenticator | LearnCircuitBuildTimeout | OptimisticData | SafeSocks |
      UseMicroDescriptors => NoChecks
    case BandwidthRate | ConstrainedSockSize => SizeChecks
    case CircuitBuildTimeout | CircuitIdleTimeout | KeepAlivePeriod | MaxCircuitDirtiness |
      MaxClientCircuitsPending | NewCircuitPeriod | SocksTimeout => Positive
    case ControlPort | SocksPort => PortRange
    case HashedControlPassword => NonNull
  }

  /** The numeric checks sit only on integer options, and the size check only
      on size options that also refuse null. */
  lemma ChecksMatchKinds(n: ConfigName)
    ensures var c := OptionChecks(n);
      && ((c.nonZero || c.nonNegative || c.portRange) ==> OptionKind(n) == IntKind)
      && (c.sizeDivision ==> OptionKind(n) == BytesKind && c.nonNull)
  {
  }

  /** The port range both classes accept, up to `short.MaxValue`. */
  predicate ValidPort(port: int) {
    0 < port <= Hosts.MaxPort
  }

  // ---------------------------------------------------------------------
  // ClientCreateParams

  /** The fields of `ClientCreateParams`; a null string is `None`. The
      overrides are a dictionary from option to value (null is `None`). */
  datatype CreateParams = CreateParams(
    path: Option<string>,
    controlPort: int,
    controlPassword: Option<string>,
    configurationFile: Option<string>,
    defaultConfigurationFile: Option<string>,
    overrides: Dict<ConfigName, Option<Value>>)

  /** The constructors: each overload leaves out trailing arguments, which
      take the defaults port 9051, password `""` and no configuration file.
      No default configuration file and no overrides either way. */
  function NewCreateParams(path: Option<string> := None, controlPort: int := 9051,
                           controlPassword: Option<string> := Some(""),
                           configurationFile: Option<string> := None): (r: CreateParams)
    ensures r.path == path && r.controlPort == controlPort
    ensures r.controlPassword == controlPassword && r.configurationFile == configurationFile
    ensures r.defaultConfigurationFile.None? && r.overrides == []
  {
    CreateParams(path, controlPort, controlPassword, configurationFile, None, [])
  }

  /** `ValidateParameters`: the path must not be blank and the control port
      must lie in 1..32767. */
  function ValidateCreate(p: CreateParams): (r: Result<()>)
    ensures r.Success? <==> !IsNullOrWhiteSpace(p.path) && ValidPort(p.controlPort)
    ensures r.Failure? ==> r.error == TorFailure
  {
    if IsNullOrWhiteSpace(p.path) then Failure(TorFailure)
    else if !ValidPort(p.controlPort) then Failure(TorFailure)
    else Success(())
  }

  /** The parameterless constructor leaves no path, so validation refuses
      it; a path and the default port pass. */
  lemma DefaultsNeedPath(path: string)
    requires !IsBlank(path)
    ensures ValidateCreate(NewCreateParams()).Failure?
    ensures ValidateCreate(NewCreateParams(Some(path))).Success?
  {
  }

  /** `Convert.ToInt32` on the values the numeric checks see: null is 0. */
  function IntOf(value: Option<Value>): int {
    if value.Some? && value.value.IntValue? then value.value.i else 0
  }

  function Pow1024(n: nat): (r: real)
    ensures r >= 1.0
  {
    if n == 0 then 1.0 else 1024.0 * Pow1024(n - 1)
  }

  /** The number of bytes a size stands for. */
  function ByteCount(b: Bytes): real {
    b.value * Pow1024(b.units)
  }

  predicate Whole(x: real) {
    x.Floor as real == x
  }

  /** What `SetConfig` should accept: a value of the option's type (or null),
      and one that passes each of the option's checks. A size passes when
      its byte count is a whole number of kilobytes. */
  predicate Accepts(n: ConfigName, value: Option<Value>) {
    var c := OptionChecks(n);
    && (value.Some? ==> KindOf(value.value) == OptionKind(n))
    && (c.nonNull ==> value.Some?)
    && (c.nonZero ==> IntOf(value) != 0)
    && (c.nonNegative ==> IntOf(value) >= 0)
    && (c.portRange ==> ValidPort(IntOf(value)))
    && SizeOk(n, value)
  }

  /** The intended size check: a size is a whole number of kilobytes. */
  predicate SizeOk(n: ConfigName, value: Option<Value>) {
    (OptionChecks(n).sizeDivision && value.Some? && value.value.BytesValue?) ==> Whole(ByteCount(value.value.size) / 1024.0)
  }

  /** The checks of `SetConfig` up to the size check, each with the exception
      it throws. */
  function TypeAndRangeChecks(n: ConfigName, value: Option<Value>): (r: Option<Error>)
    ensures r.None? <==> (
      && (value.Some? ==> KindOf(value.value) == OptionKind(n))
      && (OptionChecks(n).nonNull ==> value.Some?)
      && (OptionChecks(n).nonZero ==> IntOf(value) != 0)
      && (OptionChecks(n).nonNegative ==> IntOf(value) >= 0)
      && (OptionChecks(n).portRange ==> ValidPort(IntOf(value))))
    ensures value.Some? && KindOf(value.value) != OptionKind(n) ==> r == Some(Argument)
    ensures value.None? && OptionChecks(n).nonNull ==> r == Some(ArgumentNull)
  {
    var c := OptionChecks(n);
    if value.Some? && KindOf(value.value) != OptionKind(n) then Some(Argument)
    else if c.nonNull && value.None? then Some(ArgumentNull)
    else if c.nonZero && IntOf(value) == 0 then Some(ArgumentOutOfRange)
    else if c.nonNegative && IntOf(value) < 0 then Some(ArgumentOutOfRange)
    else if c.portRange && !ValidPort(IntOf(value)) then Some(ArgumentOutOfRange)
    else None
  }

  /** Storing an accepted value: the control port goes to its own field,
      every other option into the overrides. */
  function Store(p: CreateParams, n: ConfigName, value: Option<Value>): (r: CreateParams)
    requires UniqueKeys(p.overrides)
    ensures UniqueKeys(r.overrides)
    ensures n == ControlPort ==> r == p.(controlPort := IntOf(value))
    ensures n != ControlPort ==> r.controlPort == p.controlPort
    ensures n != ControlPort ==> forall k :: Lookup(r.overrides, k) == if k == n then Some(value) else Lookup(p.overrides, k)
    ensures r.path == p.path && r.controlPassword == p.controlPassword
      && r.configurationFile == p.configurationFile && r.defaultConfigurationFile == p.defaultConfigurationFile
  {
    if n == ControlPort then p.(controlPort := IntOf(value))
    else
      var o := Put(p.overrides, n, value);
      assert forall k :: Lookup(o, k) == if k == n then Some(value) else Lookup(p.overrides, k) by {
        forall k ensures Lookup(o, k) == if k == n then Some(value) else Lookup(p.overrides, k) {
          PutLookup(p.overrides, n, value, k);
        }
      }
      p.(overrides := o)
  }

  /** `SetConfig` as written: the size check converts the value with
      `Convert.ToDouble`, which a `Bytes` value does not support, so every
      size is refused with an invalid cast. */
  function SetConfigAsWritten(p: CreateParams, n: ConfigName, value: Option<Value>): (r: Result<CreateParams>)
    requires UniqueKeys(p.overrides)
    ensures r.Success? ==> r.value == Store(p, n, value)
  {
    match TypeAndRangeChecks(n, value)
    case Some(e) => Failure(e)
    case None =>
      if OptionChecks(n).sizeDivision && value.Some? then Failure(InvalidCast)
      else Success(Store(p, n, value))
  }

  /** `SetConfig` with the size check applied to the byte count. */
  function SetConfig(p: CreateParams, n: ConfigName, value: Option<Value>): (r: Result<CreateParams>)
    requires UniqueKeys(p.overrides)
    ensures r.Success? <==> Accepts(n, value)
    ensures r.Success? ==> r.value == Store(p, n, value)
    ensures value.Some? && KindOf(value.value) != OptionKind(n) ==> r == Failure(Argument)
  {
    match TypeAndRangeChecks(n, value)
    case Some(e) => Failure(e)
    case None =>
      if !SizeOk(n, value) then Failure(Argument)
      else Success(Store(p, n, value))
  }

  /** Options without the size check behave the same either way. */
  lemma SetConfigAgrees(p: CreateParams, n: ConfigName, value: Option<Value>)
    requires UniqueKeys(p.overrides)
    requires !OptionChecks(n).sizeDivision
    ensures SetConfig(p, n, value) == SetConfigAsWritten(p, n, value)
  {
  }

  /** As written, no size can ever be stored: one megabyte for
      `BandwidthRate` is refused, where the corrected check stores it. */
  lemma SetConfigAsWrittenRefusesSizes(p: CreateParams, size: Bytes)
    requires UniqueKeys(p.overrides)
    ensures SetConfigAsWritten(p, BandwidthRate, Some(BytesValue(size))) == Failure(InvalidCast)
    ensures SetConfigAsWritten(p, ConstrainedSockSize, Some(BytesValue(size))) == Failure(InvalidCast)
    ensures SetConfig(p, BandwidthRate, Some(BytesValue(Bytes(1.0, MB)))).Success?
    ensures SetConfig(p, BandwidthRate, Some(BytesValue(Bytes(1.0, B)))) == Failure(Argument)
  {
    KilobyteSizes();
  }

  /** One megabyte is a whole number of kilobytes; one byte is not. */
  lemma KilobyteSizes()
    ensures Whole(ByteCount(Bytes(1.0, MB)) / 1024.0)
    ensures !Whole(ByteCount(Bytes(1.0, B)) / 1024.0)
  {
    assert Pow1024(2) == 1048576.0;
    assert ByteCount(Bytes(1.0, MB)) / 1024.0 == 1024.0;
    assert ByteCount(Bytes(1.0, B)) / 1024.0 == 1.0 / 1024.0;
    assert (1.0 / 1024.0).Floor == 0;
  }

  /** `Equals`: every field but the overrides; any other object is unequal. */
  predicate Equals(a: CreateParams, b: Option<CreateParams>) {
    b.Some?
    && b.value.configurationFile == a.configurationFile
    && b.value.controlPassword == a.controlPassword
    && b.value.controlPort == a.controlPort
    && b.value.defaultConfigurationFile == a.defaultConfigurationFile
    && b.value.path == a.path
  }

  /** `unchecked` 32-bit arithmetic. */
  function Wrap32(x: int): (r: int)
    ensures Int32Min <= r <= Int32Max
    ensures (r - x) % 0x1_0000_0000 == 0
  {
    (x - Int32Min) % 0x1_0000_0000 + Int32Min
  }

  /** `GetHashCode`, given the strings' own hash codes (`stringHash`); null
      hashes to 0. */
  function HashCode(p: CreateParams, stringHash: string -> int): (r: int)
    ensures Int32Min <= r <= Int32Max
  {
    var h := (s: Option<string>) => if s.Some? then stringHash(s.value) else 0;
    var hash := 17;
    var hash := Wrap32(hash * 23 + h(p.defaultConfigurationFile));
    var hash := Wrap32(hash * 23 + h(p.configurationFile));
    var hash := Wrap32(hash * 23 + h(p.controlPassword));
    var hash := Wrap32(hash * 23 + p.controlPort);
    Wrap32(hash * 23 + h(p.path))
  }

  /** Equality is an equivalence that ignores the overrides, and equal
      parameters hash alike. */
  lemma EqualsLaws(a: CreateParams, b: CreateParams, c: CreateParams, o: Dict<ConfigName, Option<Value>>, stringHash: string -> int)
    ensures Equals(a, Some(a)) && Equals(a, Some(a.(overrides := o)))
    ensures !Equals(a, None)
    ensures Equals(a, Some(b)) ==> Equals(b, Some(a))
    ensures Equals(a, Some(b)) && Equals(b, Some(c)) ==> Equals(a, Some(c))
    ensures Equals(a, Some(b)) ==> HashCode(a, stringHash) == HashCode(b, stringHash)
  {
  }

  // ---------------------------------------------------------------------
  // ToString: the command line for the Tor process

  /** `ReflectionHelper.Convert(value, typeof(string))`: a boolean is `1` or
      `0`; a number, a string or an `Auto` member converts as
      `Convert.ChangeType` does; a size, host or credential has no such
      conversion and throws. Null is the empty string. */
  function ValueText(value: Option<Value>): (r: Result<string>)
    ensures r.Failure? <==> value.Some? && KindOf(value.value) in {BytesKind, HostKind, HostAuthKind}
  {
    match value
    case None => Success("")
    case Some(BoolValue(b)) => Success(if b then "1" else "0")
    case Some(IntValue(i)) => Success(IntToString(i))
    case Some(StringValue(s)) => Success(s)
    case Some(AutoValue(m)) =>
      Success(match m case AutoAuto => "Auto" case AutoFalse => "False" case AutoTrue => "True")
    case Some(_) => Failure(InvalidCast)
  }

  /** The two arguments ` --Name value` of one override. */
  function OverrideArgument(entry: (ConfigName, Option<Value>)): (r: Result<(string, string)>)
    ensures r.Success? <==> ValueText(entry.1).Success?
    ensures r.Success? ==> r.value == ("--" + OptionName(entry.0), QuoteIfSpaced(ValueText(entry.1).value))
  {
    match ValueText(entry.1)
    case Failure(e) => Failure(e)
    case Success(v) => Success(("--" + OptionName(entry.0), QuoteIfSpaced(v)))
  }

  /** The arguments of every override, in order. */
  function OverrideArguments(overrides: Dict<ConfigName, Option<Value>>): (r: Result<seq<string>>)
    ensures r.Success? <==> forall i :: 0 <= i < |overrides| ==> ValueText(overrides[i].1).Success?
    ensures r.Success? ==> |r.value| == 2 * |overrides|
    ensures r.Success? ==> forall i :: 0 <= i < |overrides| ==>
      r.value[2 * i] == "--" + OptionName(overrides[i].0)
      && r.value[2 * i + 1] == QuoteIfSpaced(ValueText(overrides[i].1).value)
  {
    var rs := seq(|overrides|, i requires 0 <= i < |overrides| => OverrideArgument(overrides[i]));
    assert forall i :: 0 <= i < |overrides| ==> rs[i] == OverrideArgument(overrides[i]);
    ConcatPairs(rs)
  }

  /** The pairs of the results flattened in order, or the first failure. */
  function ConcatPairs<T>(rs: seq<Result<(T, T)>>): (r: Result<seq<T>>)
    ensures r.Success? <==> forall i :: 0 <= i < |rs| ==> rs[i].Success?
    ensures r.Success? ==> |r.value| == 2 * |rs|
    ensures r.Success? ==> forall i :: 0 <= i < |rs| ==>
      r.value[2 * i] == rs[i].value.0 && r.value[2 * i + 1] == rs[i].value.1
  {
    if |rs| == 0 then Success([])
    else
      match rs[0]
      case Failure(e) => Failure(e)
      case Success(p) =>
        match ConcatPairs(rs[1..])
        case Failure(e) => Failure(e)
        case Success(rest) =>
          PairsCons(p, rest);
          Success([p.0, p.1] + rest)
  }

  lemma PairsCons<T>(p: (T, T), rest: seq<T>)
    ensures forall i :: 2 <= i < 2 + |rest| ==> ([p.0, p.1] + rest)[i] == rest[i - 2]
  {
  }

  /** The arguments every command line starts with. */
  function FixedArguments(controlPort: int): seq<string> {
    ["--ignore-missing-torrc", "--allow-missing-torrc", "--ControlPort", IntToString(controlPort), "--SocksPort", "9050"]
  }

  /** A quoted file argument, present only for a path that is not blank. */
  function FileArgument(flag: string, file: Option<string>): (r: seq<string>)
    ensures IsNullOrWhiteSpace(file) ==> r == []
    ensures !IsNullOrWhiteSpace(file) ==> r == [flag, "\"" + file.value + "\""]
  {
    if IsNullOrWhiteSpace(file) then [] else [flag, "\"" + file.value + "\""]
  }

  /** The command line's arguments in order. */
  function Arguments(p: CreateParams): (r: Result<seq<string>>)
    ensures r.Success? <==> OverrideArguments(p.overrides).Success?
    ensures r.Success? ==> |r.value| >= 6 && r.value[..6] == FixedArguments(p.controlPort)
  {
    match OverrideArguments(p.overrides)
    case Failure(e) => Failure(e)
    case Success(o) =>
      Success(FixedArguments(p.controlPort)
        + FileArgument("-f", p.configurationFile)
        + FileArgument("--defaults-torrc", p.defaultConfigurationFile)
        + o)
  }

  /** `ToString`: the arguments joined by single spaces. */
  function CommandLine(p: CreateParams): (r: Result<string>)
    ensures r.Success? <==> forall i :: 0 <= i < |p.overrides| ==> ValueText(p.overrides[i].1).Success?
  {
    match Arguments(p)
    case Failure(e) => Failure(e)
    case Success(args) => Success(Join(args, " "))
  }

  /** When no argument holds a space, splitting the command line at spaces
      gives back the arguments (which start with the fixed six), and the
      control port among them reads back as a number. */
  lemma CommandLineReadsBack(p: CreateParams)
    requires CommandLine(p).Success?
    requires Int32Min <= p.controlPort <= Int32Max
    requires forall i :: 0 <= i < |Arguments(p).value| ==> ' ' !in Arguments(p).value[i]
    ensures Split(CommandLine(p).value, ' ') == Arguments(p).value
    ensures ParseInt32(Arguments(p).value[3]) == Some(p.controlPort)
  {
    var args := Arguments(p).value;
    assert CommandLine(p).value == Join(args, " ");
    SplitJoinSpace(args);
    assert args[3] == args[..6][3];
    ParseInt32ToString(p.controlPort);
  }

  // ---------------------------------------------------------------------
  // ClientRemoteParams

  datatype RemoteParams = RemoteParams(address: Option<string>, controlPort: int, controlPassword: Option<string>)

  /** The constructors: the address defaults to null, the port to 9051 and
      the password to `""`; the arguments given are stored unchanged. */
  function NewRemoteParams(address: Option<string> := None, controlPort: int := 9051,
                           controlPassword: Option<string> := Some("")): (r: RemoteParams)
    ensures r.address == address && r.controlPort == controlPort && r.controlPassword == controlPassword
  {
    RemoteParams(address, controlPort, controlPassword)
  }

  /** `ValidateParameters`: the address must not be blank and the control
      port must lie in 1..32767. */
  function ValidateRemote(p: RemoteParams): (r: Result<()>)
    ensures r.Success? <==> !IsNullOrWhiteSpace(p.address) && ValidPort(p.controlPort)
    ensures r.Failure? ==> r.error == TorFailure
  {
    if IsNullOrWhiteSpace(p.address) then Failure(TorFailure)
    else if !ValidPort(p.controlPort) then Failure(TorFailure)
    else Success(())
  }

  /** The control port bounds: 1 and 32767 pass, 0 and 32768 do not. */
  lemma PortBounds(address: string)
    requires !IsBlank(address)
    ensures ValidateRemote(NewRemoteParams(Some(address), 1)).Success?
    ensures ValidateRemote(NewRemoteParams(Some(address), Hosts.MaxPort)).Success?
    ensures ValidateRemote(NewRemoteParams(Some(address), 0)).Failure?
    ensures ValidateRemote(NewRemoteParams(Some(address), Hosts.MaxPort + 1)).Failure?
    ensures ValidateRemote(NewRemoteParams()).Failure?
  {
  }
}

=== FILE: commands.dfy ===
/** The controller commands that build one request line and read one reply:
    `extendcircuit` (to create or to extend a circuit), `closestream`,
    `closecircuit`, `setconf`, `getconf` and `getinfo`. Each `Dispatch` is a
    function of the command's arguments and of the `Exchange` that follows the
    write; `written` is the line handed to `connection.Write`, or `None` when a
    guard refuses the command before anything is sent. */
module ControlCommands {
  import opened Wrappers
  import opened Text
  import opened StringHelper
  import opened Records
  import opened Dictionaries
  import opened ControlReplies

  /** What a command wrote and what its `Dispatch(Connection)` gave back; a
      `Failure` is an exception, which `Command.Dispatch(Client)` rethrows. */
  datatype Call<T> = Call(written: Option<string>, response: Result<T>)

  /** The outcome of a command whose response is only `Success`: the reply
      status when the write went through, false otherwise. */
  function Sent(ex: Exchange): bool {
    ex.Replied? && ex.reply.ok
  }

  // ---------------------------------------------------------------------
  // Router arguments

  /** `builder.Append(' '); builder.Append(router)` for each router; a null
      name appends nothing after its space. */
  function RouterArgs(routers: seq<Option<string>>): (r: string)
    ensures |r| >= |routers|
  {
    if |routers| == 0 then "" else " " + routers[0].GetOr("") + RouterArgs(routers[1..])
  }

  /** The names as they appear on the line. */
  function Names(routers: seq<Option<string>>): (r: seq<string>)
    ensures |r| == |routers|
    ensures forall i :: 0 <= i < |r| ==> r[i] == routers[i].GetOr("")
  {
    if |routers| == 0 then [] else [routers[0].GetOr("")] + Names(routers[1..])
  }

  predicate SpaceFree(routers: seq<Option<string>>) {
    forall i :: 0 <= i < |routers| ==> ' ' !in routers[i].GetOr("")
  }

  lemma SplitAlone(s: string, c: char)
    requires c !in s
    ensures Split(s, c) == [s]
  {
    SplitJoin([s], c);
  }

  /** A line ending in the router arguments splits on spaces into its head
      and the router names, in order. */
  lemma {:induction false} RouterArgsFields(head: string, routers: seq<Option<string>>)
    requires ' ' !in head && SpaceFree(routers)
    ensures Split(head + RouterArgs(routers), ' ') == [head] + Names(routers)
    decreases |routers|
  {
    if |routers| == 0 {
      assert head + RouterArgs(routers) == head;
      SplitAlone(head, ' ');
    } else {
      var n := routers[0].GetOr("");
      var rest := routers[1..];
      var tail := n + RouterArgs(rest);
      assert head + RouterArgs(routers) == head + [' '] + tail;
      assert Names(routers) == [n] + Names(rest);
      assert SpaceFree(rest) by {
        forall i | 0 <= i < |rest| ensures ' ' !in rest[i].GetOr("") {
          assert rest[i] == routers[i + 1];
        }
      }
      SplitCons(head, ' ', tail);
      RouterArgsFields(n, rest);
    }
  }

  // ---------------------------------------------------------------------
  // extendcircuit 0 ...: CreateCircuitCommand

  /** `CreateCircuitResponse(Success, CircuitID)`. */
  datatype Created = Created(success: bool, circuitID: int)

  const Refused := Created(false, -1)

  function CreateRequest(routers: seq<Option<string>>): string {
    "extendcircuit 0" + RouterArgs(routers)
  }

  /** The create request names circuit 0, which asks for a new circuit,
      followed by the routers in order. */
  lemma CreateRequestFields(routers: seq<Option<string>>)
    requires SpaceFree(routers)
    ensures Split(CreateRequest(routers), ' ') == ["extendcircuit", "0"] + Names(routers)
  {
    var x := "0" + RouterArgs(routers);
    assert CreateRequest(routers) == "extendcircuit" + [' '] + x;
    assert ["extendcircuit"] + (["0"] + Names(routers)) == ["extendcircuit", "0"] + Names(routers);
    SplitCons("extendcircuit", ' ', x);
    RouterArgsFields("0", routers);
  }

  /** A first reply line that reports a new circuit: at least two fields, the
      first `extended` in any case, the second an `int`. */
  predicate ReportsExtended(line: string) {
    var parts := GetAll(Some(line), ' ').value;
    |parts| >= 2 && EqualsIgnoreCase(parts[0], "extended") && ParseInt32(parts[1]).Some?
  }

  function CreateReply(reply: Reply): (r: Result<Created>)
    ensures !reply.ok ==> r == Success(Refused)
    ensures reply.ok && |reply.lines| == 0 ==> r == Failure(ArgumentOutOfRange)
    ensures reply.ok && |reply.lines| > 0 ==> r.Success? && (r.value.success <==> ReportsExtended(reply.lines[0]))
    ensures r.Success? && r.value.success ==>
      ParseInt32(GetAll(Some(reply.lines[0]), ' ').value[1]) == Some(r.value.circuitID)
    ensures r.Success? && !r.value.success ==> r.value == Refused
  {
    if !reply.ok then Success(Refused)
    else if |reply.lines| == 0 then Failure(ArgumentOutOfRange)
    else
      var parts := GetAll(Some(reply.lines[0]), ' ').value;
      if |parts| < 2 || !EqualsIgnoreCase(parts[0], "extended") then Success(Refused)
      else match ParseInt32(parts[1])
        case None => Success(Refused)
        case Some(id) => Success(Created(true, id))
  }

  /** `CreateCircuitCommand.Dispatch`. */
  function CreateCircuit(routers: seq<Option<string>>, ex: Exchange): (r: Call<Created>)
    ensures r.written == Some(CreateRequest(routers))
    ensures ex.WriteFailed? ==> r.response == Success(Refused)
    ensures ex.Replied? ==> r.response == CreateReply(ex.reply)
  {
    Call(Some(CreateRequest(routers)), if ex.WriteFailed? then Success(Refused) else CreateReply(ex.reply))
  }

  /** The reply Tor sends for a new circuit, `EXTENDED <id>`, reads back as
      that circuit's number, whatever the lines after it. */
  lemma CreateReplyRoundTrip(id: int, rest: seq<string>)
    requires Int32Min <= id <= Int32Max
    ensures CreateReply(Reply(true, ["EXTENDED " + IntToString(id)] + rest)) == Success(Created(true, id))
  {
    var n := IntToString(id);
    var reply := Reply(true, ["EXTENDED " + n] + rest);
    assert reply.lines[0] == "EXTENDED " + n == "EXTENDED" + " " + n;
    assert EqualsIgnoreCase("EXTENDED", "extended");
    TwoFields("EXTENDED", n);
    ParseInt32ToString(id);
  }

  /** Two quote-free words with a space between split into those words. */
  lemma TwoFields(a: string, b: string)
    requires ' ' !in a && '"' !in a && ' ' !in b && '"' !in b && |b| > 0
    ensures GetAll(Some(a + " " + b), ' ').value == [a, b]
  {
    var line := a + " " + b;
    assert line == a + [' '] + b;
    assert line[|line| - 1] == b[|b| - 1];
    assert '"' !in line;
    GetAllNoQuotes(line, ' ');
    SplitCons(a, ' ', b);
    SplitAlone(b, ' ');
  }

  // ---------------------------------------------------------------------
  // extendcircuit <id> ...: ExtendCircuitCommand

  /** The circuit number sent: 0 for a null circuit. */
  function CircuitNumber(circuit: Option<Circuit>): int {
    if circuit.Some? then circuit.value.id else 0
  }

  function ExtendRequest(circuit: Option<Circuit>, routers: seq<Option<string>>): string {
    "extendcircuit " + IntToString(CircuitNumber(circuit)) + RouterArgs(routers)
  }

  lemma ExtendRequestFields(circuit: Option<Circuit>, routers: seq<Option<string>>)
    requires SpaceFree(routers)
    ensures Split(ExtendRequest(circuit, routers), ' ') ==
      ["extendcircuit", IntToString(CircuitNumber(circuit))] + Names(routers)
  {
    var n := IntToString(CircuitNumber(circuit));
    var x := n + RouterArgs(routers);
    assert ExtendRequest(circuit, routers) == "extendcircuit" + [' '] + x;
    assert ["extendcircuit"] + ([n] + Names(routers)) == ["extendcircuit", n] + Names(routers);
    SplitCons("extendcircuit", ' ', x);
    RouterArgsFields(n, routers);
  }

  /** `ExtendCircuitCommand.Dispatch`: nothing is sent without a router. */
  function ExtendCircuit(circuit: Option<Circuit>, routers: seq<Option<string>>, ex: Exchange): (r: Call<bool>)
    ensures r.written.None? <==> |routers| == 0
    ensures r.written.Some? ==> r.written.value == ExtendRequest(circuit, routers)
    ensures r.response.Success?
    ensures r.response.value <==> |routers| > 0 && ex.Replied? && ex.reply.ok
  {
    if |routers| == 0 then Call(None, Success(false))
    else Call(Some(ExtendRequest(circuit, routers)), Success(Sent(ex)))
  }

  // ---------------------------------------------------------------------
  // closestream: CloseStreamCommand

  /** The reasons `closestream` refuses, compared by number as the enum
      comparison does: `None` is 0, `End` and `PrivateAddr` are both -1. */
  predicate RefusedReason(reason: StreamReason) {
    ReasonCode(reason) == 0 || ReasonCode(reason) == -1
  }

  lemma RefusedReasonNames(reason: StreamReason)
    ensures RefusedReason(reason) <==> reason in {ReasonNone, End, PrivateAddr}
  {
  }

  function CloseStreamRequest(stream: Stream, reason: StreamReason): string {
    "closestream " + IntToString(stream.id) + " " + IntToString(ReasonCode(reason))
  }

  /** The request carries the stream number and the reason's number, and both
      read back. */
  lemma CloseStreamRequestFields(stream: Stream, reason: StreamReason)
    requires Int32Min <= stream.id <= Int32Max
    ensures var f := Split(CloseStreamRequest(stream, reason), ' ');
      |f| == 3 && f[0] == "closestream"
      && ParseInt32(f[1]) == Some(stream.id) && ParseInt32(f[2]) == Some(ReasonCode(reason))
  {
    var a, b := IntToString(stream.id), IntToString(ReasonCode(reason));
    var x := a + [' '] + b;
    assert CloseStreamRequest(stream, reason) == "closestream" + [' '] + x;
    assert ["closestream"] + ([a] + [b]) == ["closestream", a, b];
    SplitCons("closestream", ' ', x);
    SplitCons(a, ' ', b);
    SplitAlone(b, ' ');
    ParseInt32ToString(stream.id);
    ParseInt32ToString(ReasonCode(reason));
  }

  /** `CloseStreamCommand.Dispatch`. */
  function CloseStream(stream: Option<Stream>, reason: StreamReason, ex: Exchange): (r: Call<bool>)
    ensures r.written.Some? <==>
      stream.Some? && stream.value.id > 0
      && stream.value.status !in {StreamFailed, StreamClosed}
      && reason !in {ReasonNone, End, PrivateAddr}
    ensures r.written.Some? ==> r.written.value == CloseStreamRequest(stream.value, reason)
    ensures r.response == Success(r.written.Some? && Sent(ex))
  {
    RefusedReasonNames(reason);
    if stream.None? || stream.value.id <= 0 then Call(None, Success(false))
    else if stream.value.status == StreamFailed || stream.value.status == StreamClosed then Call(None, Success(false))
    else if RefusedReason(reason) then Call(None, Success(false))
    else Call(Some(CloseStreamRequest(stream.value, reason)), Success(Sent(ex)))
  }

  // ---------------------------------------------------------------------
  // closecircuit: CloseCircuitCommand

  function CloseCircuitRequest(circuit: Circuit): string {
    "closecircuit " + IntToString(circuit.id)
  }

  lemma CloseCircuitRequestFields(circuit: Circuit)
    requires Int32Min <= circuit.id <= Int32Max
    ensures var f := Split(CloseCircuitRequest(circuit), ' ');
      |f| == 2 && f[0] == "closecircuit" && ParseInt32(f[1]) == Some(circuit.id)
  {
    var a := IntToString(circuit.id);
    assert CloseCircuitRequest(circuit) == "closecircuit" + [' '] + a;
    SplitCons("closecircuit", ' ', a);
    SplitAlone(a, ' ');
    ParseInt32ToString(circuit.id);
  }

  /** `CloseCircuitCommand.Dispatch`: only a closed circuit is refused; a
      failed one is still sent. */
  function CloseCircuit(circuit: Option<Circuit>, ex: Exchange): (r: Call<bool>)
    ensures r.written.Some? <==> circuit.Some? && circuit.value.status != CircuitClosed
    ensures r.written.Some? ==> r.written.value == CloseCircuitRequest(circuit.value)
    ensures r.response == Success(r.written.Some? && Sent(ex))
  {
    if circuit.None? || circuit.value.status == CircuitClosed then Call(None, Success(false))
    else Call(Some(CloseCircuitRequest(circuit.value)), Success(Sent(ex)))
  }

  // ---------------------------------------------------------------------
  // setconf: SetConfCommand
  //
  // Section 3.1 of Tor's control-spec reads the value after `=` as either a
  // bare word or a QuotedString, and section 2.1 makes a backslash inside a
  // QuotedString escape the character after it.

  /** The value as the command writes it: quoted when it holds a space, with
      nothing inside escaped. */
  function ConfValueAsWritten(value: string): (r: string)
    ensures ' ' in value ==> r == "\"" + value + "\""
    ensures ' ' !in value ==> r == value
  {
    QuoteIfSpaced(value)
  }

  /** A backslash before every `\` and `"`. */
  function Escape(value: string): (r: string)
    ensures |r| >= |value|
  {
    if |value| == 0 then ""
    else (if value[0] == '\\' || value[0] == '"' then ['\\', value[0]] else [value[0]]) + Escape(value[1..])
  }

  /** The value quoted so that it reads back: quoted when it holds a space or
      starts with a quote, escaped inside the quotes. */
  function ConfValue(value: string): string {
    if ' ' in value || (|value| > 0 && value[0] == '"') then "\"" + Escape(value) + "\"" else value
  }

  /** The text of a QuotedString after its opening quote, up to a closing
      quote that ends the input. */
  function Unquote(s: string): (r: Option<string>)
  {
    if |s| == 0 then None
    else if s[0] == '"' then (if |s| == 1 then Some("") else None)
    else if s[0] == '\\' then
      if |s| < 2 then None
      else match Unquote(s[2..])
        case None => None
        case Some(t) => Some([s[1]] + t)
    else
      match Unquote(s[1..])
      case None => None
      case Some(t) => Some([s[0]] + t)
  }

  /** How Tor reads the value text of `setconf name=<text>`: a QuotedString,
      or a bare word with no space that does not open a quote. */
  function ReadConfValue(text: string): Option<string> {
    if |text| > 0 && text[0] == '"' then Unquote(text[1..])
    else if ' ' in text then None
    else Some(text)
  }

  lemma {:induction false} UnquoteEscape(value: string)
    ensures Unquote(Escape(value) + "\"") == Some(value)
    decreases |value|
  {
    if |value| == 0 {
      assert Escape(value) + "\"" == "\"";
    } else {
      UnquoteEscape(value[1..]);
      var c := value[0];
      if c == '\\' || c == '"' {
        var s := ['\\', c] + (Escape(value[1..]) + "\"");
        assert Escape(value) + "\"" == s;
        assert s[2..] == Escape(value[1..]) + "\"";
      } else {
        var s := [c] + (Escape(value[1..]) + "\"");
        assert Escape(value) + "\"" == s;
        assert s[1..] == Escape(value[1..]) + "\"";
      }
      assert [c] + value[1..] == value;
    }
  }

  /** Every value Tor is sent reads back as itself. */
  lemma ConfValueRoundTrip(value: string)
    ensures ReadConfValue(ConfValue(value)) == Some(value)
  {
    if ' ' in value || (|value| > 0 && value[0] == '"') {
      var t := "\"" + Escape(value) + "\"";
      assert t[1..] == Escape(value) + "\"";
      UnquoteEscape(value);
    }
  }

  /** Where the value holds neither a backslash nor a quote, the corrected
      quoting and the written one agree. */
  lemma {:induction false} ConfValueAgrees(value: string)
    requires '\\' !in value && '"' !in value
    ensures ConfValue(value) == ConfValueAsWritten(value)
  {
    EscapeIdentity(value);
  }

  lemma {:induction false} EscapeIdentity(value: string)
    requires '\\' !in value && '"' !in value
    ensures Escape(value) == value
    decreases |value|
  {
    if |value| > 0 {
      assert value[0] in value;
      assert forall c :: c in value[1..] ==> c in value;
      EscapeIdentity(value[1..]);
      assert [value[0]] + value[1..] == value;
    }
  }

  function Prepend(a: string, t: Option<string>): Option<string> {
    if t.Some? then Some(a + t.value) else None
  }

  /** Text free of `\` and `"` passes through a QuotedString unchanged. */
  lemma {:induction false} UnquotePlain(a: string, rest: string)
    requires '\\' !in a && '"' !in a
    ensures Unquote(a + rest) == Prepend(a, Unquote(rest))
    decreases |a|
  {
    if |a| == 0 {
      assert a + rest == rest;
      if Unquote(rest).Some? {
        assert a + Unquote(rest).value == Unquote(rest).value;
      }
    } else {
      var s := a + rest;
      assert s[1..] == a[1..] + rest;
      assert s[0] == a[0];
      assert a[0] in a;
      assert s[0] != '"' && s[0] != '\\';
      assert forall c :: c in a[1..] ==> c in a;
      UnquotePlain(a[1..], rest);
      assert Unquote(s) == Prepend([a[0]], Unquote(s[1..]));
      match Unquote(rest)
      case None =>
      case Some(u) =>
        assert [a[0]] + (a[1..] + u) == a + u;
    }
  }

  lemma UnquoteEscaped(c: char, rest: string)
    ensures Unquote(['\\', c] + rest) == Prepend([c], Unquote(rest))
  {
    assert (['\\', c] + rest)[2..] == rest;
  }

  /** As written, a Windows path with a space loses its backslashes. */
  lemma ConfValueAsWrittenDropsBackslashes()
    ensures ReadConfValue(ConfValueAsWritten("C:\\Tor Data")) == Some("C:Tor Data")
  {
    var v := "C:\\Tor Data";
    assert v[6] == ' ';
    var t := ConfValueAsWritten(v);
    var q := "\"";
    var s2 := "or Data" + q;
    var s1 := ['\\', 'T'] + s2;
    assert t[1..] == "C:" + s1;
    assert Unquote(q) == Some("");
    UnquotePlain("or Data", q);
    UnquoteEscaped('T', s2);
    UnquotePlain("C:", s1);
    assert "C:" + ("T" + ("or Data" + "")) == "C:Tor Data";
  }

  /** As written, a value with a space and a quote does not read at all. */
  lemma ConfValueAsWrittenRefusesQuote()
    ensures ReadConfValue(ConfValueAsWritten("say \"hi\"")).None?
  {
    var w := "say \"hi\"";
    assert w[3] == ' ';
    var u := ConfValueAsWritten(w);
    assert u[1..] == "say " + "\"hi\"\"";
    UnquotePlain("say ", "\"hi\"\"");
  }

  /** As written, a value that opens with a quote but holds no space is sent
      bare, and Tor reads it as an unterminated QuotedString. */
  lemma ConfValueAsWrittenRefusesLeadingQuote()
    ensures ConfValueAsWritten("\"x") == "\"x"
    ensures ReadConfValue(ConfValueAsWritten("\"x")).None?
  {
    assert ReadConfValue("\"x") == Unquote("x");
    assert Unquote("x"[1..]) == None;
  }

  /** The request line as `SetConfCommand` writes it. */
  function SetConfRequestAsWritten(name: string, value: string): string {
    "setconf " + name + "=" + ConfValueAsWritten(value)
  }

  /** `SetConfCommand.Dispatch` as written: nothing is sent for a null name or
      value, and the value is quoted exactly when it holds a space. */
  function SetConfAsWritten(name: Option<string>, value: Option<string>, ex: Exchange): (r: Call<bool>)
    ensures r.written.Some? <==> name.Some? && value.Some?
    ensures r.written.Some? ==> r.written.value == SetConfRequestAsWritten(name.value, value.value)
    ensures r.response == Success(r.written.Some? && Sent(ex))
  {
    if name.None? || value.None? then Call(None, Success(false))
    else Call(Some(SetConfRequestAsWritten(name.value, value.value)), Success(Sent(ex)))
  }

  /** The request line with the corrected quoting. */
  function SetConfRequest(name: string, value: string): string {
    "setconf " + name + "=" + ConfValue(value)
  }

  /** `SetConfCommand.Dispatch` with the corrected quoting: nothing is sent
      for a null name or value. */
  function SetConf(name: Option<string>, value: Option<string>, ex: Exchange): (r: Call<bool>)
    ensures r.written.Some? <==> name.Some? && value.Some?
    ensures r.written.Some? ==> r.written.value == SetConfRequest(name.value, value.value)
    ensures r.response == Success(r.written.Some? && Sent(ex))
  {
    if name.None? || value.None? then Call(None, Success(false))
    else Call(Some(SetConfRequest(name.value, value.value)), Success(Sent(ex)))
  }

  /** Tor finds the name after `setconf ` and, after the first `=`, reads
      the value given. */
  lemma SetConfRequestReads(name: string, value: string)
    requires '=' !in name && ' ' !in name
    ensures var req := SetConfRequest(name, value);
      var parts := SplitFirst(req[8..], '=');
      StartsWith(req, "setconf ") && |parts| == 2 && parts[0] == name
      && ReadConfValue(parts[1]) == Some(value)
  {
    var req := SetConfRequest(name, value);
    var tail := name + ['='] + ConfValue(value);
    AppendAssoc("setconf ", name, "=", ConfValue(value));
    assert req == "setconf " + tail;
    assert req[8..] == tail;
    SplitFirstAt(name, '=', ConfValue(value));
    ConfValueRoundTrip(value);
  }

  /** Where the value holds neither a backslash nor a quote, the corrected
      command writes exactly what the written one does. */
  lemma SetConfAgrees(name: Option<string>, value: Option<string>, ex: Exchange)
    requires value.Some? ==> '\\' !in value.value && '"' !in value.value
    ensures SetConf(name, value, ex) == SetConfAsWritten(name, value, ex)
  {
    if value.Some? {
      ConfValueAgrees(value.value);
    }
  }

  /** For such values the request as written also reads back: Tor finds the
      name after `setconf ` and the value after the first `=`. */
  lemma SetConfRequestAsWrittenReads(name: string, value: string)
    requires '=' !in name && ' ' !in name
    requires '\\' !in value && '"' !in value
    ensures var req := SetConfRequestAsWritten(name, value);
      var parts := SplitFirst(req[8..], '=');
      StartsWith(req, "setconf ") && |parts| == 2 && parts[0] == name
      && ReadConfValue(parts[1]) == Some(value)
  {
    ConfValueAgrees(value);
    SetConfRequestReads(name, value);
  }

  // ---------------------------------------------------------------------
  // getconf: GetConfCommand

  /** `GetConfResponse(Success, Values)`. */
  datatype Conf = Conf(success: bool, values: Option<Dict<string, Option<string>>>)

  function GetConfRequest(names: seq<Option<string>>): string {
    "getconf" + RouterArgs(names)
  }

  /** One reply line split at its first `=`, both sides trimmed; no `=` gives
      a null value. */
  function ConfPair(line: string): (r: (string, Option<string>))
    ensures '=' !in line ==> r == (Trim(line), None)
    ensures '=' in line ==> r.1.Some? && exists i :: (0 <= i < |line| && line[i] == '='
      && '=' !in line[..i] && r == (Trim(line[..i]), Some(Trim(line[i + 1..]))))
  {
    var parts := SplitFirst(line, '=');
    if |parts| != 2 then (Trim(parts[0]), None)
    else
      assert line[|parts[0]|] == '=' && line[..|parts[0]|] == parts[0] && line[|parts[0]| + 1..] == parts[1];
      (Trim(parts[0]), Some(Trim(parts[1])))
  }

  function ConfPairs(lines: seq<string>): (r: seq<(string, Option<string>)>)
    ensures |r| == |lines|
    ensures forall i :: 0 <= i < |r| ==> r[i] == ConfPair(lines[i])
  {
    if |lines| == 0 then [] else [ConfPair(lines[0])] + ConfPairs(lines[1..])
  }

  function GetConfReply(reply: Reply): (r: Conf)
    ensures r.success <==> reply.ok
    ensures r.success ==> r.values.Some?
    ensures r.success ==> forall k :: Lookup(r.values.value, k) == LastValue(ConfPairs(reply.lines), k)
    ensures !r.success ==> r.values.None?
  {
    if !reply.ok then Conf(false, None)
    else
      var values := FromPairs(ConfPairs(reply.lines));
      assert forall k :: Lookup(values, k) == LastValue(ConfPairs(reply.lines), k) by {
        forall k ensures Lookup(values, k) == LastValue(ConfPairs(reply.lines), k) {
          FromPairsLookup(ConfPairs(reply.lines), k);
        }
      }
      Conf(true, Some(values))
  }

  /** `GetConfCommand.Dispatch`. */
  function GetConf(names: seq<Option<string>>, ex: Exchange): (r: Call<Conf>)
    ensures r.written == Some(GetConfRequest(names))
    ensures ex.WriteFailed? ==> r.response == Success(Conf(false, None))
    ensures ex.Replied? ==> r.response == Success(GetConfReply(ex.reply))
  {
    Call(Some(GetConfRequest(names)), Success(if ex.WriteFailed? then Conf(false, None) else GetConfReply(ex.reply)))
  }

  /** A configuration entry as Tor prints it: a name without `=` or white
      space at its ends, and a value without white space at its ends. */
  predicate Printable(name: string, value: string) {
    '=' !in name
    && (|name| > 0 ==> !IsWhiteSpace(name[0]) && !IsWhiteSpace(name[|name| - 1]))
    && (|value| > 0 ==> !IsWhiteSpace(value[0]) && !IsWhiteSpace(value[|value| - 1]))
  }

  function EntryLines(entries: seq<(string, string)>): (r: seq<string>)
    ensures |r| == |entries|
    ensures forall i :: 0 <= i < |r| ==> r[i] == entries[i].0 + "=" + entries[i].1
  {
    if |entries| == 0 then [] else [entries[0].0 + "=" + entries[0].1] + EntryLines(entries[1..])
  }

  function Valued(entries: seq<(string, string)>): (r: seq<(string, Option<string>)>)
    ensures |r| == |entries|
    ensures forall i :: 0 <= i < |r| ==> r[i] == (entries[i].0, Some(entries[i].1))
  {
    if |entries| == 0 then [] else [(entries[0].0, Some(entries[0].1))] + Valued(entries[1..])
  }

  lemma ConfPairEntry(name: string, value: string)
    requires Printable(name, value)
    ensures ConfPair(name + "=" + value) == (name, Some(value))
  {
    SplitFirstAt(name, '=', value);
    TrimOfTrimmed(name);
    TrimOfTrimmed(value);
  }

  /** Printed entries read back: every name reads the value of its last
      entry, and a name no entry has reads nothing. */
  lemma GetConfRoundTrip(entries: seq<(string, string)>, k: string)
    requires forall i :: 0 <= i < |entries| ==> Printable(entries[i].0, entries[i].1)
    ensures var c := GetConfReply(Reply(true, EntryLines(entries)));
      c.success && Lookup(c.values.value, k) == LastValue(Valued(entries), k)
  {
    var lines := EntryLines(entries);
    forall i | 0 <= i < |entries| ensures ConfPairs(lines)[i] == Valued(entries)[i] {
      ConfPairEntry(entries[i].0, entries[i].1);
    }
    assert ConfPairs(lines) == Valued(entries);
  }

  // ---------------------------------------------------------------------
  // getinfo: GetInfoCommand

  /** `GetInfoResponse(Success, Values)`; a null value is `None`. */
  datatype Info = Info(success: bool, values: seq<Option<string>>)

  /** The lines before the first `.` line. */
  function UntilDot(lines: seq<string>): (r: seq<string>)
    ensures |r| <= |lines| && r == lines[..|r|]
    ensures "." !in r
    ensures |r| < |lines| ==> lines[|r|] == "."
  {
    if |lines| == 0 || lines[0] == "." then []
    else [lines[0]] + UntilDot(lines[1..])
  }

  function Somes(lines: seq<string>): (r: seq<Option<string>>)
    ensures |r| == |lines|
    ensures forall i :: 0 <= i < |r| ==> r[i] == Some(lines[i])
  {
    if |lines| == 0 then [] else [Some(lines[0])] + Somes(lines[1..])
  }

  /** The value of a one-line reply: the text after the first `=`, or null. */
  function SingleValue(line: string): (r: Option<string>)
    ensures r.None? <==> '=' !in line
    ensures r.Some? ==> exists i :: 0 <= i < |line| && line[i] == '=' && '=' !in line[..i] && r.value == line[i + 1..]
  {
    var parts := SplitFirst(line, '=');
    if |parts| == 1 then None
    else
      assert line[|parts[0]|] == '=' && line[..|parts[0]|] == parts[0] && line[|parts[0]| + 1..] == parts[1];
      Some(parts[1])
  }

  function GetInfoReply(request: string, reply: Reply): (r: Result<Info>)
    ensures !reply.ok ==> r == Success(Info(false, []))
    ensures reply.ok && |reply.lines| == 0 ==> r == Failure(ArgumentOutOfRange)
    ensures reply.ok && |reply.lines| > 0 && !StartsWithIgnoreCase(reply.lines[0], request) ==> r == Success(Info(false, []))
    ensures r.Success? && r.value.success ==> reply.ok && |reply.lines| > 0 && StartsWithIgnoreCase(reply.lines[0], request)
    ensures r.Success? && r.value.success && |reply.lines| == 1 ==> r.value.values == [SingleValue(reply.lines[0])]
    ensures r.Success? && r.value.success && |reply.lines| > 1 ==> r.value.values == Somes(UntilDot(reply.lines[1..]))
  {
    if !reply.ok then Success(Info(false, []))
    else if |reply.lines| == 0 then Failure(ArgumentOutOfRange)
    else if !StartsWithIgnoreCase(reply.lines[0], request) then Success(Info(false, []))
    else if |reply.lines| == 1 then Success(Info(true, [SingleValue(reply.lines[0])]))
    else Success(Info(true, Somes(UntilDot(reply.lines[1..]))))
  }

  /** `GetInfoCommand.Dispatch`: nothing is sent for a null request. */
  function GetInfo(request: Option<string>, ex: Exchange): (r: Call<Info>)
    ensures r.written.None? <==> request.None?
    ensures r.written.Some? ==> r.written.value == "getinfo " + request.value
    ensures request.None? || ex.WriteFailed? ==> r.response == Success(Info(false, []))
    ensures request.Some? && ex.Replied? ==> r.response == GetInfoReply(request.value, ex.reply)
  {
    if request.None? then Call(None, Success(Info(false, [])))
    else if ex.WriteFailed? then Call(Some("getinfo " + request.value), Success(Info(false, [])))
    else Call(Some("getinfo " + request.value), GetInfoReply(request.value, ex.reply))
  }

  lemma StartsWithItself(s: string, t: string)
    ensures StartsWithIgnoreCase(s + t, s)
  {
    assert (s + t)[..|s|] == s;
  }

  /** A one-line reply `key=value` to a request for `key` gives that value. */
  lemma GetInfoSingleRoundTrip(key: string, value: string)
    requires '=' !in key
    ensures GetInfo(Some(key), Replied(Reply(true, [key + "=" + value]))).response
      == Success(Info(true, [Some(value)]))
  {
    StartsWithItself(key, "=" + value);
    assert key + "=" + value == key + ("=" + value);
    SplitFirstAt(key, '=', value);
  }

  /** The lines before the first `.` of a body free of `.` lines and what
      follows it. */
  lemma {:induction false} UntilDotOf(body: seq<string>, rest: seq<string>)
    requires "." !in body
    ensures UntilDot(body + rest) == body + UntilDot(rest)
    decreases |body|
  {
    if |body| == 0 {
      assert body + rest == rest;
    } else {
      var tail := body[1..];
      var after := UntilDot(rest);
      assert (body + rest)[0] == body[0] != ".";
      assert (body + rest)[1..] == tail + rest;
      assert forall l :: l in tail ==> l in body;
      UntilDotOf(tail, rest);
      assert UntilDot(body + rest) == [body[0]] + (tail + after);
      AppendAssoc3([body[0]], tail, after);
      assert [body[0]] + tail == body;
    }
  }

  lemma GetInfoAccepts(request: string, lines: seq<string>)
    requires |lines| > 1 && StartsWithIgnoreCase(lines[0], request)
    ensures GetInfo(Some(request), Replied(Reply(true, lines))).response
      == Success(Info(true, Somes(UntilDot(lines[1..]))))
  {
  }

  lemma UntilDotBlock(header: string, body: seq<string>, tail: seq<string>)
    requires "." !in body
    requires tail == [] || tail[0] == "."
    ensures UntilDot(([header] + body + tail)[1..]) == body
  {
    assert ([header] + body + tail)[1..] == body + tail;
    assert UntilDot(tail) == [];
    UntilDotOf(body, tail);
    assert body + [] == body;
  }

  /** A multi-line reply gives the lines between the header and the first
      `.` line, or every line after the header when no `.` comes. */
  lemma GetInfoBlockRoundTrip(request: string, header: string, body: seq<string>, tail: seq<string>)
    requires StartsWithIgnoreCase(header, request)
    requires "." !in body
    requires tail == [] || tail[0] == "."
    requires |body| + |tail| > 0
    ensures GetInfo(Some(request), Replied(Reply(true, [header] + body + tail))).response
      == Success(Info(true, Somes(body)))
  {
    UntilDotBlock(header, body, tail);
    GetInfoAccepts(request, [header] + body + tail);
  }
}

=== FILE: control.dfy ===
/** `Tor.Controller.Control`: the public circuit and stream operations, which
    check their arguments, dispatch one command and report its `Success`.
    An exception inside a command reaches the caller as a `TorException`. */
module Controller {
  import opened Wrappers
  import opened Text
  import opened Records
  import opened ControlReplies
  import Commands = ControlCommands

  /** `Command.Dispatch(Client)`: an exception while the command runs is
      rethrown as a `TorException`. */
  function Dispatched<T>(c: Commands.Call<T>): (r: Commands.Call<T>)
    ensures r.written == c.written
    ensures c.response.Success? ==> r.response == c.response
    ensures c.response.Failure? ==> r.response == Failure(TorFailure)
  {
    if c.response.Failure? then Commands.Call(c.written, Failure(TorFailure)) else c
  }

  /** `Control.CloseCircuit`: a null circuit or circuit 0 is refused before
      any command is sent. */
  function CloseCircuit(circuit: Option<Circuit>, ex: Exchange): (r: Commands.Call<bool>)
    ensures circuit.None? ==> r == Commands.Call(None, Failure(ArgumentNull))
    ensures circuit.Some? && circuit.value.id == 0 ==> r == Commands.Call(None, Failure(Argument))
    ensures circuit.Some? && circuit.value.id != 0 ==> r == Commands.CloseCircuit(circuit, ex)
    ensures r.response.Success? ==> (r.response.value <==> r.written.Some? && ex.Replied? && ex.reply.ok)
  {
    if circuit.None? then Commands.Call(None, Failure(ArgumentNull))
    else if circuit.value.id == 0 then Commands.Call(None, Failure(Argument))
    else Dispatched(Commands.CloseCircuit(circuit, ex))
  }

  /** `Control.CloseStream`: a null stream, stream 0, or a reason of `None`,
      `End` or `PrivateAddr` is refused before any command is sent. */
  function CloseStream(stream: Option<Stream>, reason: StreamReason, ex: Exchange): (r: Commands.Call<bool>)
    ensures stream.None? ==> r == Commands.Call(None, Failure(ArgumentNull))
    ensures stream.Some? && stream.value.id == 0 ==> r == Commands.Call(None, Failure(Argument))
    ensures stream.Some? && stream.value.id != 0 && reason in {ReasonNone, End, PrivateAddr} ==>
      r == Commands.Call(None, Failure(ArgumentOutOfRange))
    ensures stream.Some? && stream.value.id != 0 && reason !in {ReasonNone, End, PrivateAddr} ==>
      r == Commands.CloseStream(stream, reason, ex)
  {
    if stream.None? then Commands.Call(None, Failure(ArgumentNull))
    else if stream.value.id == 0 then Commands.Call(None, Failure(Argument))
    else if reason == ReasonNone || reason == End || reason == PrivateAddr then Commands.Call(None, Failure(ArgumentOutOfRange))
    else Dispatched(Commands.CloseStream(stream, reason, ex))
  }

  /** Past the argument checks, only the stream's own state can stop the
      command: a negative stream number, or a stream already failed or
      closed. */
  lemma CloseStreamSendsWhenValid(stream: Stream, reason: StreamReason, ex: Exchange)
    requires stream.id > 0 && stream.status !in {StreamFailed, StreamClosed}
    requires reason !in {ReasonNone, End, PrivateAddr}
    ensures var r := CloseStream(Some(stream), reason, ex);
      r.written == Some(Commands.CloseStreamRequest(stream, reason))
      && r.response == Success(ex.Replied? && ex.reply.ok)
  {
  }

  /** `Control.CreateCircuit`: true exactly when the command succeeded with a
      circuit number that is not negative. */
  function CreateCircuit(routers: seq<Option<string>>, ex: Exchange): (r: Commands.Call<bool>)
    ensures r.written == Some(Commands.CreateRequest(routers))
    ensures var c := Commands.CreateCircuit(routers, ex).response;
      && (c.Failure? ==> r.response == Failure(TorFailure))
      && (c.Success? ==> r.response == Success(c.value.success && c.value.circuitID >= 0))
  {
    var c := Dispatched(Commands.CreateCircuit(routers, ex));
    Commands.Call(c.written, if c.response.Failure? then Failure(TorFailure)
      else Success(c.response.value.success && c.response.value.circuitID >= 0))
  }

  /** A reply naming the new circuit is success when the number is not
      negative, and failure otherwise; an OK reply with no lines throws. */
  lemma CreateCircuitOutcome(routers: seq<Option<string>>, id: int, rest: seq<string>)
    requires Int32Min <= id <= Int32Max
    ensures CreateCircuit(routers, Replied(Reply(true, ["EXTENDED " + IntToString(id)] + rest))).response
      == Success(id >= 0)
    ensures CreateCircuit(routers, Replied(Reply(true, []))).response == Failure(TorFailure)
  {
    Commands.CreateReplyRoundTrip(id, rest);
  }

  /** `Control.ExtendCircuit`: a null circuit, circuit 0 or no router is
      refused; otherwise the routers go to the command in order. */
  function ExtendCircuit(circuit: Option<Circuit>, routers: seq<Option<string>>, ex: Exchange): (r: Commands.Call<bool>)
    ensures circuit.None? ==> r == Commands.Call(None, Failure(ArgumentNull))
    ensures circuit.Some? && circuit.value.id == 0 ==> r == Commands.Call(None, Failure(Argument))
    ensures circuit.Some? && circuit.value.id != 0 && |routers| == 0 ==>
      r == Commands.Call(None, Failure(ArgumentOutOfRange))
    ensures circuit.Some? && circuit.value.id != 0 && |routers| > 0 ==>
      r.written == Some(Commands.ExtendRequest(circuit, routers))
      && r.response == Success(ex.Replied? && ex.reply.ok)
  {
    if circuit.None? then Commands.Call(None, Failure(ArgumentNull))
    else if circuit.value.id == 0 then Commands.Call(None, Failure(Argument))
    else if |routers| == 0 then Commands.Call(None, Failure(ArgumentOutOfRange))
    else Dispatched(Commands.ExtendCircuit(circuit, routers, ex))
  }

  /** `Circuit.Extend(Router[])`: extends by the routers' nicknames, with the
      same guards as `ExtendCircuit`. */
  function ExtendWithRouters(circuit: Circuit, routers: seq<Router>, ex: Exchange): (r: Commands.Call<bool>)
    ensures circuit.id == 0 ==> r == Commands.Call(None, Failure(Argument))
    ensures circuit.id != 0 && |routers| == 0 ==> r == Commands.Call(None, Failure(ArgumentOutOfRange))
    ensures circuit.id != 0 && |routers| > 0 ==>
      r.written == Some(Commands.ExtendRequest(Some(circuit), Nicknames(routers)))
      && r.response == Success(ex.Replied? && ex.reply.ok)
  {
    ExtendCircuit(Some(circuit), Nicknames(routers), ex)
  }

  /** The line sent to extend a circuit by routers lists the circuit and then
      each router's nickname, in order (a router without one leaves an empty
      field). */
  lemma ExtendWithRoutersSendsNicknames(circuit: Circuit, routers: seq<Router>, ex: Exchange)
    requires circuit.id != 0 && |routers| > 0
    requires forall i :: 0 <= i < |routers| ==> ' ' !in routers[i].nickname.GetOr("")
    ensures var w := ExtendWithRouters(circuit, routers, ex).written;
      && w.Some?
      && var f := Split(w.value, ' ');
      && |f| == |routers| + 2 && f[0] == "extendcircuit" && f[1] == IntToString(circuit.id)
      && forall i :: 0 <= i < |routers| ==> f[i + 2] == routers[i].nickname.GetOr("")
  {
    var names := Nicknames(routers);
    var fields := Commands.Names(names);
    assert Commands.SpaceFree(names);
    Commands.ExtendRequestFields(Some(circuit), names);
    assert ExtendWithRouters(circuit, routers, ex).written == Some(Commands.ExtendRequest(Some(circuit), names));
    var f := ["extendcircuit", IntToString(circuit.id)] + fields;
    forall i | 0 <= i < |routers| ensures f[i + 2] == routers[i].nickname.GetOr("") {
      assert f[i + 2] == fields[i];
    }
  }
}

=== FILE: control_replies.dfy ===
/** What a command sees of the control connection: whether its request line
    could be written, and the reply read back, as a status and the reply's
    lines with their status codes removed. */
module ControlReplies {
  import opened Wrappers

  /** `ConnectionResponse`: `ok` is `StatusCode == OK`. */
  datatype Reply = Reply(ok: bool, lines: seq<string>)

  /** The outcome of `connection.Write` followed by `connection.Read`. */
  datatype Exchange = WriteFailed | Replied(reply: Reply)

  /** `Responses[0]`: indexing an empty reply throws, and `Command.Dispatch`
      rethrows that as a `TorException` (`Controller.Dispatched`). */
  function FirstLine(r: Reply): (l: Result<string>)
    ensures l.Success? <==> |r.lines| > 0
    ensures l.Success? ==> l.value == r.lines[0]
    ensures l.Failure? ==> l.error == ArgumentOutOfRange
  {
    if |r.lines| == 0 then Failure(ArgumentOutOfRange) else Success(r.lines[0])
  }
}

=== FILE: dictionary.dfy ===
/** `Dictionary<K, V>` as the controller code uses it: filled only by indexer
    assignment (`d[k] = v`), never by removal, so its entries enumerate in
    insertion order and an assignment to an existing key overwrites that entry
    in place. Keys compare with `==` (the default ordinal comparer). */
module Dictionaries {
  import opened Wrappers

  type Dict<K, V> = seq<(K, V)>

  predicate UniqueKeys<K(==), V>(d: Dict<K, V>) {
    forall i, j :: 0 <= i < j < |d| ==> d[i].0 != d[j].0
  }

  /** The indexer getter / `TryGetValue`. */
  function Lookup<K(==), V>(d: Dict<K, V>, k: K): (r: Option<V>)
    ensures r.None? <==> forall i :: 0 <= i < |d| ==> d[i].0 != k
    ensures r.Some? ==> exists i :: 0 <= i < |d| && d[i] == (k, r.value)
  {
    if |d| == 0 then None
    else if d[0].0 == k then Some(d[0].1)
    else
      var r := Lookup(d[1..], k);
      assert r.Some? ==> exists i :: 0 <= i < |d| && d[i] == (k, r.value) by {
        if r.Some? {
          var i :| 0 <= i < |d[1..]| && d[1..][i] == (k, r.value);
          assert d[i + 1] == (k, r.value);
        }
      }
      r
  }

  /** The indexer setter `d[k] = v`: a new key is appended, an existing one is
      overwritten where it stands and every other entry is kept. */
  function Put<K(==), V>(d: Dict<K, V>, k: K, v: V): (r: Dict<K, V>)
    requires UniqueKeys(d)
    ensures UniqueKeys(r)
    ensures Lookup(d, k).None? ==> r == d + [(k, v)]
    ensures Lookup(d, k).Some? ==> |r| == |d|
    ensures Lookup(d, k).Some? ==> forall i :: 0 <= i < |d| ==> r[i] == (if d[i].0 == k then (k, v) else d[i])
  {
    if |d| == 0 then [(k, v)]
    else if d[0].0 == k then [(k, v)] + d[1..]
    else [d[0]] + Put(d[1..], k, v)
  }

  /** After `d[k] = v`, `k` reads `v` and every other key reads as before. */
  lemma {:induction false} PutLookup<K, V>(d: Dict<K, V>, k: K, v: V, k': K)
    requires UniqueKeys(d)
    ensures Lookup(Put(d, k, v), k') == if k' == k then Some(v) else Lookup(d, k')
    decreases |d|
  {
    if |d| > 0 && d[0].0 != k {
      PutLookup(d[1..], k, v, k');
      assert Put(d, k, v)[1..] == Put(d[1..], k, v);
    }
  }

  /** Assigning the pairs one after another, starting from an empty dictionary. */
  function FromPairs<K(==), V>(ps: seq<(K, V)>): (r: Dict<K, V>)
    ensures UniqueKeys(r)
    ensures |r| <= |ps|
  {
    if |ps| == 0 then []
    else
      var last := ps[|ps| - 1];
      var prefix := FromPairs(ps[..|ps| - 1]);
      Put(prefix, last.0, last.1)
  }

  /** Reference meaning: the value of the last pair with key `k`. */
  function LastValue<K(==), V>(ps: seq<(K, V)>, k: K): Option<V> {
    if |ps| == 0 then None
    else if ps[|ps| - 1].0 == k then Some(ps[|ps| - 1].1)
    else LastValue(ps[..|ps| - 1], k)
  }

  /** Later assignments win: the dictionary holds, for every key, the value of
      the last pair that named it, and nothing for a key no pair named. */
  lemma {:induction false} FromPairsLookup<K, V>(ps: seq<(K, V)>, k: K)
    ensures Lookup(FromPairs(ps), k) == LastValue(ps, k)
    decreases |ps|
  {
    if |ps| > 0 {
      FromPairsLookup(ps[..|ps| - 1], k);
      PutLookup(FromPairs(ps[..|ps| - 1]), ps[|ps| - 1].0, ps[|ps| - 1].1, k);
    }
  }
}

=== FILE: event_bodies.dfy ===
/** The body parsers of three event kinds: configuration changes (key=value
    lines), log messages (one message per line) and bandwidth totals (two
    numbers). Each receives the body `Dispatch` routed to it and reports what
    it raises and what it returns. */
module EventBodies {
  import opened Wrappers
  import opened Text
  import opened StringHelper
  import opened ByteSizes
  import opened EventKinds
  import opened Dictionaries

  /** `Split` over CRLF keeps every non-empty piece: it leaves a list without
      empty members alone. */
  lemma {:induction false} NonEmptyKeeps(parts: seq<string>)
    requires forall i :: 0 <= i < |parts| ==> parts[i] != ""
    ensures NonEmpty(parts) == parts
    decreases |parts|
  {
    if |parts| > 0 {
      NonEmptyKeeps(parts[1..]);
      assert parts == [parts[0]] + parts[1..];
    }
  }

  /** Lines without CR, none empty, joined with CRLF are what the
      empty-entry-removing split gives back. */
  lemma LinesOfJoin(lines: seq<string>)
    requires |lines| > 0
    requires forall i :: 0 <= i < |lines| ==> lines[i] != "" && '\r' !in lines[i]
    ensures SplitCrlfRemoveEmpty(Join(lines, CRLF)) == lines
  {
    SplitCrlfJoin(lines);
    NonEmptyKeeps(lines);
  }

  /** A body holds no line at all when every CRLF-separated piece is empty. */
  predicate NoLines(body: string) {
    forall i :: 0 <= i < |SplitCrlf(body)| ==> SplitCrlf(body)[i] == ""
  }

  /** A string `Trim` leaves alone: empty, or without white space at either end. */
  predicate Trimmed(s: string) {
    |s| > 0 ==> !IsWhiteSpace(s[0]) && !IsWhiteSpace(s[|s| - 1])
  }

  // ---------------------------------------------------------------------
  // CONF_CHANGED

  /** The text of one body line once it is trimmed and a leading `650` and
      then one leading `-` are removed; `None` when nothing is left. */
  function ConfigText(part: string): (r: Option<string>)
    ensures r.Some? ==> r.value != ""
    ensures Trim(part) == "" ==> r.None?
  {
    var t := Trim(part);
    if t == "" then None
    else
      var t1 := if StartsWith(t, "650") then t[3..] else t;
      var t2 := if |t1| > 0 && t1[0] == '-' then t1[1..] else t1;
      if t2 == "" then None else Some(t2)
  }

  /** One setting: the text is cut at its first `=`, key and value trimmed; a
      text without `=` names a key whose value is null. */
  function ConfigEntry(text: string): (r: (string, Option<string>))
    ensures r.1.None? <==> '=' !in text
    ensures r.1.None? ==> r.0 == Trim(text)
    ensures r.1.Some? ==> exists i :: (0 <= i < |text| && text[i] == '=' && '=' !in text[..i]
      && r == (Trim(text[..i]), Some(Trim(text[i + 1..]))))
  {
    var values := SplitFirst(text, '=');
    if |values| == 1 then (Trim(values[0]), None)
    else
      assert text[..|values[0]|] == values[0];
      assert text[|values[0]| + 1..] == values[1];
      (Trim(values[0]), Some(Trim(values[1])))
  }

  /** The setting one body line contributes: none, or one. */
  function ConfigSettingOf(line: string): (r: seq<(string, Option<string>)>)
    ensures |r| <= 1
  {
    match ConfigText(line)
    case None => []
    case Some(t) => [ConfigEntry(t)]
  }

  /** The settings of the body lines, in order, skipping lines with no text. */
  function ConfigSettings(lines: seq<string>): (r: seq<(string, Option<string>)>)
    ensures |r| <= |lines|
  {
    if |lines| == 0 then [] else ConfigSettingOf(lines[0]) + ConfigSettings(lines[1..])
  }

  /** What the config-changed parser did: the dictionary it raised the event
      with, if any, and its return value. */
  datatype ConfigOutcome = ConfigOutcome(raised: Option<Dict<string, Option<string>>>, returned: bool)

  /** `ConfigChangedDispatcher.Dispatch`: a body without lines raises nothing;
      any other raises exactly one event; the result is `false` either way. */
  function ConfigChangedDispatch(body: string): (r: ConfigOutcome)
    ensures !r.returned
    ensures r.raised.None? <==> NoLines(body)
    ensures r.raised.Some? ==> UniqueKeys(r.raised.value)
  {
    var lines := SplitCrlfRemoveEmpty(body);
    if lines == [] then ConfigOutcome(None, false)
    else ConfigOutcome(Some(FromPairs(ConfigSettings(lines))), false)
  }

  /** A setting Tor reports and the parser can read back: a trimmed, non-empty
      key without `=` and a trimmed value (or none), neither holding a CR. */
  predicate Reportable(setting: (string, Option<string>)) {
    var (k, v) := setting;
    && k != "" && Trimmed(k) && '=' !in k && '\r' !in k
    && (v.Some? ==> Trimmed(v.value) && '\r' !in v.value)
  }

  /** The line Tor sends for one setting: `650-key=value`, or `650-key`. */
  function ConfigLine(setting: (string, Option<string>)): string {
    "650-" + setting.0 + (if setting.1.Some? then "=" + setting.1.value else "")
  }

  function ConfigLines(settings: seq<(string, Option<string>)>): (r: seq<string>)
    ensures |r| == |settings|
    ensures forall i :: 0 <= i < |r| ==> r[i] == ConfigLine(settings[i])
  {
    if |settings| == 0 then [] else [ConfigLine(settings[0])] + ConfigLines(settings[1..])
  }

  lemma ConfigLineTrimmed(k: string, rest: string)
    requires k != "" && !IsWhiteSpace(k[|k| - 1])
    requires rest == "" || rest[|rest| - 1] == '=' || !IsWhiteSpace(rest[|rest| - 1])
    ensures Trim("650-" + k + rest) == "650-" + k + rest
  {
    var l := "650-" + k + rest;
    assert l[0] == '6';
    assert l[|l| - 1] == if rest == "" then k[|k| - 1] else rest[|rest| - 1];
    TrimOfTrimmed(l);
  }

  lemma ConfigTextOfLine(k: string, rest: string)
    requires k != "" && !IsWhiteSpace(k[|k| - 1])
    requires rest == "" || rest[|rest| - 1] == '=' || !IsWhiteSpace(rest[|rest| - 1])
    ensures ConfigText("650-" + k + rest) == Some(k + rest)
  {
    var l := "650-" + k + rest;
    ConfigLineTrimmed(k, rest);
    assert StartsWith(l, "650");
    assert l[3..] == "-" + (k + rest);
    assert ("-" + (k + rest))[1..] == k + rest;
  }

  /** The parser reads one reported line back as the setting it came from. */
  lemma ConfigLineRoundTrip(setting: (string, Option<string>))
    requires Reportable(setting)
    ensures ConfigSettingOf(ConfigLine(setting)) == [setting]
  {
    var (k, v) := setting;
    if v.Some? {
      ValueLineRoundTrip(k, v.value);
    } else {
      KeyLineRoundTrip(k);
    }
  }

  lemma ValueLineRoundTrip(k: string, v: string)
    requires Reportable((k, Some(v)))
    ensures ConfigSettingOf("650-" + k + ("=" + v)) == [(k, Some(v))]
  {
    var rest := "=" + v;
    assert rest[|rest| - 1] == if v == "" then '=' else v[|v| - 1];
    ConfigTextOfLine(k, rest);
    assert k + rest == k + ['='] + v;
    SplitFirstAt(k, '=', v);
    TrimOfTrimmed(k);
    TrimOfTrimmed(v);
  }

  lemma KeyLineRoundTrip(k: string)
    requires Reportable((k, None))
    ensures ConfigSettingOf("650-" + k + "") == [(k, None)]
  {
    ConfigTextOfLine(k, "");
    assert k + "" == k;
    TrimOfTrimmed(k);
  }

  lemma ConfigLineNoCr(setting: (string, Option<string>))
    requires Reportable(setting)
    ensures ConfigLine(setting) != "" && '\r' !in ConfigLine(setting)
  {
    var tail := if setting.1.Some? then "=" + setting.1.value else "";
    assert '\r' !in tail;
    assert ConfigLine(setting) == "650-" + setting.0 + tail;
  }

  lemma {:induction false} ConfigSettingsOfLines(settings: seq<(string, Option<string>)>)
    requires forall i :: 0 <= i < |settings| ==> Reportable(settings[i])
    ensures ConfigSettings(ConfigLines(settings)) == settings
    decreases |settings|
  {
    if |settings| > 0 {
      var lines := ConfigLines(settings);
      ConfigLineRoundTrip(settings[0]);
      ConfigSettingsOfLines(settings[1..]);
      assert lines[1..] == ConfigLines(settings[1..]);
      assert ConfigSettings(lines) == ConfigSettingOf(lines[0]) + ConfigSettings(lines[1..]);
      assert settings == [settings[0]] + settings[1..];
    }
  }

  /** Every reported setting reaches the event, and of two settings of one key
      the later wins: a config-changed body built from reportable settings
      raises one event whose dictionary maps each key to the value of its last
      line, and holds no other key. */
  lemma ConfigChangedRoundTrip(settings: seq<(string, Option<string>)>)
    requires |settings| > 0
    requires forall i :: 0 <= i < |settings| ==> Reportable(settings[i])
    ensures var r := ConfigChangedDispatch(Join(ConfigLines(settings), CRLF));
      && r.raised.Some? && !r.returned
      && forall k :: Lookup(r.raised.value, k) == LastValue(settings, k)
  {
    var lines := ConfigLines(settings);
    forall i | 0 <= i < |lines| ensures lines[i] != "" && '\r' !in lines[i] {
      ConfigLineNoCr(settings[i]);
    }
    LinesOfJoin(lines);
    ConfigSettingsOfLines(settings);
    forall k {
      FromPairsLookup(settings, k);
    }
  }

  // ---------------------------------------------------------------------
  // Log events (DEBUG, INFO, NOTICE, WARN, ERR)

  /** A log event as raised: the message and the kind it came in as. */
  datatype LogEntry = LogEntry(message: string, kind: Event)

  /** A trimmed line the log parser passes on: not empty, not `.`, and not a
      `250` acknowledgement. */
  predicate IsMessage(m: string) {
    m != "" && m != "." && !StartsWith(m, "250")
  }

  /** The log events of the body lines, in line order. */
  function LogEntries(lines: seq<string>, kind: Event): (r: seq<LogEntry>)
    ensures |r| <= |lines|
    ensures forall i :: 0 <= i < |r| ==> r[i].kind == kind && IsMessage(r[i].message) && Trimmed(r[i].message)
  {
    if |lines| == 0 then []
    else
      var t := Trim(lines[0]);
      var head := if IsMessage(t) then [LogEntry(t, kind)] else [];
      head + LogEntries(lines[1..], kind)
  }

  /** Lines are handled one by one: the events of two runs of lines are those
      of each run, in order. */
  lemma {:induction false} LogEntriesAppend(a: seq<string>, b: seq<string>, kind: Event)
    ensures LogEntries(a + b, kind) == LogEntries(a, kind) + LogEntries(b, kind)
    decreases |a|
  {
    if |a| == 0 {
      assert a + b == b;
    } else {
      var ab := a + b;
      assert ab[0] == a[0];
      assert ab[1..] == a[1..] + b;
      LogEntriesAppend(a[1..], b, kind);
      var t := Trim(a[0]);
      var head := if IsMessage(t) then [LogEntry(t, kind)] else [];
      assert LogEntries(ab, kind) == head + LogEntries(a[1..] + b, kind);
      assert LogEntries(a, kind) == head + LogEntries(a[1..], kind);
      AppendAssoc3(head, LogEntries(a[1..], kind), LogEntries(b, kind));
    }
  }

  datatype LogOutcome = LogOutcome(raised: seq<LogEntry>, returned: bool)

  /** `LogDispatcher.Dispatch` under the current event kind: `false` for a
      body without lines, otherwise one event per message line and `true`,
      whether or not any line was a message. */
  function LogDispatch(body: string, kind: Event): (r: LogOutcome)
    ensures r.returned <==> !NoLines(body)
    ensures !r.returned ==> r.raised == []
    ensures forall i :: 0 <= i < |r.raised| ==> r.raised[i].kind == kind && IsMessage(r.raised[i].message)
  {
    var lines := SplitCrlfRemoveEmpty(body);
    if lines == [] then LogOutcome([], false)
    else LogOutcome(LogEntries(lines, kind), true)
  }

  function Entries(messages: seq<string>, kind: Event): (r: seq<LogEntry>)
    ensures |r| == |messages|
    ensures forall i :: 0 <= i < |r| ==> r[i] == LogEntry(messages[i], kind)
  {
    if |messages| == 0 then [] else [LogEntry(messages[0], kind)] + Entries(messages[1..], kind)
  }

  lemma {:induction false} LogEntriesOfMessages(messages: seq<string>, kind: Event)
    requires forall i :: 0 <= i < |messages| ==> IsMessage(messages[i]) && Trimmed(messages[i])
    ensures LogEntries(messages, kind) == Entries(messages, kind)
    decreases |messages|
  {
    if |messages| > 0 {
      TrimOfTrimmed(messages[0]);
      LogEntriesOfMessages(messages[1..], kind);
    }
  }

  /** Messages sent one per line come out as events in the same order, each
      with its text and the current kind. */
  lemma LogRoundTrip(messages: seq<string>, kind: Event)
    requires |messages| > 0
    requires forall i :: 0 <= i < |messages| ==> IsMessage(messages[i]) && Trimmed(messages[i]) && '\r' !in messages[i]
    ensures LogDispatch(Join(messages, CRLF), kind) == LogOutcome(Entries(messages, kind), true)
  {
    LinesOfJoin(messages);
    LogEntriesOfMessages(messages, kind);
  }

  /** Blank, `.` and `250` lines raise nothing, yet a body made only of them
      still returns `true`. */
  lemma LogOnlySkipped(lines: seq<string>, kind: Event)
    requires |lines| > 0
    requires forall i :: 0 <= i < |lines| ==> lines[i] != "" && '\r' !in lines[i] && !IsMessage(Trim(lines[i]))
    ensures LogDispatch(Join(lines, CRLF), kind) == LogOutcome([], true)
  {
    LinesOfJoin(lines);
    NoMessages(lines, kind);
  }

  lemma {:induction false} NoMessages(lines: seq<string>, kind: Event)
    requires forall i :: 0 <= i < |lines| ==> !IsMessage(Trim(lines[i]))
    ensures LogEntries(lines, kind) == []
    decreases |lines|
  {
    if |lines| > 0 {
      NoMessages(lines[1..], kind);
    }
  }

  // ---------------------------------------------------------------------
  // BW

  /** The two sizes a bandwidth event carries: bytes read and bytes written. */
  datatype BandwidthOutcome = BandwidthOutcome(raised: Option<(Bytes, Bytes)>, returned: bool)


  /** `BandwidthDispatcher.Dispatch`. `parseDouble` stands for `double.TryParse`.
      The body is split with the quote-aware splitter on spaces; the first two
      fields must both be numbers. */
  function BandwidthDispatch(body: string, parseDouble: string -> Option<real>): (r: BandwidthOutcome)
    ensures r.returned <==> r.raised.Some?
    ensures var fields := GetAll(Some(body), ' ').value;
      r.raised.Some? <==> |fields| >= 2 && parseDouble(fields[0]).Some? && parseDouble(fields[1]).Some?
    ensures r.raised.Some? ==> IsNormal(r.raised.value.0) && IsNormal(r.raised.value.1)
  {
    var parts := GetAll(Some(body), ' ').value;
    if |parts| < 2 then BandwidthOutcome(None, false)
    else
      match (parseDouble(parts[0]), parseDouble(parts[1]))
      case (Some(down), Some(up)) =>
        BandwidthOutcome(Some((Normalize(Bytes(down, B)), Normalize(Bytes(up, B)))), true)
      case _ => BandwidthOutcome(None, false)
  }

  /** Two plain fields `read written`: the event carries the two sizes, each
      as bytes normalized to the largest unit, exactly when both parse. */
  lemma BandwidthFields(read: string, written: string, parseDouble: string -> Option<real>)
    requires ' ' !in read && '"' !in read
    requires written != "" && ' ' !in written && '"' !in written
    ensures var r := BandwidthDispatch(read + " " + written, parseDouble);
      && (r.raised.Some? <==> parseDouble(read).Some? && parseDouble(written).Some?)
      && (r.raised.Some? ==>
            r.raised.value == (Normalize(Bytes(parseDouble(read).value, B)), Normalize(Bytes(parseDouble(written).value, B))))
  {
    var body := read + " " + written;
    assert body == read + [' '] + written;
    assert body[|body| - 1] == written[|written| - 1];
    assert '"' !in body;
    GetAllNoQuotes(body, ' ');
    SplitCons(read, ' ', written);
    assert IndexOf(written, ' ') == None;
  }
}

=== FILE: event_dispatch.dfy ===
/** `Events.Dispatch`: reads the `650` status and the event name off a unit the
    reassembler produced and hands the rest to the body parser registered for
    that kind; and the receive callback that dispatches every unit of a chunk. */
module EventDispatch {
  import opened Wrappers
  import opened Text
  import opened EventKinds
  import opened EventStream

  /** What `Dispatch` does with one unit. */
  datatype Routed =
    | Ignored
    | Route(event: Event, dispatcher: DispatcherKind, body: string)
    | Fault(error: Error)

  /** The fields of a trimmed unit: `[status, name, body...]`. The dash form
      (`NNN-NAME CRLF body`) is cut at the first `-` and then at the first
      CRLF; the space form is `Split(' ', 3)`. An empty result stands for the
      early returns of the dash form. */
  function Parts(trimmed: string): (r: seq<string>)
    ensures |r| <= 3
  {
    if |trimmed| > 3 && trimmed[3] == '-' then DashFields(trimmed)
    else SplitAtMost3(trimmed, ' ')
  }

  function DashFields(trimmed: string): (r: seq<string>)
    ensures |r| == 0 || |r| == 3
  {
    var intermediate := SplitFirst(trimmed, '-');
    if |intermediate| < 2 then []
    else DashContent(Trim(intermediate[0]), Trim(intermediate[1]))
  }

  function DashContent(status: string, content: string): (r: seq<string>)
    ensures |r| == 0 || |r| == 3
  {
    var data := SplitCrlfFirst(content);
    if |data| < 2 then [] else [status, data[0], data[1]]
  }

  /** The decision on the fields of a unit: status `650`, a known name, and
      the body field, which a two-field unit lacks. */
  function RouteParts(parts: seq<string>): (r: Routed)
    ensures r.Route? ==> r.event != Unknown && DispatcherFor(r.event) == Some(r.dispatcher)
    ensures r.Route? ==> |parts| >= 3 && parts[0] == "650" && NameMatches(r.event, parts[1]) && r.body == parts[2]
    ensures r.Fault? ==> r.error == IndexOutOfRange && |parts| == 2
  {
    if |parts| < 2 then Ignored
    else if parts[0] != "650" then Ignored
    else
      var evt := FromName(parts[1]);
      if evt == Unknown then Ignored
      else
        match DispatcherFor(evt)
        case None => Ignored
        case Some(d) =>
          if |parts| < 3 then Fault(IndexOutOfRange)
          else Route(evt, d, parts[2])
  }

  /** `Dispatch(line)`: null throws; units shorter than three characters once
      trimmed are dropped. */
  function Dispatch(line: Option<string>): (r: Routed)
    ensures line.None? <==> r == Fault(ArgumentNull)
    ensures r.Route? ==> r.event != Unknown && DispatcherFor(r.event) == Some(r.dispatcher)
    ensures r.Fault? && line.Some? ==> r.error == IndexOutOfRange
  {
    match line
    case None => Fault(ArgumentNull)
    case Some(l) =>
      var trimmed := Trim(l);
      if |trimmed| < 3 then Ignored else RouteParts(Parts(trimmed))
  }

  /** A known name with its body field is routed to that kind's parser. */
  lemma RouteKnown(e: Event, body: string)
    requires e != Unknown
    ensures RouteParts(["650", Name(e).value, body]) == Route(e, DispatcherFor(e).value, body)
  {
    FromNameOfName(e);
  }

  /** Only units whose trimmed text begins with `650` are routed, and the kind
      routed to is the one whose name the unit carries. */
  lemma RouteNeedsStatus(l: string)
    requires Dispatch(Some(l)).Route?
    ensures StartsWith(Trim(l), "650")
    ensures NameMatches(Dispatch(Some(l)).event, Parts(Trim(l))[1])
  {
    var t := Trim(l);
    assert RouteParts(Parts(t)).Route?;
    if |t| > 3 && t[3] == '-' {
      DashStatus(t);
    } else {
      JoinStartsWith(SplitAtMost3(t, ' '), [' ']);
    }
  }

  /** The status field of the dash form is the text before the `-` at index 3. */
  lemma DashStatus(t: string)
    requires |t| > 3 && t[3] == '-'
    requires |DashFields(t)| == 3 && DashFields(t)[0] == "650"
    ensures StartsWith(t, "650")
  {
    var p := SplitFirst(t, '-');
    var x := p[0];
    assert |p| == 2 && t == x + ['-'] + p[1];
    assert forall k :: 0 <= k < |x| ==> t[k] == x[k];
    assert |x| <= 3;
    assert Trim(x) == "650";
    assert x == "650";
    assert t[..3] == x;
  }

  predicate IsSimpleName(n: string) {
    |n| > 0 && ' ' !in n && '-' !in n && '\r' !in n && !IsWhiteSpace(n[0])
  }

  lemma NamesSimple(e: Event)
    requires e != Unknown
    ensures IsSimpleName(Name(e).value)
  {
  }

  /** A one-line event `650 NAME body` reaches the parser for NAME with the
      body as it stands (the body may hold further spaces). */
  lemma DispatchSpaceForm(e: Event, body: string)
    requires e != Unknown
    requires |body| > 0 && !IsWhiteSpace(body[|body| - 1])
    ensures Dispatch(Some("650 " + Name(e).value + " " + body))
      == Route(e, DispatcherFor(e).value, body)
  {
    var name := Name(e).value;
    NamesSimple(e);
    TrimmedEnds("650 " + name + " ", body);
    SpaceParts(name, body);
    RouteKnown(e, body);
  }

  lemma SpaceParts(name: string, body: string)
    requires IsSimpleName(name)
    ensures Parts("650 " + name + " " + body) == ["650", name, body]
  {
    assert "650 " + name + " " + body == "650" + [' '] + (name + [' '] + body);
    SplitFirstAt("650", ' ', name + [' '] + body);
    SplitFirstAt(name, ' ', body);
  }

  /** `650 NAME` with no body is routed and then fails on the missing field. */
  lemma DispatchMissingBody(e: Event)
    requires e != Unknown
    ensures Dispatch(Some("650 " + Name(e).value)) == Fault(IndexOutOfRange)
  {
    var name := Name(e).value;
    NamesSimple(e);
    TrimmedEnds("650 ", name);
    ShortParts(name);
    RouteShort(e);
  }

  lemma RouteShort(e: Event)
    requires e != Unknown
    ensures RouteParts(["650", Name(e).value]) == Fault(IndexOutOfRange)
  {
    FromNameOfName(e);
  }

  /** A unit that `Trim` leaves alone goes straight to `Parts`. */
  lemma TrimmedEnds(head: string, tail: string)
    requires |head| >= 3 && head[0] == '6'
    requires |tail| > 0 && !IsWhiteSpace(tail[|tail| - 1])
    ensures Dispatch(Some(head + tail)) == RouteParts(Parts(head + tail))
  {
    var l := head + tail;
    assert l[0] == '6' && l[|l| - 1] == tail[|tail| - 1];
    TrimOfTrimmed(l);
  }

  lemma ShortParts(name: string)
    requires IsSimpleName(name)
    ensures Parts("650 " + name) == ["650", name]
  {
    assert "650 " + name == "650" + [' '] + name;
    SplitFirstAt("650", ' ', name);
    assert SplitFirst(name, ' ') == [name];
  }

  /** A multi-line unit `650-NAME CRLF body` (with the trailing line breaks the
      reassembler leaves) reaches the parser for NAME with the body lines. */
  lemma DispatchDashForm(e: Event, body: string, tail: string)
    requires e != Unknown
    requires |body| > 0 && !IsWhiteSpace(body[|body| - 1])
    requires IsBlank(tail)
    ensures Dispatch(Some("650-" + Name(e).value + CRLF + body + tail))
      == Route(e, DispatcherFor(e).value, body)
  {
    var name := Name(e).value;
    NamesSimple(e);
    DashFormTrim(name, body, tail);
    DashParts(name, body);
    RouteKnown(e, body);
  }

  lemma DashFormTrim(name: string, body: string, tail: string)
    requires |body| > 0 && !IsWhiteSpace(body[|body| - 1])
    requires IsBlank(tail)
    ensures Trim("650-" + name + CRLF + body + tail) == "650-" + name + CRLF + body
  {
    var t := "650-" + name + CRLF + body;
    assert t[0] == '6' && t[|t| - 1] == body[|body| - 1];
    TrimBlankTail(t, tail);
  }

  lemma DashParts(name: string, body: string)
    requires IsSimpleName(name)
    requires |body| > 0 && !IsWhiteSpace(body[|body| - 1])
    ensures Parts("650-" + name + CRLF + body) == ["650", name, body]
  {
    var content := name + CRLF + body;
    AppendAssoc("650-", name, CRLF, body);
    DashSplit(content);
    DashContentOf(name, body);
  }

  lemma DashSplit(content: string)
    ensures Parts("650-" + content) == DashContent("650", Trim(content))
  {
    var t := "650-" + content;
    assert |t| > 3 && t[3] == '-';
    assert t == "650" + ['-'] + content;
    SplitFirstAt("650", '-', content);
    TrimOfTrimmed("650");
  }

  lemma DashContentOf(name: string, body: string)
    requires IsSimpleName(name)
    requires |body| > 0 && !IsWhiteSpace(body[|body| - 1])
    ensures DashContent("650", Trim(name + CRLF + body)) == ["650", name, body]
  {
    var content := name + CRLF + body;
    assert content[|content| - 1] == body[|body| - 1];
    assert content[0] == name[0];
    TrimOfTrimmed(content);
    SplitCrlfFirstAt(name, body);
  }

  /** The lines of a block joined by CRLF, which is the block text without its
      final CRLF. */
  lemma {:induction false} BlockTextJoin(block: seq<string>)
    requires |block| > 0
    ensures BlockText(block) == Join(block, CRLF) + CRLF
    decreases |block|
  {
    if |block| > 1 {
      BlockTextJoin(block[1..]);
      JoinCons(block[0], block[1..], CRLF);
      assert block == [block[0]] + block[1..];
    }
  }

  lemma {:induction false} JoinLastChar(parts: seq<string>, sep: string)
    requires |parts| > 0 && |parts[|parts| - 1]| > 0
    ensures var j := Join(parts, sep); var p := parts[|parts| - 1];
      |j| > 0 && j[|j| - 1] == p[|p| - 1]
    decreases |parts|
  {
    if |parts| > 1 {
      JoinLastChar(parts[1..], sep);
    }
  }

  /** End to end: a multi-line event reply reassembled into one unit is routed
      to the parser for its kind, with the following lines joined by CRLF. */
  lemma DispatchBlock(e: Event, rest: seq<string>)
    requires e != Unknown
    requires |rest| > 0
    requires var last := rest[|rest| - 1]; |last| > 0 && !IsWhiteSpace(last[|last| - 1])
    ensures Dispatch(Some(BlockText(["650-" + Name(e).value] + rest)))
      == Route(e, DispatcherFor(e).value, Join(rest, CRLF))
  {
    var first := "650-" + Name(e).value;
    var body := Join(rest, CRLF);
    BlockTextJoin(rest);
    assert ([first] + rest)[1..] == rest;
    assert BlockText([first] + rest) == first + CRLF + body + CRLF;
    JoinLastChar(rest, CRLF);
    assert IsBlank(CRLF);
    DispatchDashForm(e, body, CRLF);
  }

  /** The `foreach` over the units of a chunk: each is dispatched in order and
      the first fault ends the loop. */
  function DispatchAll(units: seq<string>): (r: seq<Routed>)
    ensures |r| <= |units|
    ensures forall i :: 0 <= i < |r| ==> r[i] == Dispatch(Some(units[i]))
    ensures forall i :: 0 <= i < |r| - 1 ==> !r[i].Fault?
    ensures |r| < |units| ==> |r| > 0 && r[|r| - 1].Fault?
  {
    UntilFault(seq(|units|, i requires 0 <= i < |units| => Dispatch(Some(units[i]))))
  }

  /** The outcomes up to and including the first fault. */
  function UntilFault(ds: seq<Routed>): (r: seq<Routed>)
    ensures |r| <= |ds| && r == ds[..|r|]
    ensures forall i :: 0 <= i < |r| - 1 ==> !r[i].Fault?
    ensures |r| < |ds| ==> |r| > 0 && r[|r| - 1].Fault?
  {
    if |ds| == 0 then []
    else if ds[0].Fault? then [ds[0]]
    else
      var rest := UntilFault(ds[1..]);
      assert ds[..|rest| + 1] == [ds[0]] + rest;
      [ds[0]] + rest
  }

  /** The event listener: the reassembly state and whether another receive is
      posted. */
  datatype Listener = Listener(session: Session, receiving: bool)

  /** `OnSocketReceive` with the bytes read decoded to `data`. Nothing read
      ends listening; so does an exception out of a dispatch, which the
      callback swallows before posting the next receive. */
  function OnReceive(l: Listener, data: string): (r: (Listener, seq<Routed>))
    ensures !l.receiving ==> r == (l, [])
    ensures data == "" ==> !r.0.receiving && r.1 == []
    ensures r.0.receiving <==> l.receiving && data != "" && forall i :: 0 <= i < |r.1| ==> !r.1[i].Fault?
  {
    if !l.receiving then (l, [])
    else if data == "" then (Listener(l.session, false), [])
    else
      var step := Receive(l.session, Some(data)).value;
      var routed := DispatchAll(step.units);
      var faulted := |routed| > 0 && routed[|routed| - 1].Fault?;
      (Listener(step.session, !faulted), routed)
  }
}

=== FILE: event_kinds.dfy ===
/** The `Event` enumeration: the asynchronous event kinds the controller can
    subscribe to, with their wire names (the `Description` attributes) and flag
    values, and the table that maps each kind to the body parser for it. */
module EventKinds {
  import opened Wrappers
  import opened Text

  datatype Event =
    | Unknown
    | Circuits
    | Streams
    | ORConnections
    | Bandwidth
    | ConfigChanged
    | LogDebug
    | LogInfo
    | LogNotice
    | LogWarn
    | LogError

  /** The kinds in declaration order, the order reflection enumerates them in. */
  const AllEvents: seq<Event> := [Unknown, Circuits, Streams, ORConnections, Bandwidth,
    ConfigChanged, LogDebug, LogInfo, LogNotice, LogWarn, LogError]

  /** The wire name; `Unknown` has none. */
  function Name(e: Event): Option<string> {
    match e
    case Unknown => None
    case Circuits => Some("CIRC")
    case Streams => Some("STREAM")
    case ORConnections => Some("ORCONN")
    case Bandwidth => Some("BW")
    case ConfigChanged => Some("CONF_CHANGED")
    case LogDebug => Some("DEBUG")
    case LogInfo => Some("INFO")
    case LogNotice => Some("NOTICE")
    case LogWarn => Some("WARN")
    case LogError => Some("ERR")
  }

  /** The `[Flags]` value of each kind. */
  function Value(e: Event): int {
    match e
    case Unknown => 0x000
    case Circuits => 0x001
    case Streams => 0x002
    case ORConnections => 0x004
    case Bandwidth => 0x008
    case ConfigChanged => 0x010
    case LogDebug => 0x020
    case LogInfo => 0x040
    case LogNotice => 0x080
    case LogWarn => 0x100
    case LogError => 0x200
  }

  predicate NameMatches(e: Event, name: string) {
    Name(e).Some? && EqualsIgnoreCase(name, Name(e).value)
  }

  /** First kind in `kinds` whose wire name matches `name` ignoring case. */
  function FindByName(kinds: seq<Event>, name: string): (r: Event)
    ensures r != Unknown ==> r in kinds && NameMatches(r, name)
    ensures r == Unknown ==> forall e :: e in kinds ==> !NameMatches(e, name)
  {
    if |kinds| == 0 then Unknown
    else if NameMatches(kinds[0], name) then kinds[0]
    else FindByName(kinds[1..], name)
  }

  /** The lookup `Dispatch` performs on an event name; `Unknown` when none matches. */
  function FromName(name: string): (r: Event)
    ensures r != Unknown <==> exists e :: NameMatches(e, name)
    ensures r != Unknown ==> NameMatches(r, name)
  {
    var r := FindByName(AllEvents, name);
    assert forall e: Event :: e in AllEvents by {
      forall e: Event ensures e in AllEvents {
        InAllEvents(e);
      }
    }
    r
  }

  lemma InAllEvents(e: Event)
    ensures e in AllEvents
  {
    match e
    case Unknown => assert AllEvents[0] == e;
    case Circuits => assert AllEvents[1] == e;
    case Streams => assert AllEvents[2] == e;
    case ORConnections => assert AllEvents[3] == e;
    case Bandwidth => assert AllEvents[4] == e;
    case ConfigChanged => assert AllEvents[5] == e;
    case LogDebug => assert AllEvents[6] == e;
    case LogInfo => assert AllEvents[7] == e;
    case LogNotice => assert AllEvents[8] == e;
    case LogWarn => assert AllEvents[9] == e;
    case LogError => assert AllEvents[10] == e;
  }

  /** Every kind but `Unknown` is found again from its own wire name. */
  lemma FromNameOfName(e: Event)
    requires e != Unknown
    ensures FromName(Name(e).value) == e
  {
    var n := Name(e).value;
    assert NameMatches(e, n);
    var r := FromName(n);
    assert NameMatches(r, n);
    NamesDistinct(r, e);
  }

  /** Wire names differ even ignoring case: equal lengths already differ in
      the first letter. */
  lemma NamesDistinct(a: Event, b: Event)
    requires Name(a).Some? && Name(b).Some?
    ensures EqualsIgnoreCase(Name(a).value, Name(b).value) <==> a == b
  {
    var x, y := Name(a).value, Name(b).value;
    assert a != b ==> |x| != |y| || Lower(x[0]) != Lower(y[0]);
  }

  /** Which body parser handles a kind (`EventAssoc` on the dispatcher classes). */
  datatype DispatcherKind = CircuitDispatcher | StreamDispatcher | ORConnectionDispatcher
    | BandwidthDispatcher | ConfigChangedDispatcher | LogDispatcher

  function DispatcherFor(e: Event): (r: Option<DispatcherKind>)
    ensures e != Unknown ==> r.Some?
    ensures r == Some(LogDispatcher) <==> e in {LogDebug, LogInfo, LogNotice, LogWarn, LogError}
  {
    match e
    case Unknown => None
    case Circuits => Some(CircuitDispatcher)
    case Streams => Some(StreamDispatcher)
    case ORConnections => Some(ORConnectionDispatcher)
    case Bandwidth => Some(BandwidthDispatcher)
    case ConfigChanged => Some(ConfigChangedDispatcher)
    case LogDebug => Some(LogDispatcher)
    case LogInfo => Some(LogDispatcher)
    case LogNotice => Some(LogDispatcher)
    case LogWarn => Some(LogDispatcher)
    case LogError => Some(LogDispatcher)
  }
}

=== FILE: event_stream.dfy ===
/** `Events.SetEventResponse`: the reassembler that turns the chunks read from
    the event connection into complete event units. Between chunks it keeps the
    text after the last CRLF (the backlog) and the lines of an unfinished
    multi-line reply (the pending block). */
module EventStream {
  import opened Wrappers
  import opened Text

  datatype Session = Session(backlog: string, multiLine: Option<string>)

  /** A fresh listener: empty backlog, no pending block. */
  const NewSession := Session("", None)

  /** The result of one chunk: the next session and the units to dispatch. */
  datatype Step = Step(session: Session, units: seq<string>)

  /** A line of a multi-line reply, `NNN-...` (4th character `-`). */
  predicate IsContinuation(line: string) {
    3 < |line| && line[3] == '-'
  }

  /** A line the reassembler drops: empty, or a `250` acknowledgement. */
  predicate IsSkipped(line: string) {
    line == "" || StartsWith(line, "250")
  }

  /** The pending block after some lines, and the units they completed. */
  datatype Fed = Fed(pending: Option<string>, units: seq<string>)

  /** One complete line against the pending block. */
  function StepLine(multi: Option<string>, line: string): (r: Fed)
    ensures IsSkipped(line) ==> r == Fed(multi, [])
    ensures !IsSkipped(line) && IsContinuation(line) ==> r == Fed(Some(multi.GetOr("") + line + CRLF), [])
    ensures !IsSkipped(line) && !IsContinuation(line) ==> r.pending == None && |r.units| == 1
    ensures !IsSkipped(line) && !IsContinuation(line) && multi.Some? ==> r.units == [multi.value]
    ensures !IsSkipped(line) && !IsContinuation(line) && multi.None? ==> r.units == [line]
  {
    if IsSkipped(line) then Fed(multi, [])
    else if IsContinuation(line) then Fed(Some(multi.GetOr("") + line + CRLF), [])
    else if multi.Some? then Fed(None, [multi.value])
    else Fed(None, [line])
  }

  /** The loop over complete lines, in order. */
  function StepLines(multi: Option<string>, lines: seq<string>): Fed
    decreases |lines|
  {
    if |lines| == 0 then Fed(multi, [])
    else
      var first := StepLine(multi, lines[0]);
      var rest := StepLines(first.pending, lines[1..]);
      Fed(rest.pending, first.units + rest.units)
  }

  /** The complete lines of `s`: every CRLF-terminated piece. */
  function CompleteLines(s: string): seq<string> {
    var p := SplitCrlf(s);
    p[..|p| - 1]
  }

  /** What is left of `s` after its last CRLF. */
  function Remainder(s: string): string {
    var p := SplitCrlf(s);
    p[|p| - 1]
  }

  /** `SetEventResponse(chunk)`: null throws, an empty chunk does nothing,
      otherwise backlog and chunk are joined and every complete line is fed to
      the pending block. */
  function Receive(s: Session, chunk: Option<string>): (r: Result<Step>)
    ensures r.Failure? <==> chunk.None?
    ensures r.Failure? ==> r.error == ArgumentNull
    ensures chunk == Some("") ==> r == Success(Step(s, []))
    ensures r.Success? && chunk != Some("") ==> !HasCrlf(r.value.session.backlog)
  {
    match chunk
    case None => Failure(ArgumentNull)
    case Some(c) =>
      if c == "" then Success(Step(s, []))
      else
        var response := s.backlog + c;
        var fed := StepLines(s.multiLine, CompleteLines(response));
        Success(Step(Session(Remainder(response), fed.pending), fed.units))
  }

  /** After a non-empty chunk the backlog is exactly the text after the last
      CRLF of old backlog and chunk together. */
  lemma ReceiveBacklog(s: Session, c: string)
    requires c != ""
    ensures var response := s.backlog + c;
      var b := Receive(s, Some(c)).value.session.backlog;
      |b| <= |response| && response[|response| - |b|..] == b && !HasCrlf(b)
      && (|b| < |response| ==> IsCrlfAt(response, |response| - |b| - 2))
  {
    SplitCrlfLast(s.backlog + c);
  }

  /** Feeding lines in two runs is feeding them in one. */
  lemma {:induction false} StepLinesAppend(m: Option<string>, a: seq<string>, b: seq<string>)
    ensures var r1 := StepLines(m, a); var r2 := StepLines(r1.pending, b);
      StepLines(m, a + b) == Fed(r2.pending, r1.units + r2.units)
    decreases |a|
  {
    if |a| > 0 {
      assert (a + b)[1..] == a[1..] + b;
      assert (a + b)[0] == a[0];
      var first := StepLine(m, a[0]);
      StepLinesAppend(first.pending, a[1..], b);
      var restA := StepLines(first.pending, a[1..]);
      var r2 := StepLines(restA.pending, b);
      assert (first.units + restA.units) + r2.units == first.units + (restA.units + r2.units);
    } else {
      assert a + b == b;
      assert StepLines(m, a) == Fed(m, []);
      assert [] + StepLines(m, b).units == StepLines(m, b).units;
    }
  }

  /** Splitting `x + y` after the last CRLF of `x`. */
  lemma LinesAppend(x: string, y: string)
    ensures CompleteLines(x + y) == CompleteLines(x) + CompleteLines(Remainder(x) + y)
    ensures Remainder(x + y) == Remainder(Remainder(x) + y)
  {
    SplitCrlfAppend(x, y);
    InitAppend(SplitCrlf(x), SplitCrlf(Remainder(x) + y));
  }

  /** The result does not depend on where the stream was cut into chunks:
      two chunks give the same session and the same units, in order, as their
      concatenation in one. */
  lemma ReceiveChunked(s: Session, a: string, b: string)
    ensures var r1 := Receive(s, Some(a)).value;
      var r2 := Receive(r1.session, Some(b)).value;
      Receive(s, Some(a + b)).value == Step(r2.session, r1.units + r2.units)
  {
    if a == "" {
      assert a + b == b;
    } else if b == "" {
      assert a + b == a;
    } else {
      var r1 := Receive(s, Some(a)).value;
      assert s.backlog + (a + b) == (s.backlog + a) + b;
      LinesAppend(s.backlog + a, b);
      StepLinesAppend(s.multiLine, CompleteLines(s.backlog + a), CompleteLines(r1.session.backlog + b));
    }
  }

  /** Empty lines and `250` lines produce nothing and leave the block alone. */
  lemma {:induction false} SkippedLines(m: Option<string>, lines: seq<string>)
    requires forall i :: 0 <= i < |lines| ==> IsSkipped(lines[i])
    ensures StepLines(m, lines) == Fed(m, [])
    decreases |lines|
  {
    if |lines| > 0 {
      SkippedLines(m, lines[1..]);
      var first := StepLine(m, lines[0]);
      assert first.units + StepLines(m, lines[1..]).units == [];
    }
  }

  /** The text a pending block holds for the given continuation lines. */
  function BlockText(block: seq<string>): string {
    if |block| == 0 then "" else block[0] + CRLF + BlockText(block[1..])
  }

  predicate IsBlockLine(line: string) {
    !IsSkipped(line) && IsContinuation(line)
  }

  /** Continuation lines collect in the pending block, each with its CRLF. */
  lemma {:induction false} BlockLines(m: Option<string>, block: seq<string>)
    requires |block| > 0
    requires forall i :: 0 <= i < |block| ==> IsBlockLine(block[i])
    ensures StepLines(m, block) == Fed(Some(m.GetOr("") + BlockText(block)), [])
    decreases |block|
  {
    var x := m.GetOr("");
    var m1 := Some(x + block[0] + CRLF);
    BlockStep(m, block);
    BlockTextCons(x, block);
    if |block| > 1 {
      BlockLines(m1, block[1..]);
    } else {
      assert BlockText(block[1..]) == "";
      assert m1.value + "" == m1.value;
    }
  }

  /** One continuation line moves into the pending block and yields nothing. */
  lemma BlockStep(m: Option<string>, block: seq<string>)
    requires |block| > 0 && IsBlockLine(block[0])
    ensures var rest := StepLines(Some(m.GetOr("") + block[0] + CRLF), block[1..]);
      StepLines(m, block) == rest
  {
    var m1 := Some(m.GetOr("") + block[0] + CRLF);
    var rest := StepLines(m1, block[1..]);
    var first := StepLine(m, block[0]);
    assert first.pending == m1 && first.units == [];
    assert StepLines(m, block) == Fed(rest.pending, first.units + rest.units);
    assert first.units + rest.units == rest.units;
  }

  lemma BlockTextCons(x: string, block: seq<string>)
    requires |block| > 0
    ensures (x + block[0] + CRLF) + BlockText(block[1..]) == x + BlockText(block)
  {
    var t := BlockText(block[1..]);
    assert BlockText(block) == block[0] + CRLF + t;
    AppendAssoc(x, block[0], CRLF, t);
  }

  /** A complete multi-line reply (continuation lines and a closing line) is
      delivered as one unit holding the continuation lines; the closing line
      itself is dropped. */
  lemma MultiLineReply(block: seq<string>, last: string)
    requires |block| > 0
    requires forall i :: 0 <= i < |block| ==> IsBlockLine(block[i])
    requires !IsSkipped(last) && !IsContinuation(last)
    ensures StepLines(None, block + [last]) == Fed(None, [BlockText(block)])
  {
    var text := BlockText(block);
    BlockLines(None, block);
    var none: Option<string> := None;
    assert none.GetOr("") + text == text;
    StepLinesAppend(None, block, [last]);
    SingleLine(Some(text), last);
    assert StepLine(Some(text), last) == Fed(None, [text]);
    assert [] + [text] == [text];
  }

  /** With no block pending, an ordinary line is delivered as it is. */
  lemma SingleLineReply(line: string)
    requires !IsSkipped(line) && !IsContinuation(line)
    ensures StepLines(None, [line]) == Fed(None, [line])
  {
    SingleLine(None, line);
  }

  /** Feeding one line is one `StepLine`. */
  lemma SingleLine(m: Option<string>, line: string)
    ensures StepLines(m, [line]) == StepLine(m, line)
  {
    assert [line][1..] == [];
    assert StepLine(m, line).units + [] == StepLine(m, line).units;
  }
}

=== FILE: hosts.dfy ===
/** `Tor.Host` (an address with an optional port) and `Tor.HostAuth` (an
    optional user name and password) with the string converter of the latter.
    A C# `null` string is `None`. */
module Hosts {
  import opened Wrappers
  import opened Text

  /** `short.MaxValue`, the largest port the library accepts. */
  const MaxPort: int := 32767

  /** A port the constructors accept: -1 for "none", or 1 to 32767. */
  predicate ValidPort(port: int) {
    port == -1 || (0 < port <= MaxPort)
  }

  datatype Host = Host(address: Option<string>, port: int)

  /** `Host.Null`. */
  const NullHost := Host(None, -1)

  /** `default(Host)`, the value of a field nobody assigned. */
  const DefaultHost := Host(None, 0)

  predicate IsNull(h: Host) {
    h.address.None?
  }

  /** `new Host(address)`: the address may not be null or blank; no port. */
  function NewHost(address: Option<string>): (r: Result<Host>)
    ensures r.Failure? <==> IsNullOrWhiteSpace(address)
    ensures r.Failure? ==> r.error == Argument
    ensures r.Success? ==> r.value.address == address && r.value.port == -1 && !IsNull(r.value)
  {
    if IsNullOrWhiteSpace(address) then Failure(Argument) else Success(Host(address, -1))
  }

  /** `new Host(address, port)`: a blank address is checked first, then the port. */
  function NewHostWithPort(address: Option<string>, port: int): (r: Result<Host>)
    ensures r.Success? <==> !IsNullOrWhiteSpace(address) && ValidPort(port)
    ensures IsNullOrWhiteSpace(address) ==> r == Failure(Argument)
    ensures !IsNullOrWhiteSpace(address) && !ValidPort(port) ==> r == Failure(ArgumentOutOfRange)
    ensures r.Success? ==> r.value == Host(address, port)
  {
    if IsNullOrWhiteSpace(address) then Failure(Argument)
    else if !ValidPort(port) then Failure(ArgumentOutOfRange)
    else Success(Host(address, port))
  }

  /** The `Address` setter. */
  function SetAddress(h: Host, value: Option<string>): (r: Result<Host>)
    ensures r.Failure? <==> IsNullOrWhiteSpace(value)
    ensures r.Success? ==> r.value == h.(address := value)
  {
    if IsNullOrWhiteSpace(value) then Failure(Argument) else Success(h.(address := value))
  }

  /** The `Port` setter as written: it checks the port the host already has,
      not the value being assigned. */
  function SetPortAsWritten(h: Host, value: int): (r: Result<Host>)
    ensures r.Success? <==> ValidPort(h.port)
    ensures r.Success? ==> r.value == h.(port := value)
  {
    if h.port != -1 && (h.port <= 0 || MaxPort < h.port) then Failure(ArgumentOutOfRange)
    else Success(h.(port := value))
  }

  /** The setter the constructors' rule calls for: it checks the new value. */
  function SetPort(h: Host, value: int): (r: Result<Host>)
    ensures r.Success? <==> ValidPort(value)
    ensures r.Failure? ==> r.error == ArgumentOutOfRange
    ensures r.Success? ==> r.value == h.(port := value)
  {
    if !ValidPort(value) then Failure(ArgumentOutOfRange) else Success(h.(port := value))
  }

  /** As written, the setter lets an out-of-range port in, and then refuses
      every later assignment, even of a valid port; the same happens to a host
      nobody assigned, whose port is 0. */
  lemma SetPortAsWrittenAcceptsInvalid()
    ensures SetPortAsWritten(Host(Some("localhost"), 9050), 0) == Success(Host(Some("localhost"), 0))
    ensures SetPortAsWritten(Host(Some("localhost"), 0), 9050).Failure?
    ensures SetPortAsWritten(DefaultHost, 9050).Failure?
  {
  }

  /** `Host.ToString`: the address alone when there is no port, otherwise
      `address:port`; a null address formats as empty text beside a port and
      as null alone. */
  function HostText(h: Host): (r: Option<string>)
    ensures h.port == -1 ==> r == h.address
    ensures h.port != -1 ==> r.Some? && |r.value| > |h.address.GetOr("")|
    ensures h.port != -1 ==> r.value[..|h.address.GetOr("")|] == h.address.GetOr("") && r.value[|h.address.GetOr("")|] == ':'
  {
    if h.port == -1 then h.address
    else Some(h.address.GetOr("") + ":" + IntToString(h.port))
  }

  /** The text names the host: two hosts with addresses free of `:` and ports
      that are -1 or 32-bit print alike only when they are equal. */
  lemma HostTextInjective(a: Host, b: Host)
    requires a.address.Some? && b.address.Some?
    requires ':' !in a.address.value && ':' !in b.address.value
    requires Int32Min <= a.port <= Int32Max && Int32Min <= b.port <= Int32Max
    requires HostText(a) == HostText(b)
    ensures a == b
  {
    var x, y := a.address.value, b.address.value;
    if a.port != -1 && b.port != -1 {
      var s := HostText(a).value;
      assert s == x + [':'] + IntToString(a.port);
      assert s == y + [':'] + IntToString(b.port);
      SplitFirstAt(x, ':', IntToString(a.port));
      SplitFirstAt(y, ':', IntToString(b.port));
      ParseInt32ToString(a.port);
      ParseInt32ToString(b.port);
    }
  }

  // ---------------------------------------------------------------------
  // HostAuth

  datatype HostAuth = HostAuth(username: Option<string>, password: Option<string>)

  /** `HostAuth.Null`. */
  const NullAuth := HostAuth(None, None)

  predicate AuthIsNull(a: HostAuth) {
    a.username.None? && a.password.None?
  }

  /** `HostAuth.ToString` and `HostAuthTypeConverter.ConvertTo(string)`, which
      agree: empty for the null value, the user name alone without a password,
      otherwise `username:password` (a null user name printing as empty). */
  function AuthText(a: HostAuth): (r: Option<string>)
    ensures AuthIsNull(a) ==> r == Some("")
    ensures !AuthIsNull(a) && a.password.None? ==> r == a.username
    ensures a.password.Some? ==> r == Some(a.username.GetOr("") + [':'] + a.password.value)
  {
    if a.username.None? && a.password.None? then Some("")
    else if a.password.None? then a.username
    else Some(a.username.GetOr("") + ":" + a.password.value)
  }

  /** `HostAuthTypeConverter.ConvertFrom` on a string or null: null is the null
      value; text with a `:` must hold exactly one and splits into user name and
      password; text without one is a user name with no password. */
  function AuthFromText(value: Option<string>): (r: Result<HostAuth>)
    ensures value.None? ==> r == Success(NullAuth)
    ensures value.Some? && ':' !in value.value ==> r == Success(HostAuth(value, None))
    ensures r.Failure? ==> r.error == InvalidCast
    ensures r.Success? && value.Some? && ':' in value.value ==>
      r.value.username.Some? && r.value.password.Some?
      && value.value == r.value.username.value + [':'] + r.value.password.value
      && ':' !in r.value.username.value && ':' !in r.value.password.value
  {
    match value
    case None => Success(NullAuth)
    case Some(s) =>
      if ':' in s then
        var parts := Split(s, ':');
        if |parts| != 2 then Failure(InvalidCast)
        else Success(HostAuth(Some(parts[0]), Some(parts[1])))
      else Success(HostAuth(value, None))
  }

  /** A string with two or more `:` is refused. */
  lemma AuthFromTextTwoColons(a: string, b: string, c: string)
    requires ':' !in a && ':' !in b
    ensures AuthFromText(Some(a + [':'] + b + [':'] + c)) == Failure(InvalidCast)
  {
    var s := a + [':'] + b + [':'] + c;
    assert s[|a|] == ':';
    assert s == a + [':'] + (b + [':'] + c);
    SplitCons(a, ':', b + [':'] + c);
    SplitCons(b, ':', c);
  }

  /** Converting a string with at most one `:` and printing the result gives
      the string back. */
  lemma AuthTextRoundTrip(s: string)
    requires forall i, j :: 0 <= i < j < |s| ==> !(s[i] == ':' && s[j] == ':')
    ensures AuthFromText(Some(s)).Success?
    ensures AuthText(AuthFromText(Some(s)).value) == Some(s)
  {
    if ':' in s {
      var i :| 0 <= i < |s| && s[i] == ':';
      var a, b := s[..i], s[i + 1..];
      assert s == a + [':'] + b;
      assert ':' !in a && ':' !in b by {
        assert forall j :: 0 <= j < |a| ==> a[j] == s[j];
        assert forall j :: 0 <= j < |b| ==> b[j] == s[i + 1 + j];
      }
      SplitCons(a, ':', b);
      assert IndexOf(b, ':') == None;
    }
  }

  /** Printing a value with a user name and parsing the text gives the value
      back, provided neither part holds a `:`. */
  lemma AuthFromTextRoundTrip(a: HostAuth)
    requires a.username.Some? && ':' !in a.username.value
    requires a.password.Some? ==> ':' !in a.password.value
    ensures AuthFromText(AuthText(a)) == Success(a)
  {
    if a.password.Some? {
      var u, p := a.username.value, a.password.value;
      SplitCons(u, ':', p);
      assert IndexOf(p, ':') == None;
      assert (u + [':'] + p)[|u|] == ':';
    }
  }
}

=== FILE: http_proxy.dfy ===
/** `Tor.Proxy.Connection`: how the HTTP proxy reads a client's request
    header and writes it on towards the destination. The socket is replaced
    by the sequence of lines `StreamReader.ReadLine` would return, so no line
    holds a carriage return or a line feed. */
module HttpProxy {
  import opened Wrappers
  import opened Text
  import opened Dictionaries

  /** The version and port a connection starts with. */
  const DefaultVersion: string := "HTTP/1.1"
  const DefaultPort: int := 80

  /** The port a CONNECT target without one gets. */
  const ConnectPort: int := 443

  /** What `GetHeaderData` leaves in the connection: `line` is the request
      line (the source keeps it in a field called `method`), `http` the
      version. */
  datatype Request = Request(line: string, headers: Dict<string, string>, host: string, port: int, http: string)

  /** `line.Trim().Length == 0`, stated as all white space
      (`Text.TrimEmptyIffBlank`). */
  predicate Blank(l: string) {
    IsBlank(l)
  }

  /** The first read: lines are collected up to and including the first one
      that is blank once trimmed. */
  function Received(lines: seq<string>): (r: seq<string>)
    ensures |r| <= |lines| && r == lines[..|r|]
    ensures forall i :: 0 <= i < |r| - 1 ==> !Blank(r[i])
    ensures |r| < |lines| ==> |r| > 0 && Blank(r[|r| - 1])
    ensures |lines| > 0 ==> |r| > 0
  {
    if |lines| == 0 then []
    else if Blank(lines[0]) then [lines[0]]
    else [lines[0]] + Received(lines[1..])
  }

  /** The lines before the first blank one. */
  function UntilBlank(lines: seq<string>): (r: seq<string>)
    ensures |r| <= |lines| && r == lines[..|r|]
    ensures forall i :: 0 <= i < |r| ==> !Blank(r[i])
    ensures |r| < |lines| ==> Blank(lines[|r|])
  {
    if |lines| == 0 || Blank(lines[0]) then [] else [lines[0]] + UntilBlank(lines[1..])
  }

  /** A header line trimmed and cut at its first `:`, both halves trimmed; a
      line without `:` is skipped. */
  function HeaderPair(line: string): (r: Option<(string, string)>)
    ensures r.None? <==> ':' !in Trim(line)
  {
    var parts := SplitFirst(Trim(line), ':');
    if |parts| == 1 then None else Some((Trim(parts[0]), Trim(parts[1])))
  }

  function HeaderPairs(lines: seq<string>): (r: seq<(string, string)>)
    ensures |r| <= |lines|
  {
    Present(seq(|lines|, i requires 0 <= i < |lines| => HeaderPair(lines[i])))
  }

  /** The second read, over what the first one collected: the request line,
      and the headers in order of first appearance, each holding the value
      of its last line. No line at all is a failure. */
  function ReadHeaders(lines: seq<string>): (r: Option<(string, Dict<string, string>)>)
    ensures r.None? <==> |lines| == 0
    ensures r.Some? ==> r.value.0 == lines[0]
    ensures r.Some? ==> forall k :: Lookup(r.value.1, k) == LastValue(HeaderPairs(UntilBlank(Received(lines)[1..])), k)
  {
    var got := Received(lines);
    if |got| == 0 then None
    else
      var pairs := HeaderPairs(UntilBlank(got[1..]));
      assert forall k :: Lookup(FromPairs(pairs), k) == LastValue(pairs, k) by {
        forall k ensures Lookup(FromPairs(pairs), k) == LastValue(pairs, k) {
          FromPairsLookup(pairs, k);
        }
      }
      Some((got[0], FromPairs(pairs)))
  }

  /** After a request line that is not blank, the header lines are exactly
      those up to the first blank line; after a blank one there are none. */
  lemma HeaderSection(lines: seq<string>)
    requires |lines| > 0
    ensures !Blank(lines[0]) ==> UntilBlank(Received(lines)[1..]) == UntilBlank(lines[1..])
    ensures Blank(lines[0]) ==> UntilBlank(Received(lines)[1..]) == []
  {
    if !Blank(lines[0]) {
      ReceivedUntilBlank(lines[1..]);
    }
  }

  lemma {:induction false} ReceivedUntilBlank(lines: seq<string>)
    ensures UntilBlank(Received(lines)) == UntilBlank(lines)
  {
    if |lines| > 0 && !Blank(lines[0]) {
      ReceivedUntilBlank(lines[1..]);
      assert ([lines[0]] + Received(lines[1..]))[1..] == Received(lines[1..]);
    }
  }

  /** `int.Parse` and `long.Parse`: a number that does not parse throws. */
  function ParsePort(s: string): Option<int> {
    ParseInt32(s)
  }

  /** The CONNECT form: three space-separated fields, the second the target
      and the third the version. A target `host:port` sets the port; one
      without a `:` keeps 443, and so does one with more than one. */
  function ConnectRequest(line: string, headers: Dict<string, string>): (r: Result<Request>)
    ensures r.Success? ==> r.value.line == line && r.value.headers == headers
    ensures r.Success? <==> (|Split(line, ' ')| >= 3
      && (|Split(Split(line, ' ')[1], ':')| == 2 ==> ParsePort(Split(Split(line, ' ')[1], ':')[1]).Some?))
    ensures r.Success? ==> r.value.http == Split(line, ' ')[2] && r.value.host == Split(Split(line, ' ')[1], ':')[0]
  {
    var targets := Split(line, ' ');
    if |targets| < 3 then Failure(TorFailure)
    else
      var target := Split(targets[1], ':');
      if |target| == 2 then
        match ParsePort(target[1])
        case None => Failure(TorFailure)
        case Some(port) => Success(Request(line, headers, target[0], port, targets[2]))
      else Success(Request(line, headers, target[0], ConnectPort, targets[2]))
  }

  /** Any other request: the `Host` header names the target; `host:port` sets
      the port, and a host without `:` keeps 80. The version stays
      `HTTP/1.1`. */
  function HostRequest(line: string, headers: Dict<string, string>): (r: Result<Request>)
    ensures r.Success? ==> r.value.line == line && r.value.headers == headers && r.value.http == DefaultVersion
    ensures Lookup(headers, "Host").None? ==> r.Failure?
    ensures r.Success? ==> (Lookup(headers, "Host").Some?
      && r.value.host == Split(Lookup(headers, "Host").value, ':')[0])
  {
    match Lookup(headers, "Host")
    case None => Failure(TorFailure)
    case Some(h) =>
      var target := Split(h, ':');
      if |target| == 1 then Success(Request(line, headers, h, DefaultPort, DefaultVersion))
      else
        match ParsePort(target[1])
        case None => Failure(TorFailure)
        case Some(port) => Success(Request(line, headers, target[0], port, DefaultVersion))
  }

  /** A POST must carry a `Content-Length` header that parses as a 64-bit
      number. */
  predicate LengthMissing(line: string, headers: Dict<string, string>) {
    StartsWithIgnoreCase(line, "POST")
    && (Lookup(headers, "Content-Length").None?
        || ParseInteger(Lookup(headers, "Content-Length").value, Int64Min, Int64Max).None?)
  }

  /** `GetHeaderData` from the second read on. Every exception inside it is
      rethrown as a `TorException`. */
  function Parse(lines: seq<string>): (r: Result<Request>)
    ensures r.Failure? ==> r.error == TorFailure
    ensures |lines| == 0 ==> r.Failure?
    ensures |lines| > 0 ==> var (line, headers) := ReadHeaders(lines).value;
      r == if LengthMissing(line, headers) then Failure(TorFailure)
           else if StartsWithIgnoreCase(line, "CONNECT") then ConnectRequest(line, headers)
           else HostRequest(line, headers)
  {
    match ReadHeaders(lines)
    case None => Failure(TorFailure)
    case Some((line, headers)) =>
      if LengthMissing(line, headers) then Failure(TorFailure)
      else if StartsWithIgnoreCase(line, "CONNECT") then ConnectRequest(line, headers)
      else HostRequest(line, headers)
  }

  // ---------------------------------------------------------------------
  // Targets

  predicate Plain(s: string) {
    ' ' !in s && ':' !in s
  }

  lemma SplitTwo(a: string, c: char, b: string)
    requires c !in a && c !in b
    ensures Split(a + [c] + b, c) == [a, b]
  {
    SplitCons(a, c, b);
    assert Split(b, c) == [b];
  }

  lemma SplitThree(a: string, c: char, b: string, d: string)
    requires c !in a && c !in b && c !in d
    ensures Split(a + [c] + b + [c] + d, c) == [a, b, d]
  {
    var rest := b + [c] + d;
    AppendAssoc(a + [c], b, [c], d);
    AppendAssoc3(a, [c], rest);
    SplitTwo(b, c, d);
    SplitCons(a, c, rest);
  }

  /** `CONNECT host:port version` reaches the named host and port with the
      version given. */
  lemma ConnectTarget(host: string, port: int, version: string, headers: Dict<string, string>)
    requires Plain(host) && ' ' !in version && Int32Min <= port <= Int32Max
    ensures ConnectRequest("CONNECT " + host + ":" + IntToString(port) + " " + version, headers)
      == Success(Request("CONNECT " + host + ":" + IntToString(port) + " " + version, headers, host, port, version))
  {
    var p := IntToString(port);
    var line := "CONNECT " + host + ":" + p + " " + version;
    assert line == "CONNECT" + [' '] + (host + [':'] + p) + [' '] + version;
    SplitThree("CONNECT", ' ', host + [':'] + p, version);
    SplitTwo(host, ':', p);
    ParseInt32ToString(port);
  }

  /** `CONNECT host version` reaches the host on port 443. */
  lemma ConnectTargetDefaultPort(host: string, version: string, headers: Dict<string, string>)
    requires Plain(host) && ' ' !in version
    ensures ConnectRequest("CONNECT " + host + " " + version, headers)
      == Success(Request("CONNECT " + host + " " + version, headers, host, ConnectPort, version))
  {
    var line := "CONNECT " + host + " " + version;
    assert line == "CONNECT" + [' '] + host + [' '] + version;
    SplitThree("CONNECT", ' ', host, version);
    assert Split(host, ':') == [host];
  }

  /** A `Host` header `host:port` names the target; without a port it is
      port 80. */
  lemma HostTarget(line: string, host: string, port: int, headers: Dict<string, string>)
    requires Plain(host) && Int32Min <= port <= Int32Max
    ensures Lookup(headers, "Host") == Some(host + ":" + IntToString(port)) ==>
      HostRequest(line, headers) == Success(Request(line, headers, host, port, DefaultVersion))
    ensures Lookup(headers, "Host") == Some(host) ==>
      HostRequest(line, headers) == Success(Request(line, headers, host, DefaultPort, DefaultVersion))
  {
    var p := IntToString(port);
    SplitTwo(host, ':', p);
    ParseInt32ToString(port);
    assert Split(host, ':') == [host];
  }

  // ---------------------------------------------------------------------
  // GetHeader

  /** The headers `GetHeader` writes on: those whose name does not start with
      `proxy` in any letter case, in order. */
  function Forwarded(headers: Dict<string, string>): (r: Dict<string, string>)
    ensures |r| <= |headers|
    ensures forall i :: 0 <= i < |r| ==> r[i] in headers && !StartsWithIgnoreCase(r[i].0, "proxy")
    ensures forall i :: 0 <= i < |headers| && !StartsWithIgnoreCase(headers[i].0, "proxy") ==> headers[i] in r
  {
    if |headers| == 0 then []
    else if StartsWithIgnoreCase(headers[0].0, "proxy") then Forwarded(headers[1..])
    else [headers[0]] + Forwarded(headers[1..])
  }

  function EntryLine(entry: (string, string)): string {
    entry.0 + ": " + entry.1
  }

  function EntryLines(d: Dict<string, string>): (r: seq<string>)
    ensures |r| == |d|
    ensures forall i :: 0 <= i < |d| ==> r[i] == EntryLine(d[i])
  {
    if |d| == 0 then [] else [EntryLine(d[0])] + EntryLines(d[1..])
  }

  /** The request line, one `Name: Value` line per forwarded header, and the
      empty line that ends the header. */
  function ForwardedLines(req: Request): seq<string> {
    [req.line] + EntryLines(Forwarded(req.headers)) + [""]
  }

  /** Each line followed by CRLF. */
  function Terminated(lines: seq<string>): string {
    if |lines| == 0 then "" else lines[0] + CRLF + Terminated(lines[1..])
  }

  /** `GetHeader`. */
  function GetHeader(req: Request): (r: string)
    ensures r == Join(ForwardedLines(req) + [""], CRLF)
  {
    TerminatedJoin(ForwardedLines(req));
    Terminated(ForwardedLines(req))
  }

  lemma {:induction false} TerminatedJoin(lines: seq<string>)
    ensures Terminated(lines) == Join(lines + [""], CRLF)
  {
    if |lines| > 0 {
      TerminatedJoin(lines[1..]);
      assert lines + [""] == [lines[0]] + (lines[1..] + [""]);
      JoinCons(lines[0], lines[1..] + [""], CRLF);
    }
  }

  predicate NoCarriageReturn(s: string) {
    '\r' !in s
  }

  predicate NoCarriageReturns(d: Dict<string, string>) {
    forall i :: 0 <= i < |d| ==> NoCarriageReturn(d[i].0) && NoCarriageReturn(d[i].1)
  }

  lemma ForwardedLinesNoCarriageReturn(req: Request)
    requires NoCarriageReturn(req.line) && NoCarriageReturns(req.headers)
    ensures forall i :: 0 <= i < |ForwardedLines(req)| ==> NoCarriageReturn(ForwardedLines(req)[i])
  {
    var f := Forwarded(req.headers);
    var e := EntryLines(f);
    forall i | 0 <= i < |e| ensures NoCarriageReturn(e[i]) {
      assert f[i] in req.headers;
      assert e[i] == f[i].0 + ": " + f[i].1;
    }
  }

  /** The header text splits at its CRLFs into the lines written, the last
      one empty. */
  lemma GetHeaderLines(req: Request)
    requires NoCarriageReturn(req.line) && NoCarriageReturns(req.headers)
    ensures SplitCrlf(GetHeader(req)) == ForwardedLines(req) + [""]
  {
    var lines := ForwardedLines(req) + [""];
    TerminatedJoin(ForwardedLines(req));
    ForwardedLinesNoCarriageReturn(req);
    assert forall i :: 0 <= i < |lines| ==> NoCarriageReturn(lines[i]);
    SplitCrlfJoin(lines);
  }

  /** A header name and value `GetHeader` writes so that they read back. */
  predicate Readable(entry: (string, string)) {
    ':' !in entry.0 && Trimmed(entry.0) && Trimmed(entry.1)
  }

  /** Neither end is white space, so `Trim` leaves the string as it is. */
  predicate Trimmed(s: string) {
    |s| > 0 ==> !IsWhiteSpace(s[0]) && !IsWhiteSpace(s[|s| - 1])
  }

  lemma TrimSpaceBefore(v: string)
    requires Trimmed(v)
    ensures Trim(" " + v) == v
  {
    var s := " " + v;
    assert s[1..] == v;
    if |v| > 0 {
      assert LeadingWhite(s) == 1 + LeadingWhite(v);
      assert LeadingWhite(v) == 0;
    } else {
      assert LeadingWhite(s) == 1;
    }
  }

  /** A string that starts and ends with a character other than white space
      is its own trim. */
  lemma TrimmedEnds(s: string, first: char, last: char)
    requires |s| > 0 && s[0] == first && s[|s| - 1] == last
    requires !IsWhiteSpace(first) && !IsWhiteSpace(last)
    ensures Trim(s) == s
  {
    TrimOfTrimmed(s);
  }

  /** A written header line trims to itself, or loses its last space when
      the value is empty; either way it is the name, `:` and the rest. */
  lemma EntryLineTrim(k: string, v: string)
    requires Trimmed(k) && Trimmed(v)
    ensures |v| > 0 ==> Trim(EntryLine((k, v))) == k + [':'] + (" " + v)
    ensures |v| == 0 ==> Trim(EntryLine((k, v))) == k + [':'] + ""
  {
    if |v| > 0 {
      EntryLineTrimValue(k, v);
    } else {
      EntryLineTrimEmpty(k, v);
    }
  }

  lemma EntryLineTrimValue(k: string, v: string)
    requires Trimmed(k) && Trimmed(v) && |v| > 0
    ensures Trim(EntryLine((k, v))) == k + [':'] + (" " + v)
  {
    var l := EntryLine((k, v));
    var first := if |k| > 0 then k[0] else ':';
    assert l == k + [':'] + (" " + v);
    assert l[0] == first;
    assert l[|l| - 1] == v[|v| - 1];
    TrimmedEnds(l, first, v[|v| - 1]);
  }

  lemma EntryLineTrimEmpty(k: string, v: string)
    requires Trimmed(k) && |v| == 0
    ensures Trim(EntryLine((k, v))) == k + [':'] + ""
  {
    var t := k + ":";
    var first := if |k| > 0 then k[0] else ':';
    assert t[0] == first && t[|t| - 1] == ':';
    assert EntryLine((k, v)) == t + " ";
    TrimBlankTail(t, " ");
    assert t == k + [':'] + "";
  }

  /** `HeaderPair` on a line whose trim is `k:w`. */
  lemma HeaderPairAt(line: string, k: string, w: string)
    requires Trim(line) == k + [':'] + w && ':' !in k
    ensures HeaderPair(line) == Some((Trim(k), Trim(w)))
  {
    SplitFirstAt(k, ':', w);
  }

  /** A written header line reads back as its name and value. */
  lemma EntryLineReads(entry: (string, string))
    requires Readable(entry)
    ensures HeaderPair(EntryLine(entry)) == Some(entry)
  {
    var k := entry.0;
    var v := entry.1;
    EntryLineTrim(k, v);
    TrimOfTrimmed(k);
    if |v| > 0 {
      HeaderPairAt(EntryLine(entry), k, " " + v);
      TrimSpaceBefore(v);
    } else {
      HeaderPairAt(EntryLine(entry), k, "");
    }
  }

  lemma EntryLinesRead(d: Dict<string, string>)
    requires forall i :: 0 <= i < |d| ==> Readable(d[i])
    ensures HeaderPairs(EntryLines(d)) == d
  {
    var lines := EntryLines(d);
    var os := seq(|lines|, i requires 0 <= i < |lines| => HeaderPair(lines[i]));
    forall i | 0 <= i < |d|
      ensures os[i] == Some(d[i])
    {
      EntryLineReads(d[i]);
    }
    PresentAll(os, d);
  }

  /** No written header line is blank, so the empty line ends them. */
  lemma {:induction false} EntryLinesEnd(d: Dict<string, string>)
    requires forall i :: 0 <= i < |d| ==> Readable(d[i])
    ensures UntilBlank(EntryLines(d) + [""]) == EntryLines(d)
  {
    if |d| > 0 {
      var lines := EntryLines(d);
      assert (lines + [""])[1..] == EntryLines(d[1..]) + [""];
      EntryLinesEnd(d[1..]);
      assert lines[0] == d[0].0 + [':'] + (" " + d[0].1);
      assert lines[0][|d[0].0|] == ':';
      assert !Blank(lines[0]);
      assert lines == [lines[0]] + EntryLines(d[1..]);
    }
  }

  /** A dictionary filled from its own entries is itself. */
  lemma {:induction false} FromPairsOfDict(d: Dict<string, string>)
    requires UniqueKeys(d)
    ensures FromPairs(d) == d
  {
    if |d| > 0 {
      var p := d[..|d| - 1];
      FromPairsOfDict(p);
      assert Lookup(p, d[|d| - 1].0).None?;
      assert p + [d[|d| - 1]] == d;
    }
  }

  lemma {:induction false} ForwardedUnique(d: Dict<string, string>)
    requires UniqueKeys(d)
    ensures UniqueKeys(Forwarded(d))
  {
    if |d| > 0 {
      var rest := d[1..];
      assert UniqueKeys(rest) by {
        forall i, j | 0 <= i < j < |rest| ensures rest[i].0 != rest[j].0 {
          assert rest[i] == d[i + 1] && rest[j] == d[j + 1];
        }
      }
      ForwardedUnique(rest);
      var f := Forwarded(rest);
      if !StartsWithIgnoreCase(d[0].0, "proxy") {
        forall i | 0 <= i < |f| ensures f[i].0 != d[0].0 {
          var j :| 0 <= j < |rest| && rest[j] == f[i];
          assert d[j + 1] == f[i];
        }
        assert Forwarded(d) == [d[0]] + f;
      }
    }
  }

  /** The header `GetHeader` writes, read again by `GetHeaderData`, gives the
      same request line and exactly the forwarded headers, in order. */
  lemma GetHeaderReadsBack(req: Request)
    requires !Blank(req.line)
    requires UniqueKeys(req.headers)
    requires forall i :: 0 <= i < |req.headers| ==> Readable(req.headers[i])
    ensures ReadHeaders(ForwardedLines(req)) == Some((req.line, Forwarded(req.headers)))
  {
    var f := Forwarded(req.headers);
    var lines := ForwardedLines(req);
    assert forall i :: 0 <= i < |f| ==> Readable(f[i]);
    EntryLinesRead(f);
    EntryLinesEnd(f);
    HeaderSection(lines);
    assert lines[1..] == EntryLines(f) + [""];
    ForwardedUnique(req.headers);
    FromPairsOfDict(f);
  }

  // ---------------------------------------------------------------------
  // Parse, end to end

  /** Once the lines hold a blank one, what follows it is never read. */
  lemma {:induction false} UntilBlankExtend(a: seq<string>, b: seq<string>)
    requires |UntilBlank(a)| < |a|
    ensures UntilBlank(a + b) == UntilBlank(a)
  {
    if !Blank(a[0]) {
      assert (a + b)[1..] == a[1..] + b;
      UntilBlankExtend(a[1..], b);
    }
  }

  /** A request line, header lines for `d`, an empty line and anything after
      it read as the request line and exactly `d`. */
  lemma ReadHeadersOfEntries(line: string, d: Dict<string, string>, rest: seq<string>)
    requires !Blank(line)
    requires UniqueKeys(d)
    requires forall i :: 0 <= i < |d| ==> Readable(d[i])
    ensures ReadHeaders([line] + EntryLines(d) + [""] + rest) == Some((line, d))
  {
    var e := EntryLines(d);
    var lines := [line] + e + [""] + rest;
    var head := e + [""];
    AppendAssoc([line], e, [""], rest);
    assert lines == [line] + (head + rest);
    assert lines[0] == line && lines[1..] == head + rest;
    EntryLinesEnd(d);
    UntilBlankExtend(head, rest);
    HeaderSection(lines);
    var got := Received(lines);
    assert UntilBlank(got[1..]) == e;
    EntryLinesRead(d);
    FromPairsOfDict(d);
    assert FromPairs(HeaderPairs(UntilBlank(got[1..]))) == d;
  }

  /** The request lines a client sends: a request line, one `Name: Value`
      line per header, an empty line, then anything (a body). */
  function ClientLines(line: string, d: Dict<string, string>, rest: seq<string>): seq<string> {
    [line] + EntryLines(d) + [""] + rest
  }

  predicate WellFormedHeaders(d: Dict<string, string>) {
    UniqueKeys(d) && forall i :: 0 <= i < |d| ==> Readable(d[i])
  }

  /** `CONNECT host:port version`, with any headers, reaches the named host
      and port with the version given. */
  lemma ParseConnect(host: string, port: int, version: string, d: Dict<string, string>, rest: seq<string>)
    requires Plain(host) && ' ' !in version && Int32Min <= port <= Int32Max
    requires WellFormedHeaders(d)
    ensures var line := "CONNECT " + host + ":" + IntToString(port) + " " + version;
      Parse(ClientLines(line, d, rest)) == Success(Request(line, d, host, port, version))
  {
    var line := "CONNECT " + host + ":" + IntToString(port) + " " + version;
    ConnectLine(line, host + ":" + IntToString(port) + " " + version);
    ReadHeadersOfEntries(line, d, rest);
    ConnectTarget(host, port, version, d);
  }

  /** `CONNECT host version`, with any headers, reaches the host on port
      443. */
  lemma ParseConnectDefaultPort(host: string, version: string, d: Dict<string, string>, rest: seq<string>)
    requires Plain(host) && ' ' !in version
    requires WellFormedHeaders(d)
    ensures var line := "CONNECT " + host + " " + version;
      Parse(ClientLines(line, d, rest)) == Success(Request(line, d, host, ConnectPort, version))
  {
    var line := "CONNECT " + host + " " + version;
    ConnectLine(line, host + " " + version);
    ReadHeadersOfEntries(line, d, rest);
    ConnectTargetDefaultPort(host, version, d);
  }

  /** A line starting `CONNECT ` is not blank, is routed as CONNECT and is
      not a POST. */
  lemma ConnectLine(line: string, tail: string)
    requires line == "CONNECT " + tail
    ensures !Blank(line) && StartsWithIgnoreCase(line, "CONNECT") && !StartsWithIgnoreCase(line, "POST")
  {
    assert line[0] == 'C' && line[..7] == "CONNECT";
    assert Lower(line[0]) != Lower('P');
  }

  /** A line starting `POST` is not blank and is a POST ignoring case. */
  lemma PostLine(line: string)
    requires StartsWith(line, "POST")
    ensures !Blank(line) && StartsWithIgnoreCase(line, "POST")
  {
    assert line[0] == 'P';
    assert forall i :: 0 <= i < 4 ==> line[..4][i] == "POST"[i];
  }

  /** Any request other than CONNECT (a POST with a length that parses
      included) goes to the `Host` header: `host` gives port 80 and
      `host:port` the port named. The version is `HTTP/1.1`. */
  lemma ParseHost(line: string, host: string, port: int, d: Dict<string, string>, rest: seq<string>)
    requires !Blank(line) && !StartsWithIgnoreCase(line, "CONNECT") && !LengthMissing(line, d)
    requires Plain(host) && Int32Min <= port <= Int32Max
    requires WellFormedHeaders(d)
    ensures Lookup(d, "Host") == Some(host) ==>
      Parse(ClientLines(line, d, rest)) == Success(Request(line, d, host, DefaultPort, DefaultVersion))
    ensures Lookup(d, "Host") == Some(host + ":" + IntToString(port)) ==>
      Parse(ClientLines(line, d, rest)) == Success(Request(line, d, host, port, DefaultVersion))
  {
    ReadHeadersOfEntries(line, d, rest);
    HostTarget(line, host, port, d);
  }

  /** Without a `Host` header such a request fails. */
  lemma ParseNoHost(line: string, d: Dict<string, string>, rest: seq<string>)
    requires !Blank(line) && !StartsWithIgnoreCase(line, "CONNECT")
    requires WellFormedHeaders(d) && Lookup(d, "Host").None?
    ensures Parse(ClientLines(line, d, rest)) == Failure(TorFailure)
  {
    ReadHeadersOfEntries(line, d, rest);
  }

  /** A POST without a `Content-Length` header, or with one that does not
      parse, fails whatever its target. */
  lemma ParsePostWithoutLength(line: string, d: Dict<string, string>, rest: seq<string>)
    requires StartsWith(line, "POST")
    requires Lookup(d, "Content-Length").None?
      || ParseInteger(Lookup(d, "Content-Length").value, Int64Min, Int64Max).None?
    requires WellFormedHeaders(d)
    ensures Parse(ClientLines(line, d, rest)) == Failure(TorFailure)
  {
    PostLine(line);
    ReadHeadersOfEntries(line, d, rest);
  }
}

=== FILE: records.dfy ===
/** The records the status registry and the commands work on: routers,
    circuits, streams and OR connections, with the enumerations they carry.
    Enumerations whose values the code only copies are plain datatypes; the
    ones whose wire names or numbers matter carry them as functions. */
module Records {
  import opened Wrappers
  import opened Text
  import opened ByteSizes
  import opened Hosts

  /** A point in time; only `DateTime.MinValue` is ever named. */
  datatype DateTime = DateTime(ticks: int)

  const MinValue := DateTime(0)

  /** An IP address as its bytes (4 for IPv4, 16 for IPv6). */
  datatype IPAddress = IPAddress(bytes: seq<byte>)

  // ---------------------------------------------------------------------
  // Routers

  /** `RouterFlags`, one constructor per bit. */
  datatype RouterFlag = Authority | BadExit | Exit | Fast | Guard | HSDir | Named
    | Stable | Running | Unnamed | Valid | V2Dir

  /** The bits in declaration order, the order the flag lookup scans them in. */
  const AllFlags: seq<RouterFlag> := [Authority, BadExit, Exit, Fast, Guard, HSDir, Named,
    Stable, Running, Unnamed, Valid, V2Dir]

  /** The `Description` of each flag: its name in a consensus `s` line. */
  function FlagName(f: RouterFlag): string {
    match f
    case Authority => "Authority"
    case BadExit => "BadExit"
    case Exit => "Exit"
    case Fast => "Fast"
    case Guard => "Guard"
    case HSDir => "HSDir"
    case Named => "Named"
    case Stable => "Stable"
    case Running => "Running"
    case Unnamed => "Unnamed"
    case Valid => "Valid"
    case V2Dir => "V2Dir"
  }

  /** The `[Flags]` bit of each flag. */
  function FlagValue(f: RouterFlag): int {
    match f
    case Authority => 0x0001
    case BadExit => 0x0002
    case Exit => 0x0004
    case Fast => 0x0008
    case Guard => 0x0010
    case HSDir => 0x0020
    case Named => 0x0040
    case Stable => 0x0080
    case Running => 0x0100
    case Unnamed => 0x0200
    case Valid => 0x0400
    case V2Dir => 0x0800
  }

  datatype Router = Router(
    bandwidth: Bytes,
    digest: Option<string>,
    dirPort: int,
    flags: set<RouterFlag>,
    identity: Option<string>,
    ipAddress: Option<IPAddress>,
    nickname: Option<string>,
    orPort: int,
    publication: DateTime)

  /** `new Router()`. */
  const NewRouter := Router(Empty, None, -1, {}, None, None, None, -1, MinValue)

  // ---------------------------------------------------------------------
  // Circuits

  datatype BuildFlag = OneHopTunnel | IsInternal | NeedCapacity | NeedUpTime

  datatype CircuitHSState = HSNone | HSCIConnecting | HSCIIntroSent | HSCIDone
    | HSCRConnecting | HSCREstablishedIdle | HSCREstablishedWaiting | HSCRJoined
    | HSSIConnecting | HSSIEstablished | HSSRConnecting | HSSRJoined

  datatype CircuitPurpose = PurposeNone | General | HSClientIntro | HSClientRend
    | HSServiceIntro | HSServiceRend | Testing | Controller | MeasureTimeout

  datatype CircuitReason = CircuitReasonNone | TorProtocol | Internal | Requested
    | Hibernating | ResourceLimit | ConnectFailed | ORIdentity | ORConnectionClosed
    | Finished | Timeout | Destroyed | NoPath | NoSuchService | MeasurementExpired

  /** `CircuitStatus`; `Launched` is its zero value. */
  datatype CircuitStatus = Launched | Built | Extended | CircuitFailed | CircuitClosed

  datatype Circuit = Circuit(
    id: int,
    buildFlags: set<BuildFlag>,
    hsState: CircuitHSState,
    paths: seq<Option<string>>,
    purpose: CircuitPurpose,
    reason: CircuitReason,
    routers: Option<seq<Router>>,
    status: CircuitStatus,
    timeCreated: DateTime)

  /** `new Circuit(client, id)`: no flags, no hidden-service state, no path,
      no purpose, no reason, no router list yet; the status is the enum's zero
      value and the creation time `DateTime.MinValue`. */
  function NewCircuit(id: int): (c: Circuit)
    ensures c.id == id && c.buildFlags == {} && c.hsState == HSNone && c.paths == []
    ensures c.purpose == PurposeNone && c.reason == CircuitReasonNone
    ensures c.routers.None? && c.status == Launched && c.timeCreated == MinValue
  {
    Circuit(id, {}, HSNone, [], PurposeNone, CircuitReasonNone, None, Launched, MinValue)
  }

  /** The name `GetRouters` looks up for one path entry: a leading `$` and
      everything from the first `~` on are dropped; a null entry, or one that
      leaves only white space, is looked up not at all. */
  function PathToken(path: Option<string>): (r: Option<string>)
    ensures path.None? ==> r.None?
    ensures r.Some? ==> !IsBlank(r.value) && '~' !in r.value
    ensures r.Some? ==> (StartsWith(path.value, r.value)
      || (StartsWith(path.value, "$") && StartsWith(path.value[1..], r.value)))
  {
    match path
    case None => None
    case Some(p) =>
      var t1 := if StartsWith(p, "$") then p[1..] else p;
      var t2 := match IndexOf(t1, '~') case None => t1 case Some(i) => t1[..i];
      assert StartsWith(t1, t2);
      assert t1 == p[(if StartsWith(p, "$") then 1 else 0)..];
      if IsBlank(t2) then None else Some(t2)
  }

  /** The names looked up for a path list, in path order. */
  function PathTokens(paths: seq<Option<string>>): (r: seq<string>)
    ensures |r| <= |paths|
    ensures forall i :: 0 <= i < |r| ==> !IsBlank(r[i]) && '~' !in r[i]
  {
    if |paths| == 0 then []
    else
      var head := match PathToken(paths[0]) case None => [] case Some(t) => [t];
      head + PathTokens(paths[1..])
  }

  /** The routers found for the names, in order; a failed lookup adds nothing. */
  function Resolved(names: seq<string>, resolve: string -> Option<Router>): (r: seq<Router>)
    ensures |r| <= |names|
    ensures (forall i :: 0 <= i < |names| ==> resolve(names[i]).Some?) ==>
      |r| == |names| && forall i :: 0 <= i < |r| ==> Some(r[i]) == resolve(names[i])
  {
    if |names| == 0 then []
    else
      var head := match resolve(names[0]) case None => [] case Some(x) => [x];
      head + Resolved(names[1..], resolve)
  }

  /** Lookups are independent and keep their order: resolving two runs of
      names gives the routers of the first run followed by those of the
      second; a failed lookup contributes nothing. */
  lemma {:induction false} ResolvedAppend(a: seq<string>, b: seq<string>, resolve: string -> Option<Router>)
    ensures Resolved(a + b, resolve) == Resolved(a, resolve) + Resolved(b, resolve)
    decreases |a|
  {
    if |a| == 0 {
      assert a + b == b;
    } else {
      assert (a + b)[0] == a[0];
      assert (a + b)[1..] == a[1..] + b;
      ResolvedAppend(a[1..], b, resolve);
    }
  }

  /** `Circuit.GetRouters`, with the per-name router-status query given as
      `resolve`: the routers found are stored on the circuit, which is
      otherwise unchanged. */
  function GetRouters(c: Circuit, resolve: string -> Option<Router>): (r: Circuit)
    ensures r == c.(routers := r.routers)
    ensures r.routers.Some?
    ensures c.paths == [] ==> r.routers == Some([])
    ensures |r.routers.value| <= |c.paths|
  {
    c.(routers := Some(Resolved(PathTokens(c.paths), resolve)))
  }

  /** A long path name `$<fingerprint>~<nickname>` is looked up by its
      fingerprint. */
  lemma PathTokenLongName(fingerprint: string, nickname: string)
    requires fingerprint != "" && !IsBlank(fingerprint) && '~' !in fingerprint
    ensures PathToken(Some("$" + fingerprint + "~" + nickname)) == Some(fingerprint)
  {
    var p := "$" + fingerprint + "~" + nickname;
    assert StartsWith(p, "$");
    var t1 := p[1..];
    assert t1 == fingerprint + ['~'] + nickname;
    assert t1[|fingerprint|] == '~';
    assert forall j :: 0 <= j < |fingerprint| ==> t1[j] == fingerprint[j];
    assert t1[..|fingerprint|] == fingerprint;
  }

  /** A plain name (no `$`, no `~`, not blank) is looked up as it is. */
  lemma PathTokenPlain(name: string)
    requires !IsBlank(name) && '~' !in name && name[0] != '$'
    ensures PathToken(Some(name)) == Some(name)
  {
  }

  /** When every lookup succeeds, the stored routers are exactly the results of
      the lookups, one per named path entry, in path order. */
  lemma GetRoutersAllFound(c: Circuit, resolve: string -> Option<Router>)
    requires forall t :: !IsBlank(t) ==> resolve(t).Some?
    ensures var names := PathTokens(c.paths);
      var rs := GetRouters(c, resolve).routers.value;
      |rs| == |names| && forall i :: 0 <= i < |rs| ==> Some(rs[i]) == resolve(names[i])
  {
  }

  /** `Circuit.Extend(Router[])`: the routers' nicknames, in the same order. */
  function Nicknames(routers: seq<Router>): (r: seq<Option<string>>)
    ensures |r| == |routers|
    ensures forall i :: 0 <= i < |r| ==> r[i] == routers[i].nickname
  {
    if |routers| == 0 then [] else [routers[0].nickname] + Nicknames(routers[1..])
  }

  // ---------------------------------------------------------------------
  // Streams

  datatype StreamPurpose = StreamPurposeNone | DirectoryFetch | DirectoryRead
    | DNSRequest | DirectoryPortTest | User

  /** `StreamReason`. `End` and `PrivateAddr` share the number -1, so the code
      cannot tell them apart. */
  datatype StreamReason = ReasonNone | Misc | ResolveFailed | ConnectRefused | ExitPolicy
    | Destroy | Done | ReasonTimeout | NoRoute | ReasonHibernating | ReasonInternal
    | ReasonResourceLimit | ConnReset | ReasonTorProtocol | NotDirectory | End | PrivateAddr

  /** The number behind each reason, the value `(int)reason` sends. */
  function ReasonCode(r: StreamReason): int {
    match r
    case ReasonNone => 0
    case Misc => 1
    case ResolveFailed => 2
    case ConnectRefused => 3
    case ExitPolicy => 4
    case Destroy => 5
    case Done => 6
    case ReasonTimeout => 7
    case NoRoute => 8
    case ReasonHibernating => 9
    case ReasonInternal => 10
    case ReasonResourceLimit => 11
    case ConnReset => 12
    case ReasonTorProtocol => 13
    case NotDirectory => 14
    case End => -1
    case PrivateAddr => -1
  }

  datatype StreamStatus = StreamStatusNone | New | NewResolve | Remap | SentConnect
    | SentResolve | Succeeded | StreamFailed | StreamClosed | Detached

  datatype Stream = Stream(
    id: int,
    target: Host,
    circuitID: int,
    purpose: StreamPurpose,
    reason: StreamReason,
    status: StreamStatus)

  /** `new Stream(client, id, target)`. */
  function NewStream(id: int, target: Host): (s: Stream)
    ensures s.id == id && s.target == target && s.circuitID == 0
    ensures s.purpose == StreamPurposeNone && s.reason == ReasonNone && s.status == StreamStatusNone
  {
    Stream(id, target, 0, StreamPurposeNone, ReasonNone, StreamStatusNone)
  }

  // ---------------------------------------------------------------------
  // OR connections

  datatype ORReason = ORReasonNone | ORDone | ORConnectRefused | Identity | ConnectReset
    | ORTimeout | ORNoRoute | IOError | ORResourceLimit | PTMissing | ORMisc

  datatype ORStatus = ORStatusNone | ORNew | ORLaunched | Connected | ORFailed | ORClosed

  datatype ORConnection = ORConnection(
    circuitCount: int,
    id: int,
    reason: ORReason,
    status: ORStatus,
    target: string)

  /** `new ORConnection()`. */
  const NewORConnection := ORConnection(0, 0, ORReasonNone, ORStatusNone, "")
}

=== FILE: router_status.dfy ===
/** `GetAllRouterStatusCommand` (`getinfo ns/all`) and `GetRouterStatusCommand`
    (`getinfo ns/id/<identity>`): reading router status entries out of a
    consensus-style reply. An `r` line starts a router, `s` lines add flags,
    `w` lines set the bandwidth. */
module RouterStatus {
  import opened Wrappers
  import opened Text
  import opened ByteSizes
  import opened Records
  import opened ControlReplies

  /** The framework parsers the commands call, `DateTime.TryParse` and
      `IPAddress.TryParse`, which the model takes as given. */
  datatype Parsers = Parsers(date: string -> Option<DateTime>, address: string -> Option<IPAddress>)

  // ---------------------------------------------------------------------
  // Flags

  function FirstFlag(token: string, fs: seq<RouterFlag>): (r: Option<RouterFlag>)
    ensures r.Some? ==> r.value in fs && EqualsIgnoreCase(token, FlagName(r.value))
    ensures r.None? ==> forall i :: 0 <= i < |fs| ==> !EqualsIgnoreCase(token, FlagName(fs[i]))
  {
    if |fs| == 0 then None
    else if EqualsIgnoreCase(token, FlagName(fs[0])) then Some(fs[0])
    else FirstFlag(token, fs[1..])
  }

  lemma AllFlagsListed(f: RouterFlag)
    ensures exists i :: 0 <= i < |AllFlags| && AllFlags[i] == f
  {
    match f
    case Authority => assert AllFlags[0] == f;
    case BadExit => assert AllFlags[1] == f;
    case Exit => assert AllFlags[2] == f;
    case Fast => assert AllFlags[3] == f;
    case Guard => assert AllFlags[4] == f;
    case HSDir => assert AllFlags[5] == f;
    case Named => assert AllFlags[6] == f;
    case Stable => assert AllFlags[7] == f;
    case Running => assert AllFlags[8] == f;
    case Unnamed => assert AllFlags[9] == f;
    case Valid => assert AllFlags[10] == f;
    case V2Dir => assert AllFlags[11] == f;
  }

  /** The flag whose description equals `token` ignoring case; none (the
      `None` bit, which is not added) when no description matches. */
  function FlagOf(token: string): (r: Option<RouterFlag>)
    ensures r.Some? ==> EqualsIgnoreCase(token, FlagName(r.value))
    ensures r.None? ==> forall f: RouterFlag :: !EqualsIgnoreCase(token, FlagName(f))
  {
    var r := FirstFlag(token, AllFlags);
    assert r.None? ==> forall f: RouterFlag :: !EqualsIgnoreCase(token, FlagName(f)) by {
      if r.None? {
        forall f: RouterFlag ensures !EqualsIgnoreCase(token, FlagName(f)) {
          AllFlagsListed(f);
        }
      }
    }
    r
  }

  /** A flag's own description reads back as that flag: no other description
      equals it ignoring case. */
  lemma FlagOfName(f: RouterFlag)
    ensures FlagOf(FlagName(f)) == Some(f)
  {
    var name := FlagName(f);
    assert EqualsIgnoreCase(name, name);
    var r := FlagOf(name);
    var g := r.value;
    KeyOfName(f);
    KeyOfName(g);
    assert Lower(name[0]) == Lower(FlagName(g)[0]) && Lower(name[1]) == Lower(FlagName(g)[1]);
  }

  /** The first two characters of a description, ignoring case, which tell
      the flags apart. */
  function NameKey(s: string): (char, char)
    requires |s| >= 2
  {
    (Lower(s[0]), Lower(s[1]))
  }

  function FlagOfKey(k: (char, char)): Option<RouterFlag> {
    match k
    case ('a', 'u') => Some(Authority)
    case ('b', 'a') => Some(BadExit)
    case ('e', 'x') => Some(Exit)
    case ('f', 'a') => Some(Fast)
    case ('g', 'u') => Some(Guard)
    case ('h', 's') => Some(HSDir)
    case ('n', 'a') => Some(Named)
    case ('s', 't') => Some(Stable)
    case ('r', 'u') => Some(Running)
    case ('u', 'n') => Some(Unnamed)
    case ('v', 'a') => Some(Valid)
    case ('v', '2') => Some(V2Dir)
    case _ => None
  }

  lemma KeyOfName(f: RouterFlag)
    ensures |FlagName(f)| >= 2 && FlagOfKey(NameKey(FlagName(f))) == Some(f)
  {
  }

  /** The shape of a description: non-empty, without spaces, ending in a
      letter or digit. */
  lemma FlagNameShape(f: RouterFlag)
    ensures |FlagName(f)| > 0 && ' ' !in FlagName(f)
    ensures !IsWhiteSpace(FlagName(f)[|FlagName(f)| - 1])
  {
  }

  /** The flags named by the tokens of an `s` line. */
  function FlagsOf(tokens: seq<string>): (r: set<RouterFlag>)
    ensures forall f :: f in r <==> exists i :: 0 <= i < |tokens| && FlagOf(tokens[i]) == Some(f)
  {
    if |tokens| == 0 then {}
    else
      var rest := FlagsOf(tokens[1..]);
      var here := if FlagOf(tokens[0]).Some? then {FlagOf(tokens[0]).value} else {};
      assert forall i :: 1 <= i < |tokens| ==> tokens[i] == tokens[1..][i - 1];
      assert forall f :: f in rest ==> exists i :: 0 <= i < |tokens| && FlagOf(tokens[i]) == Some(f) by {
        forall f | f in rest ensures exists i :: 0 <= i < |tokens| && FlagOf(tokens[i]) == Some(f) {
          var k :| 0 <= k < |tokens[1..]| && FlagOf(tokens[1..][k]) == Some(f);
          assert FlagOf(tokens[k + 1]) == Some(f);
        }
      }
      here + rest
  }

  function FlagNames(fs: seq<RouterFlag>): (r: seq<string>)
    ensures |r| == |fs| && forall i :: 0 <= i < |fs| ==> r[i] == FlagName(fs[i])
  {
    seq(|fs|, i requires 0 <= i < |fs| => FlagName(fs[i]))
  }

  /** Listing flags by their descriptions and reading the list back gives the
      same set of flags. */
  lemma FlagsOfNames(fs: seq<RouterFlag>)
    ensures FlagsOf(FlagNames(fs)) == set f | f in fs
  {
    var names := FlagNames(fs);
    forall f ensures f in FlagsOf(names) <==> f in fs {
      if f in fs {
        var i :| 0 <= i < |fs| && fs[i] == f;
        FlagOfName(f);
        assert FlagOf(names[i]) == Some(f);
      }
      if f in FlagsOf(names) {
        var i :| 0 <= i < |names| && FlagOf(names[i]) == Some(f);
        FlagOfName(fs[i]);
      }
    }
  }

  // ---------------------------------------------------------------------
  // Lines

  /** The router an `r` line with at least nine fields describes: nickname,
      identity and digest as written, publication from the date and time
      fields (`MinValue` when they do not parse), address (null when it does
      not parse), and OR and directory ports (0 when they do not parse). */
  function RouterOfFields(values: seq<string>, p: Parsers): (r: Router)
    requires |values| >= 9
    ensures r.nickname == Some(values[1]) && r.identity == Some(values[2]) && r.digest == Some(values[3])
    ensures r.publication == p.date(values[4] + " " + values[5]).GetOr(MinValue)
    ensures r.ipAddress == p.address(values[6])
    ensures r.orPort == ParseInt32(values[7]).GetOr(0) && r.dirPort == ParseInt32(values[8]).GetOr(0)
    ensures r.flags == {} && r.bandwidth == Empty
  {
    NewRouter.(digest := Some(values[3]), dirPort := ParseInt32(values[8]).GetOr(0),
      identity := Some(values[2]), ipAddress := p.address(values[6]), nickname := Some(values[1]),
      orPort := ParseInt32(values[7]).GetOr(0),
      publication := p.date(values[4] + " " + values[5]).GetOr(MinValue))
  }

  /** A `w` line: `bandwidth=<kilobytes>` (key matched ignoring case) in the
      second field sets the bandwidth, normalized; anything else leaves it. */
  function WithBandwidth(router: Router, values: seq<string>): (r: Router)
    ensures r == router.(bandwidth := r.bandwidth)
    ensures r.bandwidth == router.bandwidth || IsNormal(r.bandwidth)
  {
    if |values| < 2 || !StartsWithIgnoreCase(values[1], "bandwidth=") then router
    else
      var value := SplitFirst(values[1], '=');
      if |value| < 2 then router
      else
        match ParseInt32(Trim(value[1]))
        case None => router
        case Some(bw) => router.(bandwidth := Normalize(Bytes(bw as real, KB)))
  }

  /** An `s` or `w` line applied to the current router; other lines leave it. */
  function AnnotateLine(router: Router, t: string): (r: Router)
    ensures r.nickname == router.nickname && r.identity == router.identity && r.digest == router.digest
    ensures router.flags <= r.flags
  {
    if StartsWith(t, "s") then router.(flags := router.flags + FlagsOf(Split(t, ' ')[1..]))
    else if StartsWith(t, "w") then WithBandwidth(router, Split(t, ' '))
    else router
  }

  // ---------------------------------------------------------------------
  // All routers

  /** `b` is `a` with possibly more flags or a new bandwidth: a status or
      bandwidth line never changes which router is being read. */
  predicate Annotates(a: Router, b: Router) {
    b.nickname == a.nickname && b.identity == a.identity && b.digest == a.digest && a.flags <= b.flags
  }

  /** The routers collected so far and the one being read. */
  datatype Scan = Scan(routers: seq<Router>, current: Option<Router>)

  const NoScan := Scan([], None)

  /** The collected routers with the current one added. */
  function Flush(s: Scan): (r: seq<Router>)
    ensures |r| == |s.routers| + (if s.current.Some? then 1 else 0)
  {
    s.routers + (if s.current.Some? then [s.current.value] else [])
  }

  /** One line of a `getinfo ns/all` reply. Blank lines and `.` are skipped;
      an `r` line adds the current router to the list and starts a new one,
      or none when it has fewer than nine fields. */
  function ScanLine(s: Scan, line: string, p: Parsers): (r: Scan)
    ensures IsBlank(Trim(line)) || Trim(line) == "." ==> r == s
    ensures StartsWith(Trim(line), "r") ==>
      var values := Split(Trim(line), ' ');
      r.routers == Flush(s) && (r.current.Some? <==> |values| >= 9)
      && (r.current.Some? ==> r.current.value.nickname == Some(values[1]) && r.current.value.identity == Some(values[2]))
    ensures !StartsWith(Trim(line), "r") ==>
      r.routers == s.routers && (r.current.Some? <==> s.current.Some?)
      && (r.current.Some? ==> Annotates(s.current.value, r.current.value))
  {
    var t := Trim(line);
    if IsBlank(t) || t == "." then s
    else if StartsWith(t, "r") then
      var values := Split(t, ' ');
      Scan(Flush(s), if |values| < 9 then None else Some(RouterOfFields(values, p)))
    else if s.current.Some? then Scan(s.routers, Some(AnnotateLine(s.current.value, t)))
    else s
  }

  function ScanLines(s: Scan, lines: seq<string>, p: Parsers): Scan
    decreases |lines|
  {
    if |lines| == 0 then s else ScanLines(ScanLine(s, lines[0], p), lines[1..], p)
  }

  lemma {:induction false} ScanLinesAppend(s: Scan, a: seq<string>, b: seq<string>, p: Parsers)
    ensures ScanLines(s, a + b, p) == ScanLines(ScanLines(s, a, p), b, p)
    decreases |a|
  {
    if |a| > 0 {
      assert (a + b)[1..] == a[1..] + b;
      ScanLinesAppend(ScanLine(s, a[0], p), a[1..], b, p);
    } else {
      assert a + b == b;
    }
  }

  /** The routers of a reply's lines, in the order their `r` lines appear. */
  function AllRouters(lines: seq<string>, p: Parsers): seq<Router> {
    Flush(ScanLines(NoScan, lines, p))
  }

  const AllRequest := "getinfo ns/all"

  /** `GetAllRouterStatusCommand.Dispatch` after writing `AllRequest`: `None`
      is an unsuccessful response, a failure an exception. The first reply
      line must start with `ns/all`, ignoring case; the rest are scanned. */
  function GetAllRouterStatus(ex: Exchange, p: Parsers): (r: Result<Option<seq<Router>>>)
    ensures r.Failure? <==> ex.Replied? && ex.reply.ok && |ex.reply.lines| == 0
    ensures r.Failure? ==> r.error == ArgumentOutOfRange
    ensures r.Success? && r.value.Some? <==>
      ex.Replied? && ex.reply.ok && |ex.reply.lines| > 0 && StartsWithIgnoreCase(ex.reply.lines[0], "ns/all")
  {
    match ex
    case WriteFailed => Success(None)
    case Replied(reply) =>
      if !reply.ok then Success(None)
      else
        var first :- FirstLine(reply);
        if !StartsWithIgnoreCase(first, "ns/all") then Success(None)
        else Success(Some(AllRouters(reply.lines[1..], p)))
  }

  // ---------------------------------------------------------------------
  // One router

  /** One line of a `getinfo ns/id/...` reply. Unlike the list scan, an `r`
      line with fewer than nine fields keeps the router read so far. */
  function ScanOne(cur: Option<Router>, line: string, p: Parsers): (r: Option<Router>)
    ensures IsBlank(Trim(line)) ==> r == cur
    ensures StartsWith(Trim(line), "r") ==>
      var values := Split(Trim(line), ' ');
      (|values| < 9 ==> r == cur)
      && (|values| >= 9 ==> r.Some? && r.value.nickname == Some(values[1]) && r.value.identity == Some(values[2]))
    ensures !StartsWith(Trim(line), "r") ==>
      (r.Some? <==> cur.Some?) && (r.Some? ==> Annotates(cur.value, r.value))
  {
    var t := Trim(line);
    if IsBlank(t) then cur
    else if StartsWith(t, "r") then
      var values := Split(t, ' ');
      if |values| < 9 then cur else Some(RouterOfFields(values, p))
    else if cur.Some? then Some(AnnotateLine(cur.value, t))
    else cur
  }

  function ScanOneLines(cur: Option<Router>, lines: seq<string>, p: Parsers): Option<Router>
    decreases |lines|
  {
    if |lines| == 0 then cur else ScanOneLines(ScanOne(cur, lines[0], p), lines[1..], p)
  }

  lemma {:induction false} ScanOneLinesAppend(cur: Option<Router>, a: seq<string>, b: seq<string>, p: Parsers)
    ensures ScanOneLines(cur, a + b, p) == ScanOneLines(ScanOneLines(cur, a, p), b, p)
    decreases |a|
  {
    if |a| > 0 {
      assert (a + b)[1..] == a[1..] + b;
      ScanOneLinesAppend(ScanOne(cur, a[0], p), a[1..], b, p);
    } else {
      assert a + b == b;
    }
  }

  function RouterRequest(identity: string): string {
    "ns/id/" + identity
  }

  /** `GetRouterStatusCommand.Dispatch`: nothing is written without an
      identity; otherwise `getinfo ns/id/<identity>` is written, the first
      reply line must start with the request, ignoring case, and every line
      (the first included) is scanned. `Some(None)` is a successful response
      naming no router. */
  function GetRouterStatus(identity: Option<string>, ex: Exchange, p: Parsers): (r: Result<Option<Option<Router>>>)
    ensures identity.None? ==> r == Success(None)
    ensures r.Failure? <==> identity.Some? && ex.Replied? && ex.reply.ok && |ex.reply.lines| == 0
    ensures r.Success? && r.value.Some? <==>
      identity.Some? && ex.Replied? && ex.reply.ok && |ex.reply.lines| > 0
      && StartsWithIgnoreCase(ex.reply.lines[0], RouterRequest(identity.value))
  {
    match identity
    case None => Success(None)
    case Some(id) =>
      match ex
      case WriteFailed => Success(None)
      case Replied(reply) =>
        if !reply.ok then Success(None)
        else
          var first :- FirstLine(reply);
          if !StartsWithIgnoreCase(first, RouterRequest(id)) then Success(None)
          else Success(Some(ScanOneLines(None, reply.lines, p)))
  }

  // ---------------------------------------------------------------------
  // Printing status entries, and reading them back

  /** A router status entry as the router list carries it. */
  datatype Entry = Entry(nickname: string, identity: string, digest: string, date: string, time: string,
    address: string, orPort: int, dirPort: int, flags: seq<RouterFlag>, bandwidth: Option<int>)

  /** Fields without spaces and numbers a 32-bit `int` holds. */
  predicate Printable(e: Entry) {
    && ' ' !in e.nickname && ' ' !in e.identity && ' ' !in e.digest
    && ' ' !in e.date && ' ' !in e.time && ' ' !in e.address
    && Int32Min <= e.orPort <= Int32Max && Int32Min <= e.dirPort <= Int32Max
    && (e.bandwidth.Some? ==> Int32Min <= e.bandwidth.value <= Int32Max)
  }

  function RFields(e: Entry): seq<string> {
    ["r", e.nickname, e.identity, e.digest, e.date, e.time, e.address, IntToString(e.orPort), IntToString(e.dirPort)]
  }

  function RLine(e: Entry): string {
    Join(RFields(e), " ")
  }

  function SLine(fs: seq<RouterFlag>): string {
    Join(["s"] + FlagNames(fs), " ")
  }

  function WLine(bandwidth: int): string {
    "w Bandwidth=" + IntToString(bandwidth)
  }

  function EntryLines(e: Entry): seq<string> {
    [RLine(e), SLine(e.flags)] + (if e.bandwidth.Some? then [WLine(e.bandwidth.value)] else [])
  }

  function EntriesLines(es: seq<Entry>): seq<string>
    decreases |es|
  {
    if |es| == 0 then [] else EntryLines(es[0]) + EntriesLines(es[1..])
  }

  /** The router an entry describes. */
  function Expected(e: Entry, p: Parsers): Router {
    Router(
      if e.bandwidth.Some? then Normalize(Bytes(e.bandwidth.value as real, KB)) else Empty,
      Some(e.digest), e.dirPort, (set f | f in e.flags), Some(e.identity), p.address(e.address),
      Some(e.nickname), e.orPort, p.date(e.date + " " + e.time).GetOr(MinValue))
  }

  function Expecteds(es: seq<Entry>, p: Parsers): (r: seq<Router>)
    ensures |r| == |es| && forall i :: 0 <= i < |es| ==> r[i] == Expected(es[i], p)
  {
    if |es| == 0 then [] else [Expected(es[0], p)] + Expecteds(es[1..], p)
  }

  lemma RLineReads(e: Entry, p: Parsers)
    requires Printable(e)
    ensures var t := RLine(e);
      && Trim(t) == t && !IsBlank(t) && t != "." && StartsWith(t, "r")
      && Split(t, ' ') == RFields(e)
      && RouterOfFields(RFields(e), p) == Expected(e, p).(flags := {}, bandwidth := Empty)
  {
    var fs := RFields(e);
    var t := RLine(e);
    JoinLast(fs, " ");
    assert t[..1] == "r";
    TrimOfTrimmed(t);
    SplitJoin(fs, ' ');
    ParseInt32ToString(e.orPort);
    ParseInt32ToString(e.dirPort);
  }

  lemma SLineShape(fs: seq<RouterFlag>)
    ensures var t := SLine(fs);
      |t| > 0 && t[0] == 's' && Trim(t) == t && Split(t, ' ') == ["s"] + FlagNames(fs)
  {
    var names := FlagNames(fs);
    var parts := ["s"] + names;
    var t := SLine(fs);
    SLineParts(fs);
    if |fs| > 0 {
      JoinCons("s", names, " ");
    }
    JoinLast(parts, " ");
    TrimOfTrimmed(t);
    SplitJoin(parts, ' ');
  }

  /** The words of an `s` line: none holds a space, and the last ends in a
      letter. */
  lemma SLineParts(fs: seq<RouterFlag>)
    ensures var parts := ["s"] + FlagNames(fs); var l := parts[|parts| - 1];
      |l| > 0 && !IsWhiteSpace(l[|l| - 1])
      && forall j :: 0 <= j < |parts| ==> ' ' !in parts[j]
  {
    var parts := ["s"] + FlagNames(fs);
    if |fs| > 0 {
      FlagNameShape(fs[|fs| - 1]);
      assert parts[|parts| - 1] == FlagName(fs[|fs| - 1]);
    }
    forall j | 0 <= j < |parts| ensures ' ' !in parts[j] {
      if j > 0 {
        FlagNameShape(fs[j - 1]);
      }
    }
  }

  /** An `s` line listing flags adds exactly those flags. */
  lemma SLineAnnotates(router: Router, fs: seq<RouterFlag>)
    ensures var t := SLine(fs);
      && Trim(t) == t && !IsBlank(t) && t != "." && !StartsWith(t, "r")
      && AnnotateLine(router, t) == router.(flags := router.flags + (set f | f in fs))
  {
    var t := SLine(fs);
    SLineShape(fs);
    assert t[..1] == "s";
    assert Split(t, ' ')[1..] == FlagNames(fs);
    FlagsOfNames(fs);
  }

  function WField(bandwidth: int): string {
    "Bandwidth=" + IntToString(bandwidth)
  }

  lemma WLineShape(bandwidth: int)
    ensures var t := WLine(bandwidth);
      |t| > 0 && t[0] == 'w' && Trim(t) == t && Split(t, ' ') == ["w", WField(bandwidth)]
  {
    WLineTrimmed(bandwidth);
    WLineSplit(bandwidth);
  }

  lemma WLineTrimmed(bandwidth: int)
    ensures Trim(WLine(bandwidth)) == WLine(bandwidth)
  {
    var digits := IntToString(bandwidth);
    var t := WLine(bandwidth);
    assert t[|t| - 1] == digits[|digits| - 1];
    TrimOfTrimmed(t);
  }

  lemma WLineSplit(bandwidth: int)
    ensures Split(WLine(bandwidth), ' ') == ["w", WField(bandwidth)]
  {
    var digits := IntToString(bandwidth);
    var field := WField(bandwidth);
    assert ' ' !in field by {
      assert ' ' !in "Bandwidth=" && ' ' !in digits;
    }
    assert Join(["w", field], [' ']) == WLine(bandwidth) by {
      JoinCons("w", [field], [' ']);
    }
    SplitJoin(["w", field], ' ');
  }

  /** The key of a `w` field matches ignoring case, and the digits follow
      the first `=`. */
  lemma BandwidthKey(digits: string)
    ensures StartsWithIgnoreCase("Bandwidth=" + digits, "bandwidth=")
    ensures SplitFirst("Bandwidth=" + digits, '=') == ["Bandwidth", digits]
  {
    var field := "Bandwidth=" + digits;
    assert field[..10] == "Bandwidth=";
    assert "Bandwidth" + ['='] == "Bandwidth=";
    SplitFirstAt("Bandwidth", '=', digits);
  }

  lemma WFieldReads(router: Router, bandwidth: int)
    requires Int32Min <= bandwidth <= Int32Max
    ensures WithBandwidth(router, ["w", WField(bandwidth)]) == router.(bandwidth := Normalize(Bytes(bandwidth as real, KB)))
  {
    var digits := IntToString(bandwidth);
    BandwidthKey(digits);
    TrimOfTrimmed(digits);
    ParseInt32ToString(bandwidth);
    assert ParseInt32(Trim(SplitFirst(WField(bandwidth), '=')[1])) == Some(bandwidth);
  }

  /** A `w` line sets the bandwidth to its kilobytes, normalized. */
  lemma WLineAnnotates(router: Router, bandwidth: int)
    requires Int32Min <= bandwidth <= Int32Max
    ensures var t := WLine(bandwidth);
      && Trim(t) == t && !IsBlank(t) && t != "." && !StartsWith(t, "r") && !StartsWith(t, "s")
      && AnnotateLine(router, t) == router.(bandwidth := Normalize(Bytes(bandwidth as real, KB)))
  {
    var t := WLine(bandwidth);
    WLineShape(bandwidth);
    assert t[..1] == "w";
    WFieldReads(router, bandwidth);
  }

  // ---------------------------------------------------------------------
  // Round trips

  lemma ScanLinesCons(s: Scan, l: string, rest: seq<string>, p: Parsers)
    ensures ScanLines(s, [l] + rest, p) == ScanLines(ScanLine(s, l, p), rest, p)
  {
    assert ([l] + rest)[0] == l && ([l] + rest)[1..] == rest;
  }

  lemma ScanOneLinesCons(cur: Option<Router>, l: string, rest: seq<string>, p: Parsers)
    ensures ScanOneLines(cur, [l] + rest, p) == ScanOneLines(ScanOne(cur, l, p), rest, p)
  {
    assert ([l] + rest)[0] == l && ([l] + rest)[1..] == rest;
  }

  /** The router an entry's `r` line alone describes. */
  function Bare(e: Entry, p: Parsers): Router {
    Expected(e, p).(flags := {}, bandwidth := Empty)
  }

  lemma RLineScans(s: Scan, e: Entry, p: Parsers)
    requires Printable(e)
    ensures ScanLine(s, RLine(e), p) == Scan(Flush(s), Some(Bare(e, p)))
  {
    RLineReads(e, p);
  }

  lemma SLineScans(rs: seq<Router>, x: Router, fs: seq<RouterFlag>, p: Parsers)
    ensures ScanLine(Scan(rs, Some(x)), SLine(fs), p) == Scan(rs, Some(AnnotateLine(x, SLine(fs))))
  {
    SLineAnnotates(x, fs);
  }

  lemma WLineScans(rs: seq<Router>, x: Router, bandwidth: int, p: Parsers)
    requires Int32Min <= bandwidth <= Int32Max
    ensures ScanLine(Scan(rs, Some(x)), WLine(bandwidth), p) == Scan(rs, Some(AnnotateLine(x, WLine(bandwidth))))
  {
    WLineAnnotates(x, bandwidth);
  }

  lemma DotScans(s: Scan, p: Parsers)
    ensures ScanLine(s, ".", p) == s
  {
    TrimOfTrimmed(".");
  }

  /** The lines after an entry's `r` line turn the bare router into the full
      one. */
  lemma AnnotationsComplete(e: Entry, p: Parsers)
    requires Printable(e)
    ensures var x2 := AnnotateLine(Bare(e, p), SLine(e.flags));
      && (e.bandwidth.None? ==> x2 == Expected(e, p))
      && (e.bandwidth.Some? ==> AnnotateLine(x2, WLine(e.bandwidth.value)) == Expected(e, p))
  {
    SLineAnnotates(Bare(e, p), e.flags);
    if e.bandwidth.Some? {
      WLineAnnotates(AnnotateLine(Bare(e, p), SLine(e.flags)), e.bandwidth.value);
    }
  }

  lemma EntryLinesSplit(e: Entry)
    ensures e.bandwidth.None? ==> EntryLines(e) == [RLine(e)] + ([SLine(e.flags)] + [])
    ensures e.bandwidth.Some? ==> EntryLines(e) == [RLine(e)] + ([SLine(e.flags)] + ([WLine(e.bandwidth.value)] + []))
  {
  }

  /** Reading a printed entry hands the router read so far to the list and
      makes the entry's router the current one. */
  lemma EntryScans(s: Scan, e: Entry, p: Parsers)
    requires Printable(e)
    ensures ScanLines(s, EntryLines(e), p) == Scan(Flush(s), Some(Expected(e, p)))
  {
    var x := Bare(e, p);
    var rs := Flush(s);
    RLineScans(s, e, p);
    var s1 := Scan(rs, Some(x));
    SLineScans(rs, x, e.flags, p);
    var x2 := AnnotateLine(x, SLine(e.flags));
    var s2 := Scan(rs, Some(x2));
    AnnotationsComplete(e, p);
    EntryLinesSplit(e);
    if e.bandwidth.Some? {
      var w := WLine(e.bandwidth.value);
      ScanLinesCons(s, RLine(e), [SLine(e.flags)] + ([w] + []), p);
      ScanLinesCons(s1, SLine(e.flags), [w] + [], p);
      WLineScans(rs, x2, e.bandwidth.value, p);
      ScanLinesCons(s2, w, [], p);
    } else {
      ScanLinesCons(s, RLine(e), [SLine(e.flags)] + [], p);
      ScanLinesCons(s1, SLine(e.flags), [], p);
    }
  }

  /** Blocks of lines, one after another. */
  function Flatten(blocks: seq<seq<string>>): seq<string>
    decreases |blocks|
  {
    if |blocks| == 0 then [] else blocks[0] + Flatten(blocks[1..])
  }

  lemma FlushStep(s: Scan, xs: seq<Router>)
    requires |xs| > 0
    ensures Flush(Scan(Flush(s), Some(xs[0]))) + xs[1..] == Flush(s) + xs
  {
    assert xs == [xs[0]] + xs[1..];
  }

  /** Blocks that each read as one router hand those routers to the list in
      order. */
  lemma {:induction false} BlocksScan(s: Scan, blocks: seq<seq<string>>, xs: seq<Router>, p: Parsers)
    requires |blocks| == |xs|
    requires forall i, s' :: 0 <= i < |blocks| ==> ScanLines(s', blocks[i], p) == Scan(Flush(s'), Some(xs[i]))
    ensures Flush(ScanLines(s, Flatten(blocks), p)) == Flush(s) + xs
    decreases |blocks|
  {
    if |blocks| == 0 {
      assert Flush(s) + xs == Flush(s);
    } else {
      var s1 := Scan(Flush(s), Some(xs[0]));
      ScanLinesAppend(s, blocks[0], Flatten(blocks[1..]), p);
      forall i, s' | 0 <= i < |blocks| - 1
        ensures ScanLines(s', blocks[1..][i], p) == Scan(Flush(s'), Some(xs[1..][i]))
      {
        assert blocks[1..][i] == blocks[i + 1] && xs[1..][i] == xs[i + 1];
      }
      BlocksScan(s1, blocks[1..], xs[1..], p);
      FlushStep(s, xs);
    }
  }

  function EntryBlocks(es: seq<Entry>): (r: seq<seq<string>>)
    ensures |r| == |es| && Flatten(r) == EntriesLines(es)
    decreases |es|
  {
    if |es| == 0 then [] else [EntryLines(es[0])] + EntryBlocks(es[1..])
  }

  lemma {:induction false} EntryBlocksAt(es: seq<Entry>, i: nat)
    requires i < |es|
    ensures EntryBlocks(es)[i] == EntryLines(es[i])
    decreases i
  {
    if i > 0 {
      EntryBlocksAt(es[1..], i - 1);
    }
  }

  lemma EntriesScan(s: Scan, es: seq<Entry>, p: Parsers)
    requires forall i :: 0 <= i < |es| ==> Printable(es[i])
    ensures Flush(ScanLines(s, EntriesLines(es), p)) == Flush(s) + Expecteds(es, p)
  {
    var blocks := EntryBlocks(es);
    var xs := Expecteds(es, p);
    forall i, s' | 0 <= i < |blocks| ensures ScanLines(s', blocks[i], p) == Scan(Flush(s'), Some(xs[i])) {
      EntryBlocksAt(es, i);
      EntryScans(s', es[i], p);
    }
    BlocksScan(s, blocks, xs, p);
  }

  /** The entries' lines followed by the closing `.` read as the entries'
      routers. */
  lemma AllRoutersOfEntries(es: seq<Entry>, p: Parsers)
    requires forall i :: 0 <= i < |es| ==> Printable(es[i])
    ensures AllRouters(EntriesLines(es) + ["."], p) == Expecteds(es, p)
  {
    ScanLinesAppend(NoScan, EntriesLines(es), ["."], p);
    EntriesScan(NoScan, es, p);
    var s := ScanLines(NoScan, EntriesLines(es), p);
    DotScans(s, p);
    ScanLinesCons(s, ".", [], p);
    assert Flush(NoScan) == [];
  }

  /** Printing status entries under a `ns/all` header and reading the reply
      gives their routers back, in order. */
  lemma GetAllRouterStatusRoundTrip(header: string, es: seq<Entry>, p: Parsers)
    requires StartsWithIgnoreCase(header, "ns/all")
    requires forall i :: 0 <= i < |es| ==> Printable(es[i])
    ensures GetAllRouterStatus(Replied(Reply(true, [header] + EntriesLines(es) + ["."])), p)
      == Success(Some(Expecteds(es, p)))
  {
    HeadTailCons(header, EntriesLines(es), ["."]);
    GetAllRouterStatusAccepts(Reply(true, [header] + EntriesLines(es) + ["."]), p);
    AllRoutersOfEntries(es, p);
  }

  lemma GetAllRouterStatusAccepts(reply: Reply, p: Parsers)
    requires reply.ok && |reply.lines| > 0 && StartsWithIgnoreCase(reply.lines[0], "ns/all")
    ensures GetAllRouterStatus(Replied(reply), p) == Success(Some(AllRouters(reply.lines[1..], p)))
  {
  }

  lemma RLineScansOne(cur: Option<Router>, e: Entry, p: Parsers)
    requires Printable(e)
    ensures ScanOne(cur, RLine(e), p) == Some(Bare(e, p))
  {
    RLineReads(e, p);
  }

  lemma SLineScansOne(x: Router, fs: seq<RouterFlag>, p: Parsers)
    ensures ScanOne(Some(x), SLine(fs), p) == Some(AnnotateLine(x, SLine(fs)))
  {
    SLineAnnotates(x, fs);
  }

  lemma WLineScansOne(x: Router, bandwidth: int, p: Parsers)
    requires Int32Min <= bandwidth <= Int32Max
    ensures ScanOne(Some(x), WLine(bandwidth), p) == Some(AnnotateLine(x, WLine(bandwidth)))
  {
    WLineAnnotates(x, bandwidth);
  }

  lemma DotScansOne(cur: Option<Router>, p: Parsers)
    ensures ScanOne(cur, ".", p) == cur
  {
    TrimOfTrimmed(".");
  }

  lemma EntryScansOne(cur: Option<Router>, e: Entry, p: Parsers)
    requires Printable(e)
    ensures ScanOneLines(cur, EntryLines(e), p) == Some(Expected(e, p))
  {
    var x := Bare(e, p);
    RLineScansOne(cur, e, p);
    SLineScansOne(x, e.flags, p);
    var x2 := AnnotateLine(x, SLine(e.flags));
    AnnotationsComplete(e, p);
    EntryLinesSplit(e);
    if e.bandwidth.Some? {
      var w := WLine(e.bandwidth.value);
      ScanOneLinesCons(cur, RLine(e), [SLine(e.flags)] + ([w] + []), p);
      ScanOneLinesCons(Some(x), SLine(e.flags), [w] + [], p);
      WLineScansOne(x2, e.bandwidth.value, p);
      ScanOneLinesCons(Some(x2), w, [], p);
    } else {
      ScanOneLinesCons(cur, RLine(e), [SLine(e.flags)] + [], p);
      ScanOneLinesCons(Some(x), SLine(e.flags), [], p);
    }
  }

  /** Blocks that each read as one router, whatever came before, leave the
      last block's router. */
  lemma {:induction false} BlocksScanOne(cur: Option<Router>, blocks: seq<seq<string>>, xs: seq<Router>, p: Parsers)
    requires |blocks| == |xs|
    requires forall i, c :: 0 <= i < |blocks| ==> ScanOneLines(c, blocks[i], p) == Some(xs[i])
    ensures ScanOneLines(cur, Flatten(blocks), p) == if |blocks| == 0 then cur else Some(xs[|xs| - 1])
    decreases |blocks|
  {
    if |blocks| > 0 {
      ScanOneLinesAppend(cur, blocks[0], Flatten(blocks[1..]), p);
      forall i, c | 0 <= i < |blocks| - 1
        ensures ScanOneLines(c, blocks[1..][i], p) == Some(xs[1..][i])
      {
        assert blocks[1..][i] == blocks[i + 1] && xs[1..][i] == xs[i + 1];
      }
      BlocksScanOne(Some(xs[0]), blocks[1..], xs[1..], p);
    }
  }

  /** Reading several entries one router at a time keeps the last. */
  lemma EntriesScanOne(cur: Option<Router>, es: seq<Entry>, p: Parsers)
    requires forall i :: 0 <= i < |es| ==> Printable(es[i])
    ensures ScanOneLines(cur, EntriesLines(es), p) == if |es| == 0 then cur else Some(Expected(es[|es| - 1], p))
  {
    var blocks := EntryBlocks(es);
    var xs := Expecteds(es, p);
    forall i, c | 0 <= i < |blocks| ensures ScanOneLines(c, blocks[i], p) == Some(xs[i]) {
      EntryBlocksAt(es, i);
      EntryScansOne(c, es[i], p);
    }
    BlocksScanOne(cur, blocks, xs, p);
  }

  lemma HeaderScansOne(identity: string, p: Parsers)
    ensures ScanOne(None, RouterRequest(identity) + "=", p) == None
  {
    var header := RouterRequest(identity) + "=";
    assert header[0] == 'n' && header[|header| - 1] == '=';
    TrimOfTrimmed(header);
    assert !IsBlank(header) by {
      assert !IsWhiteSpace(header[0]);
    }
    assert !StartsWith(header, "r") by {
      assert header[..1] != "r" by {
        assert header[..1][0] == 'n';
      }
    }
  }

  lemma HeaderMatches(identity: string)
    ensures StartsWithIgnoreCase(RouterRequest(identity) + "=", RouterRequest(identity))
  {
    var request := RouterRequest(identity);
    assert (request + "=")[..|request|] == request;
  }

  lemma OneRouterOfEntries(header: string, es: seq<Entry>, p: Parsers)
    requires ScanOne(None, header, p) == None
    requires forall i :: 0 <= i < |es| ==> Printable(es[i])
    ensures ScanOneLines(None, [header] + EntriesLines(es) + ["."], p)
      == if |es| == 0 then None else Some(Expected(es[|es| - 1], p))
  {
    assert [header] + EntriesLines(es) + ["."] == [header] + (EntriesLines(es) + ["."]);
    ScanOneLinesCons(None, header, EntriesLines(es) + ["."], p);
    ScanOneLinesAppend(None, EntriesLines(es), ["."], p);
    EntriesScanOne(None, es, p);
    var cur := ScanOneLines(None, EntriesLines(es), p);
    DotScansOne(cur, p);
    ScanOneLinesCons(cur, ".", [], p);
  }

  lemma GetRouterStatusAccepts(identity: string, reply: Reply, p: Parsers)
    requires reply.ok && |reply.lines| > 0 && StartsWithIgnoreCase(reply.lines[0], RouterRequest(identity))
    ensures GetRouterStatus(Some(identity), Replied(reply), p) == Success(Some(ScanOneLines(None, reply.lines, p)))
  {
  }

  /** A `getinfo ns/id/...` reply holding printed entries yields the router
      of the last one (the last `r` line wins), or none when it holds none. */
  lemma GetRouterStatusRoundTrip(identity: string, es: seq<Entry>, p: Parsers)
    requires forall i :: 0 <= i < |es| ==> Printable(es[i])
    ensures var header := RouterRequest(identity) + "=";
      GetRouterStatus(Some(identity), Replied(Reply(true, [header] + EntriesLines(es) + ["."])), p)
      == Success(Some(if |es| == 0 then None else Some(Expected(es[|es| - 1], p))))
  {
    var header := RouterRequest(identity) + "=";
    var lines := [header] + EntriesLines(es) + ["."];
    assert lines[0] == header;
    HeaderMatches(identity);
    GetRouterStatusAccepts(identity, Reply(true, lines), p);
    HeaderScansOne(identity, p);
    OneRouterOfEntries(header, es, p);
  }
}

=== FILE: socks5.dfy ===
/** `Tor.Net.Socks5Processor`: the client side of a SOCKS version 5
    handshake through Tor's SOCKS port (RFC 1928). Each socket callback
    becomes a function of the bytes that arrived; the processor's 512-byte
    buffer is kept where a check reads bytes that an earlier step left in it. */
module Socks5 {
  import opened Wrappers

  /** `new byte[512]`. */
  const BufferSize: nat := 512

  /** Version 5, one method offered, method 0 "no authentication required"
      (section 3 of RFC 1928). */
  const Greeting: seq<byte> := [5, 1, 0]

  function Zeros(n: nat): (r: seq<byte>)
    ensures |r| == n
    ensures forall i :: 0 <= i < n ==> r[i] == 0
  {
    if n == 0 then [] else [0] + Zeros(n - 1)
  }

  /** `data` written over `buffer` from `offset` on, as a receive or an
      `Array.Copy` does. */
  function Store(buffer: seq<byte>, offset: nat, data: seq<byte>): (r: seq<byte>)
    requires offset + |data| <= |buffer|
    ensures |r| == |buffer|
    ensures forall i :: 0 <= i < |r| ==> r[i] == (if offset <= i < offset + |data| then data[i - offset] else buffer[i])
  {
    buffer[..offset] + data + buffer[offset + |data|..]
  }

  /** The buffer once `OnSocketConnect` has put the greeting in it. */
  function AfterGreeting(): (r: seq<byte>)
    ensures |r| == BufferSize && r[..3] == Greeting
  {
    Store(Zeros(BufferSize), 0, Greeting)
  }

  // ---------------------------------------------------------------------
  // Method selection

  /** `OnSocketReceiveHandshake`: `data` is what a receive of at most two
      bytes put at the start of the buffer. The check reads two bytes even
      when one arrived, and the second is then the greeting's 1, so exactly
      the reply `05 00` (section 3 of RFC 1928: version 5, method 0) passes. */
  function MethodAccepted(data: seq<byte>): (r: bool)
    requires |data| <= 2
    ensures r <==> data == [5, 0]
  {
    var b := Store(AfterGreeting(), 0, data);
    assert |data| == 1 ==> b[1] == 1;
    |data| != 0 && b[0] == 5 && b[1] == 0
  }

  // ---------------------------------------------------------------------
  // The connect request

  /** The two ways a connection is asked for: `BeginProcessing(IPEndPoint)`
      with the end point's address bytes, and `BeginProcessing(host, port)`. */
  datatype Destination = EndPoint(address: seq<byte>, port: int) | HostName(host: string, port: int)

  /** `BitConverter.GetBytes(IPAddress.HostToNetworkOrder((short)port))` on a
      little-endian machine: the low 16 bits of the port, high byte first. */
  function PortBytes(port: int): (r: seq<byte>)
    ensures |r| == 2
    ensures (r[0] as int) * 256 + (r[1] as int) == port % 65536
  {
    var v := port % 65536;
    [(v / 256) as byte, (v % 256) as byte]
  }

  /** `Encoding.ASCII`: a character outside ASCII becomes `?`. */
  function AsciiByte(c: char): byte {
    if (c as int) < 128 then (c as int) as byte else 63
  }

  function Ascii(s: string): (r: seq<byte>)
    ensures |r| == |s|
    ensures forall i :: 0 <= i < |s| ==> r[i] == AsciiByte(s[i])
  {
    if |s| == 0 then [] else [AsciiByte(s[0])] + Ascii(s[1..])
  }

  /** The request bytes `OnSocketReceiveHandshake` sends, as written: an end
      point as address type 1 with the first four address bytes; a host name
      as address type 3 with its length cast to a byte, which keeps only the
      low eight bits. A host too long for the buffer makes `Array.Copy`
      throw. */
  function ConnectRequestAsWritten(d: Destination): (r: Result<seq<byte>>)
    ensures d.EndPoint? ==> (r.Success? <==> |d.address| >= 4)
    ensures d.EndPoint? && r.Success? ==> |r.value| == 10 && r.value[3] == 1
    ensures d.HostName? ==> (r.Success? <==> |d.host| + 7 <= BufferSize)
    ensures d.HostName? && r.Success? ==>
      |r.value| == |d.host| + 7 && r.value[3] == 3 && r.value[4] as int == |d.host| % 256
  {
    match d
    case EndPoint(address, port) =>
      if |address| < 4 then Failure(Argument)
      else Success([5, 1, 0, 1] + address[..4] + PortBytes(port))
    case HostName(host, port) =>
      if |host| + 7 > BufferSize then Failure(Argument)
      else Success([5, 1, 0, 3, (|host| % 256) as byte] + Ascii(host) + PortBytes(port))
  }

  /** The longest host name the one-byte length field of section 5 of
      RFC 1928 can describe. */
  const MaxHostLength: nat := 255

  /** The request with host names the length byte cannot describe refused. */
  function ConnectRequest(d: Destination): (r: Result<seq<byte>>)
    ensures d.HostName? ==> (r.Success? <==> |d.host| <= MaxHostLength)
    ensures d.EndPoint? ==> r == ConnectRequestAsWritten(d)
    ensures d.HostName? && r.Success? ==> r == ConnectRequestAsWritten(d)
  {
    if d.HostName? && |d.host| > MaxHostLength then Failure(ArgumentOutOfRange)
    else ConnectRequestAsWritten(d)
  }

  // ---------------------------------------------------------------------
  // Reading a request as the proxy does (section 4 of RFC 1928)

  function PortOf(hi: byte, lo: byte): int {
    (hi as int) * 256 + (lo as int)
  }

  function Chars(b: seq<byte>): (r: string)
    ensures |r| == |b|
    ensures forall i :: 0 <= i < |b| ==> r[i] == b[i] as int as char
  {
    if |b| == 0 then "" else [(b[0] as int) as char] + Chars(b[1..])
  }

  /** VER CMD RSV ATYP DST.ADDR DST.PORT with CMD 1 (CONNECT), for the IPv4
      and domain-name address types. */
  function ParseRequest(b: seq<byte>): Option<Destination> {
    if |b| < 5 || b[0] != 5 || b[1] != 1 || b[2] != 0 then None
    else if b[3] == 1 then
      if |b| == 10 then Some(EndPoint(b[4..8], PortOf(b[8], b[9]))) else None
    else if b[3] == 3 then
      var n := b[4] as int;
      if |b| == n + 7 then Some(HostName(Chars(b[5..5 + n]), PortOf(b[5 + n], b[6 + n]))) else None
    else None
  }

  predicate IsAscii(s: string) {
    forall i :: 0 <= i < |s| ==> (s[i] as int) < 128
  }

  lemma CharsAscii(s: string)
    requires IsAscii(s)
    ensures Chars(Ascii(s)) == s
  {
  }

  lemma PortRoundTrip(port: int)
    requires 0 <= port < 65536
    ensures PortOf(PortBytes(port)[0], PortBytes(port)[1]) == port
  {
  }

  /** The proxy reads back the destination asked for: an IPv4 address, or an
      ASCII host name of at most 255 characters, with a port that fits in 16
      bits. */
  lemma ConnectRequestRoundTrip(d: Destination)
    requires 0 <= d.port < 65536
    requires d.EndPoint? ==> |d.address| == 4
    requires d.HostName? ==> IsAscii(d.host) && |d.host| <= MaxHostLength
    ensures ConnectRequest(d).Success?
    ensures ParseRequest(ConnectRequest(d).value) == Some(d)
  {
    var b := ConnectRequest(d).value;
    PortRoundTrip(d.port);
    match d
    case EndPoint(address, port) =>
      assert b == [5, 1, 0, 1] + address + PortBytes(port);
      assert b[4..8] == address;
    case HostName(host, port) =>
      var n := |host|;
      assert b == [5, 1, 0, 3, (n % 256) as byte] + Ascii(host) + PortBytes(port);
      assert b[4] as int == n;
      assert b[5..5 + n] == Ascii(host);
      CharsAscii(host);
  }

  /** Up to 255 characters the corrected request is the written one. */
  lemma ConnectRequestAgrees(d: Destination)
    requires d.HostName? ==> |d.host| <= MaxHostLength
    ensures ConnectRequest(d) == ConnectRequestAsWritten(d)
  {
  }

  /** As written, a host name of 256 to 505 characters is sent with its
      length less 256 in the length byte (44 for 300 characters), so the
      proxy cannot read the request as the destination asked for. */
  lemma LongHostAsWritten(d: Destination)
    requires d.HostName? && MaxHostLength < |d.host| && |d.host| + 7 <= BufferSize
    ensures var r := ConnectRequestAsWritten(d);
      r.Success? && r.value[4] as int == |d.host| - 256 && ParseRequest(r.value) != Some(d)
  {
    var b := ConnectRequestAsWritten(d).value;
    assert b[4] as int == |d.host| - 256 && |b| == |d.host| + 7;
    assert ParseRequest(b) == None;
  }

  // ---------------------------------------------------------------------
  // The reply (section 6 of RFC 1928)

  /** `OnSocketReceiveConnect`: the first five bytes of the reply (VER, REP,
      RSV, ATYP and the first address byte) must all arrive with version 5 and
      status 0; the address type then fixes how many bytes remain. */
  function RemainingLength(data: seq<byte>): (r: Option<nat>)
    ensures r.Some? ==> |data| == 5 && data[0] == 5 && data[1] == 0 && data[3] in {1, 3, 4}
    ensures |data| == 5 && data[0] == 5 && data[1] == 0 && data[3] in {1, 3, 4} ==> r.Some?
  {
    if |data| != 5 || data[0] != 5 || data[1] != 0 then None
    else if data[3] == 1 then Some(5)
    else if data[3] == 3 then Some(data[4] as int + 2)
    else if data[3] == 4 then Some(17)
    else None
  }

  /** A complete success reply: VER 5, REP 0, RSV 0, then BND.ADDR of the
      length its ATYP gives (4 bytes, a length byte and that many, or 16
      bytes) and the two bytes of BND.PORT. */
  predicate SucceededReply(rep: seq<byte>) {
    |rep| >= 5 && rep[0] == 5 && rep[1] == 0 && rep[2] == 0
    && ((rep[3] == 1 && |rep| == 4 + 4 + 2)
      || (rep[3] == 3 && |rep| == 4 + 1 + rep[4] as int + 2)
      || (rep[3] == 4 && |rep| == 4 + 16 + 2))
  }

  /** For a success reply the processor waits for exactly the bytes after the
      first five; and whatever completes an accepted prefix with a zero RSV
      byte to that length is a success reply. */
  lemma RemainingLengthMatchesReply(rep: seq<byte>)
    ensures SucceededReply(rep) ==> RemainingLength(rep[..5]) == Some(|rep| - 5)
    ensures (|rep| >= 5 && rep[2] == 0 && RemainingLength(rep[..5]).Some?
             && |rep| == 5 + RemainingLength(rep[..5]).value) ==> SucceededReply(rep)
  {
  }

  // ---------------------------------------------------------------------
  // Draining the rest of the reply

  datatype Drained = Complete | Overrun | Waiting(remaining: nat)

  /** `OnSocketReceiveConnectFinal`, once per receive: more than remains is a
      failure, less keeps waiting for the rest, exactly what remains
      completes the handshake. */
  function Drain(remaining: nat, receives: seq<nat>): Drained {
    if |receives| == 0 then Waiting(remaining)
    else if remaining < receives[0] then Overrun
    else if remaining > receives[0] then Drain(remaining - receives[0], receives[1..])
    else Complete
  }

  function Sum(s: seq<nat>): nat {
    if |s| == 0 then 0 else s[0] + Sum(s[1..])
  }

  lemma SumPrefixStep(s: seq<nat>, k: nat)
    requires 0 < k <= |s|
    ensures Sum(s[..k]) == s[0] + Sum(s[1..][..k - 1])
  {
    assert s[..k][1..] == s[1..][..k - 1];
  }

  /** The handshake completes exactly when the first receives add up to what
      remained. */
  lemma {:induction false} DrainCompletes(remaining: nat, receives: seq<nat>)
    ensures Drain(remaining, receives) == Complete <==>
      exists k :: 0 < k <= |receives| && Sum(receives[..k]) == remaining
    decreases |receives|
  {
    if |receives| > 0 {
      var r0 := receives[0];
      var tail := receives[1..];
      if remaining < r0 {
        forall k | 0 < k <= |receives| ensures Sum(receives[..k]) > remaining {
          SumPrefixStep(receives, k);
        }
      } else if remaining > r0 {
        DrainCompletes(remaining - r0, tail);
        if Drain(remaining, receives) == Complete {
          var k' :| 0 < k' <= |tail| && Sum(tail[..k']) == remaining - r0;
          SumPrefixStep(receives, k' + 1);
        }
        SumPrefixStep(receives, 1);
        assert tail[..0] == [];
        if exists k :: 0 < k <= |receives| && Sum(receives[..k]) == remaining {
          var k :| 0 < k <= |receives| && Sum(receives[..k]) == remaining;
          SumPrefixStep(receives, k);
          assert 0 < k - 1 <= |tail| && Sum(tail[..k - 1]) == remaining - r0;
        }
      } else {
        SumPrefixStep(receives, 1);
        assert tail[..0] == [];
      }
    }
  }

  // ---------------------------------------------------------------------
  // The whole exchange

  datatype Progress = Failed | Connected | Pending

  /** What follows the connect request: the first five reply bytes decide how
      much remains, and the receives drain it. */
  function AfterRequest(replyStart: seq<byte>, receives: seq<nat>): (r: Progress)
    ensures r == Connected <==>
      RemainingLength(replyStart).Some?
      && exists k :: 0 < k <= |receives| && Sum(receives[..k]) == RemainingLength(replyStart).value
  {
    match RemainingLength(replyStart)
    case None => Failed
    case Some(n) =>
      DrainCompletes(n, receives);
      match Drain(n, receives)
      case Complete => Connected
      case Overrun => Failed
      case Waiting(_) => Pending
  }

  /** The callbacks in order, as written, on the bytes each receive
      delivered: the method reply, the first five reply bytes and the sizes of
      the receives that drain the rest. Any failure reports `callback(false)`;
      the connect request is sent only after the method reply passed, and it
      is whatever `ConnectRequestAsWritten` builds, host names of 256 to 505
      characters included. */
  function HandshakeAsWritten(d: Destination, methodReply: seq<byte>, replyStart: seq<byte>, receives: seq<nat>): (r: Progress)
    requires |methodReply| <= 2
    ensures r == Connected <==>
      methodReply == [5, 0] && ConnectRequestAsWritten(d).Success? && RemainingLength(replyStart).Some?
      && exists k :: 0 < k <= |receives| && Sum(receives[..k]) == RemainingLength(replyStart).value
  {
    if !MethodAccepted(methodReply) then Failed
    else if ConnectRequestAsWritten(d).Failure? then Failed
    else AfterRequest(replyStart, receives)
  }

  /** The same exchange with the corrected request: a host name the length
      byte cannot describe is never sent. */
  function Handshake(d: Destination, methodReply: seq<byte>, replyStart: seq<byte>, receives: seq<nat>): (r: Progress)
    requires |methodReply| <= 2
    ensures r == Connected <==>
      methodReply == [5, 0] && ConnectRequest(d).Success? && RemainingLength(replyStart).Some?
      && exists k :: 0 < k <= |receives| && Sum(receives[..k]) == RemainingLength(replyStart).value
  {
    if !MethodAccepted(methodReply) then Failed
    else if ConnectRequest(d).Failure? then Failed
    else AfterRequest(replyStart, receives)
  }

  /** Up to 255 characters the corrected exchange is the written one. */
  lemma HandshakeAgrees(d: Destination, methodReply: seq<byte>, replyStart: seq<byte>, receives: seq<nat>)
    requires |methodReply| <= 2
    requires d.HostName? ==> |d.host| <= MaxHostLength
    ensures Handshake(d, methodReply, replyStart, receives) == HandshakeAsWritten(d, methodReply, replyStart, receives)
  {
    ConnectRequestAgrees(d);
  }

  /** As written, a host name of 256 to 505 characters is sent with a wrong
      length byte and the exchange still reports a connection; the corrected
      one fails it. */
  lemma LongHostHandshakeAsWritten(d: Destination)
    requires d.HostName? && MaxHostLength < |d.host| && |d.host| + 7 <= BufferSize
    ensures HandshakeAsWritten(d, [5, 0], [5, 0, 0, 1, 0], [5]) == Connected
    ensures Handshake(d, [5, 0], [5, 0, 0, 1, 0], [5]) == Failed
  {
    assert RemainingLength([5, 0, 0, 1, 0]) == Some(5);
    assert [5][..1] == [5];
    assert Sum([5][..1]) == 5;
  }
}

=== FILE: status.dfy ===
/** `Tor.Status.Status`: the registry of the circuits, streams and OR
    connections the event stream has reported. Each list holds at most
    `MaximumRecords` entries; a report about a known record updates it in
    place, a report about a new one appends it, making room by evicting the
    first record that is closed or failed, or is dropped when there is none. */
module StatusRegistry {
  import opened Wrappers
  import opened Text
  import opened Hosts
  import opened Records

  const MaximumRecords: nat := 30

  /** `Where(p).FirstOrDefault()` as a position. */
  function FirstIndex<T>(s: seq<T>, p: T -> bool): (r: Option<nat>)
    ensures r.None? <==> forall i :: 0 <= i < |s| ==> !p(s[i])
    ensures r.Some? ==> r.value < |s| && p(s[r.value]) && forall i :: 0 <= i < r.value ==> !p(s[i])
  {
    if |s| == 0 then None
    else if p(s[0]) then Some(0)
    else
      match FirstIndex(s[1..], p)
      case None => None
      case Some(i) => Some(i + 1)
  }

  /** `List.Remove` of the element at `i`. */
  function RemoveAt<T>(s: seq<T>, i: nat): (r: seq<T>)
    requires i < |s|
    ensures |r| == |s| - 1
    ensures forall j :: 0 <= j < i ==> r[j] == s[j]
    ensures forall j :: i <= j < |r| ==> r[j] == s[j + 1]
  {
    s[..i] + s[i + 1..]
  }

  /** A list after one report, and whether the change notification was raised. */
  datatype Changed<T> = Changed(records: seq<T>, notified: bool)

  /** Admission of a record no entry matches: appended at the end; when the
      list is full the first record `terminal` holds for is evicted first, and
      when there is none the report is dropped without notification. */
  function Admit<T>(records: seq<T>, item: T, terminal: T -> bool): (r: Changed<T>)
    ensures |records| <= MaximumRecords ==> |r.records| <= MaximumRecords
    ensures |records| < MaximumRecords ==> r == Changed(records + [item], true)
    ensures r.notified ==> |r.records| > 0 && r.records[|r.records| - 1] == item
    ensures r.notified && MaximumRecords <= |records| ==>
      FirstIndex(records, terminal).Some? &&
      var j := FirstIndex(records, terminal).value;
      j < |records| && terminal(records[j]) && r.records == RemoveAt(records, j) + [item]
    ensures !r.notified <==> MaximumRecords <= |records| && forall i :: 0 <= i < |records| ==> !terminal(records[i])
    ensures !r.notified ==> r.records == records
  {
    if MaximumRecords <= |records| then
      match FirstIndex(records, terminal)
      case None => Changed(records, false)
      case Some(j) => Changed(RemoveAt(records, j) + [item], true)
    else Changed(records + [item], true)
  }

  /** Admitting an item whose key no record has keeps the keys unique. */
  lemma AdmitUnique<T>(records: seq<T>, item: T, terminal: T -> bool, key: T -> int)
    requires forall i, j :: 0 <= i < j < |records| ==> key(records[i]) != key(records[j])
    requires forall i :: 0 <= i < |records| ==> key(records[i]) != key(item)
    ensures var r := Admit(records, item, terminal).records;
      forall i, j :: 0 <= i < j < |r| ==> key(r[i]) != key(r[j])
  {
    var r := Admit(records, item, terminal);
    if r.notified {
      var rs := r.records;
      forall a, b | 0 <= a < b < |rs| ensures key(rs[a]) != key(rs[b]) {
        if b == |rs| - 1 {
          assert rs[a] in records;
        }
      }
    }
  }

  // ---------------------------------------------------------------------
  // Circuits

  predicate CircuitDone(c: Circuit) {
    c.status == CircuitClosed || c.status == CircuitFailed
  }

  predicate UniqueCircuits(cs: seq<Circuit>) {
    forall i, j :: 0 <= i < j < |cs| ==> cs[i].id != cs[j].id
  }

  /** The update of a known circuit: flags, hidden-service state, paths,
      purpose, reason, status and creation time come from the report; the
      routers are resolved again only when the number of path entries changed
      or the new status is `Extended`. */
  function UpdateCircuit(existing: Circuit, report: Circuit, resolve: string -> Option<Router>): (r: Circuit)
    ensures r.id == existing.id
    ensures r.buildFlags == report.buildFlags && r.hsState == report.hsState && r.paths == report.paths
    ensures r.purpose == report.purpose && r.reason == report.reason && r.status == report.status
    ensures r.timeCreated == report.timeCreated
    ensures |existing.paths| != |report.paths| || report.status == Extended ==>
      r.routers == GetRouters(report, resolve).routers
    ensures |existing.paths| == |report.paths| && report.status != Extended ==> r.routers == existing.routers
  {
    var update := |existing.paths| != |report.paths| || report.status == Extended;
    var u := existing.(buildFlags := report.buildFlags, hsState := report.hsState, paths := report.paths,
      purpose := report.purpose, reason := report.reason, status := report.status,
      timeCreated := report.timeCreated);
    if update then GetRouters(u, resolve) else u
  }

  /** `OnCircuitChanged`, with the router lookup given as `resolve`. */
  function CircuitChanged(circuits: seq<Circuit>, report: Option<Circuit>, resolve: string -> Option<Router>): (r: Changed<Circuit>)
    ensures report.None? ==> r == Changed(circuits, false)
    ensures |circuits| <= MaximumRecords ==> |r.records| <= MaximumRecords
    ensures report.Some? ==> match FirstIndex(circuits, (x: Circuit) => x.id == report.value.id)
      case Some(i) => r == Changed(circuits[i := UpdateCircuit(circuits[i], report.value, resolve)], true)
      case None => r == Admit(circuits, GetRouters(report.value, resolve), CircuitDone)
  {
    match report
    case None => Changed(circuits, false)
    case Some(c) =>
      match FirstIndex(circuits, (x: Circuit) => x.id == c.id)
      case Some(i) => Changed(circuits[i := UpdateCircuit(circuits[i], c, resolve)], true)
      case None => Admit(circuits, GetRouters(c, resolve), CircuitDone)
  }

  /** Circuits stay unique by ID and never exceed the bound; a report about a
      known ID updates that entry where it stands, and a new circuit is
      appended with its routers resolved. */
  lemma CircuitChangedKeepsValid(circuits: seq<Circuit>, report: Circuit, resolve: string -> Option<Router>)
    requires UniqueCircuits(circuits) && |circuits| <= MaximumRecords
    ensures var r := CircuitChanged(circuits, Some(report), resolve);
      && UniqueCircuits(r.records) && |r.records| <= MaximumRecords
      && (r.notified ==> exists i :: 0 <= i < |r.records| && r.records[i].id == report.id)
      && ((exists i :: 0 <= i < |circuits| && circuits[i].id == report.id) ==>
            r.notified && |r.records| == |circuits|
            && forall i :: 0 <= i < |circuits| ==> r.records[i].id == circuits[i].id)
  {
    var r := CircuitChanged(circuits, Some(report), resolve);
    match FirstIndex(circuits, (x: Circuit) => x.id == report.id)
    case Some(i) =>
      assert r.records[i].id == report.id;
    case None =>
      var item := GetRouters(report, resolve);
      AdmitUnique(circuits, item, CircuitDone, (c: Circuit) => c.id);
  }

  // ---------------------------------------------------------------------
  // Streams

  predicate StreamDone(s: Stream) {
    s.status == StreamClosed || s.status == StreamFailed
  }

  predicate UniqueStreams(ss: seq<Stream>) {
    forall i, j :: 0 <= i < j < |ss| ==> ss[i].id != ss[j].id
  }

  /** The update of a known stream: circuit, purpose, reason and status come
      from the report; the ID and the target are kept. */
  function UpdateStream(existing: Stream, report: Stream): (r: Stream)
    ensures r.id == existing.id && r.target == existing.target
    ensures r.circuitID == report.circuitID && r.purpose == report.purpose
    ensures r.reason == report.reason && r.status == report.status
  {
    existing.(circuitID := report.circuitID, purpose := report.purpose, reason := report.reason,
      status := report.status)
  }

  /** `OnStreamChanged`. */
  function StreamChanged(streams: seq<Stream>, report: Option<Stream>): (r: Changed<Stream>)
    ensures report.None? ==> r == Changed(streams, false)
    ensures |streams| <= MaximumRecords ==> |r.records| <= MaximumRecords
    ensures report.Some? ==> match FirstIndex(streams, (x: Stream) => x.id == report.value.id)
      case Some(i) => r == Changed(streams[i := UpdateStream(streams[i], report.value)], true)
      case None => r == Admit(streams, report.value, StreamDone)
  {
    match report
    case None => Changed(streams, false)
    case Some(s) =>
      match FirstIndex(streams, (x: Stream) => x.id == s.id)
      case Some(i) => Changed(streams[i := UpdateStream(streams[i], s)], true)
      case None => Admit(streams, s, StreamDone)
  }

  /** Streams stay unique by ID and within the bound. */
  lemma StreamChangedKeepsValid(streams: seq<Stream>, report: Stream)
    requires UniqueStreams(streams) && |streams| <= MaximumRecords
    ensures var r := StreamChanged(streams, Some(report));
      UniqueStreams(r.records) && |r.records| <= MaximumRecords
  {
    var r := StreamChanged(streams, Some(report));
    match FirstIndex(streams, (x: Stream) => x.id == report.id)
    case Some(i) =>
      assert r.records[i].id == report.id;
    case None =>
      AdmitUnique(streams, report, StreamDone, (x: Stream) => x.id);
  }

  // ---------------------------------------------------------------------
  // OR connections

  predicate ORDone(o: ORConnection) {
    o.status == ORClosed || o.status == ORFailed
  }

  /** The entry a report refers to: by ID when the report has one, otherwise
      by target, ignoring case. */
  function ORMatch(report: ORConnection): ORConnection -> bool {
    if report.id != 0 then (o: ORConnection) => o.id == report.id
    else (o: ORConnection) => EqualsIgnoreCase(o.target, report.target)
  }

  /** `OnORConnectionChanged`. An update overwrites every field of the entry
      (circuit count, ID, reason, status and target), so the entry becomes
      the report. */
  function ORConnectionChanged(connections: seq<ORConnection>, report: Option<ORConnection>): (r: Changed<ORConnection>)
    ensures report.None? ==> r == Changed(connections, false)
    ensures |connections| <= MaximumRecords ==> |r.records| <= MaximumRecords
    ensures report.Some? ==> match FirstIndex(connections, ORMatch(report.value))
      case Some(i) => r == Changed(connections[i := report.value], true)
      case None => r == Admit(connections, report.value, ORDone)
  {
    match report
    case None => Changed(connections, false)
    case Some(o) =>
      match FirstIndex(connections, ORMatch(o))
      case Some(i) =>
        var existing := connections[i].(circuitCount := o.circuitCount, id := o.id, reason := o.reason,
          status := o.status, target := o.target);
        Changed(connections[i := existing], true)
      case None => Admit(connections, o, ORDone)
  }

  // ---------------------------------------------------------------------
  // The registry

  datatype Registry = Registry(circuits: seq<Circuit>, streams: seq<Stream>, orConnections: seq<ORConnection>)

  const NewRegistry := Registry([], [], [])

  predicate Valid(reg: Registry) {
    && |reg.circuits| <= MaximumRecords && UniqueCircuits(reg.circuits)
    && |reg.streams| <= MaximumRecords && UniqueStreams(reg.streams)
    && |reg.orConnections| <= MaximumRecords
  }

  /** One report from the event stream. */
  datatype Report =
    | CircuitReport(circuit: Option<Circuit>)
    | StreamReport(stream: Option<Stream>)
    | ORConnectionReport(connection: Option<ORConnection>)

  /** The registry after one report, and whether a change was announced. Each
      report touches its own list only. */
  function Apply(reg: Registry, report: Report, resolve: string -> Option<Router>): (r: (Registry, bool))
    ensures report.CircuitReport? ==> r.0.streams == reg.streams && r.0.orConnections == reg.orConnections
    ensures report.StreamReport? ==> r.0.circuits == reg.circuits && r.0.orConnections == reg.orConnections
    ensures report.ORConnectionReport? ==> r.0.circuits == reg.circuits && r.0.streams == reg.streams
  {
    match report
    case CircuitReport(c) =>
      var ch := CircuitChanged(reg.circuits, c, resolve);
      (reg.(circuits := ch.records), ch.notified)
    case StreamReport(s) =>
      var ch := StreamChanged(reg.streams, s);
      (reg.(streams := ch.records), ch.notified)
    case ORConnectionReport(o) =>
      var ch := ORConnectionChanged(reg.orConnections, o);
      (reg.(orConnections := ch.records), ch.notified)
  }

  /** Every report keeps the registry valid. */
  lemma ApplyKeepsValid(reg: Registry, report: Report, resolve: string -> Option<Router>)
    requires Valid(reg)
    ensures Valid(Apply(reg, report, resolve).0)
  {
    match report
    case CircuitReport(c) =>
      if c.Some? {
        CircuitChangedKeepsValid(reg.circuits, c.value, resolve);
      }
    case StreamReport(s) =>
      if s.Some? {
        StreamChangedKeepsValid(reg.streams, s.value);
      }
    case ORConnectionReport(o) =>
  }

  /** Any run of reports from an empty registry leaves it valid. */
  function ApplyAll(reg: Registry, reports: seq<Report>, resolve: string -> Option<Router>): Registry
    decreases |reports|
  {
    if |reports| == 0 then reg else ApplyAll(Apply(reg, reports[0], resolve).0, reports[1..], resolve)
  }

  lemma {:induction false} ApplyAllKeepsValid(reg: Registry, reports: seq<Report>, resolve: string -> Option<Router>)
    requires Valid(reg)
    ensures Valid(ApplyAll(reg, reports, resolve))
    decreases |reports|
  {
    if |reports| > 0 {
      ApplyKeepsValid(reg, reports[0], resolve);
      ApplyAllKeepsValid(Apply(reg, reports[0], resolve).0, reports[1..], resolve);
    }
  }

  /** With thirty open circuits, a report about a new one is dropped: nothing
      changes and nothing is announced. */
  lemma FullOfOpenCircuits(circuits: seq<Circuit>, report: Circuit, resolve: string -> Option<Router>)
    requires |circuits| == MaximumRecords
    requires forall i :: 0 <= i < |circuits| ==> circuits[i].id != report.id && !CircuitDone(circuits[i])
    ensures CircuitChanged(circuits, Some(report), resolve) == Changed(circuits, false)
  {
  }
}

=== FILE: string_helper.dfy ===
/** The quote-aware field splitter of `Tor.Helpers.StringHelper`: a delimiter
    separates fields only outside a `"`-quoted span, and the quotes stay in the
    field text. */
module StringHelper {
  import opened Wrappers
  import opened Text

  /** Number of `"` characters in `s`. */
  function QuoteCount(s: string): nat {
    if |s| == 0 then 0 else (if s[0] == '"' then 1 else 0) + QuoteCount(s[1..])
  }

  /** Whether an odd number of quotes has been seen, i.e. a quoted span is open. */
  predicate Odd(s: string) {
    QuoteCount(s) % 2 == 1
  }

  lemma {:induction false} QuoteCountAppend(a: string, b: string)
    ensures QuoteCount(a + b) == QuoteCount(a) + QuoteCount(b)
  {
    if |a| > 0 {
      assert (a + b)[0] == a[0];
      assert (a + b)[1..] == a[1..] + b;
      QuoteCountAppend(a[1..], b);
    } else {
      assert a + b == b;
    }
  }

  lemma {:induction false} NoQuoteCount(s: string)
    requires '"' !in s
    ensures QuoteCount(s) == 0
  {
    if |s| > 0 {
      assert s[1..] <= s[1..];
      assert forall c :: c in s[1..] ==> c in s;
      NoQuoteCount(s[1..]);
    }
  }

  /** The scan loop of `GetNext` from index `idx` with the quote state `escaped`:
      the index of the first delimiter seen outside quotes, or the end of `d`. */
  function Scan(d: string, idx: nat, delim: char, escaped: bool): (e: nat)
    requires idx <= |d|
    ensures idx <= e <= |d|
    ensures e < |d| ==> d[e] == delim && delim != '"'
    decreases |d| - idx
  {
    if idx == |d| then idx
    else if d[idx] == '"' then Scan(d, idx + 1, delim, !escaped)
    else if d[idx] == delim && !escaped then idx
    else Scan(d, idx + 1, delim, escaped)
  }

  /** The quote state the scan keeps is the parity of the quotes it has passed:
      every delimiter it passes is inside quotes, and the one it stops at is not. */
  lemma {:induction false} ScanParity(d: string, idx: nat, delim: char, escaped: bool)
    requires idx <= |d|
    ensures var e := Scan(d, idx, delim, escaped);
      && (forall c :: idx <= c < e && d[c] == delim && delim != '"' ==> escaped != Odd(d[idx..c]))
      && (e < |d| ==> escaped == Odd(d[idx..e]))
    decreases |d| - idx
  {
    if idx < |d| {
      var e := Scan(d, idx, delim, escaped);
      assert d[idx..idx] == "";
      if d[idx] == '"' || d[idx] != delim || escaped {
        ScanParity(d, idx + 1, delim, if d[idx] == '"' then !escaped else escaped);
        forall c | idx < c <= e
          ensures Odd(d[idx..c]) == (Odd(d[idx + 1..c]) != (d[idx] == '"'))
        {
          assert d[idx..c][1..] == d[idx + 1..c];
        }
      }
    }
  }

  /** `GetNext(data, start, delimiter)`: null for a null input or a start at or past
      the end, otherwise the field beginning at `start`. */
  function GetNext(data: Option<string>, start: nat, delim: char): (r: Option<string>)
    ensures data.None? || |data.value| <= start <==> r.None?
    ensures r.Some? ==> r.value <= data.value[start..]
  {
    if data.None? || |data.value| <= start then None
    else Some(data.value[start..Scan(data.value, start, delim, false)])
  }

  /** The fields from `start` on: the loop of `GetAll`, which moves past each
      field (the text `GetNext` returns) and the delimiter after it. */
  function Fields(d: string, start: nat, delim: char): (r: seq<string>)
    decreases |d| - start
  {
    if |d| <= start then []
    else
      var e := Scan(d, start, delim, false);
      [d[start..e]] + Fields(d, e + 1, delim)
  }

  /** Each field of `Fields` is what `GetNext` returns at that position. */
  lemma FieldsHeadIsGetNext(d: string, start: nat, delim: char)
    requires start < |d|
    ensures var f := GetNext(Some(d), start, delim).value;
      Fields(d, start, delim) == [f] + Fields(d, start + |f| + 1, delim)
  {
  }

  /** `GetAll(data, delimiter)`. */
  function GetAll(data: Option<string>, delim: char): (r: Option<seq<string>>)
    ensures data.None? <==> r.None?
    ensures r.Some? && data.value == "" ==> r.value == []
    ensures r.Some? && data.value != "" ==> |r.value| >= 1
  {
    if data.None? then None else Some(Fields(data.value, 0, delim))
  }

  /** One turn of the `GetAll` loop. */
  lemma FieldsUnfold(d: string, start: nat, delim: char)
    requires start < |d|
    ensures var e := Scan(d, start, delim, false);
      Fields(d, start, delim) == [d[start..e]] + Fields(d, e + 1, delim)
  {
  }

  /** A field closed by a delimiter has balanced quotes. */
  lemma ScanStopBalanced(d: string, start: nat, delim: char)
    requires start <= |d| && Scan(d, start, delim, false) < |d|
    ensures !Odd(d[start..Scan(d, start, delim, false)])
  {
    ScanParity(d, start, delim, false);
  }

  /** Whether the input ends in an unquoted delimiter does not depend on which
      field start the quotes are counted from. */
  lemma EndsBareNextField(d: string, start: nat, delim: char)
    requires start <= |d| && Scan(d, start, delim, false) + 1 < |d|
    ensures var e := Scan(d, start, delim, false);
      EndsBare(d, start, delim) == EndsBare(d, e + 1, delim)
  {
    var e := Scan(d, start, delim, false);
    ScanStopBalanced(d, start, delim);
    ParityAcrossDelimiter(d, start, e, |d| - 1, delim);
  }

  /** Quotes counted over adjacent slices add up. */
  lemma QuoteCountSlices(d: string, i: nat, m: nat, k: nat)
    requires i <= m <= k <= |d|
    ensures QuoteCount(d[i..k]) == QuoteCount(d[i..m]) + QuoteCount(d[m..k])
  {
    assert d[i..k] == d[i..m] + d[m..k];
    QuoteCountAppend(d[i..m], d[m..k]);
  }

  lemma FieldsNonEmpty(d: string, start: nat, delim: char)
    requires start < |d|
    ensures Fields(d, start, delim) != []
  {
  }

  /** Quote parity counted from a field start equals parity counted from the next
      field start, since a field closed by a delimiter has balanced quotes. */
  lemma ParityAcrossDelimiter(d: string, start: nat, e: nat, k: nat, delim: char)
    requires start <= e < k <= |d| && d[e] == delim && delim != '"'
    requires !Odd(d[start..e])
    ensures Odd(d[start..k]) == Odd(d[e + 1..k])
  {
    assert d[start..k] == d[start..e] + [delim] + d[e + 1..k];
    QuoteCountAppend(d[start..e] + [delim], d[e + 1..k]);
    QuoteCountAppend(d[start..e], [delim]);
    assert QuoteCount([delim]) == 0;
  }

  /** A delimiter inside `f` is always inside a quoted span. */
  predicate NoBareDelimiter(f: string, delim: char) {
    forall c :: 0 <= c < |f| && f[c] == delim ==> Odd(f[..c])
  }

  /** `d` ends in a delimiter outside quotes, counting quotes from `i`. */
  predicate EndsBare(d: string, i: nat, delim: char) {
    i < |d| && d[|d| - 1] == delim && delim != '"' && !Odd(d[i..|d| - 1])
  }

  /** Every field holds no delimiter outside quotes, and every field that a
      delimiter closes has its quotes balanced. */
  predicate WellFormedFields(fs: seq<string>, delim: char) {
    && (forall j :: 0 <= j < |fs| ==> NoBareDelimiter(fs[j], delim))
    && (forall j :: 0 <= j < |fs| - 1 ==> !Odd(fs[j]))
  }

  lemma WellFormedCons(f: string, rest: seq<string>, delim: char)
    requires NoBareDelimiter(f, delim) && (rest != [] ==> !Odd(f))
    requires WellFormedFields(rest, delim)
    ensures WellFormedFields([f] + rest, delim)
  {
    var fs := [f] + rest;
    forall j | 0 < j < |fs| ensures fs[j] == rest[j - 1] { }
  }

  /** The field the scan delimits holds no unquoted delimiter. */
  lemma FieldNoBareDelimiter(d: string, start: nat, delim: char)
    requires delim != '"'
    requires start <= |d|
    ensures NoBareDelimiter(d[start..Scan(d, start, delim, false)], delim)
  {
    var e := Scan(d, start, delim, false);
    var f := d[start..e];
    ScanParity(d, start, delim, false);
    forall c | 0 <= c < |f| && f[c] == delim ensures Odd(f[..c]) {
      assert f[..c] == d[start..start + c];
    }
  }

  lemma {:induction false} FieldsWellFormed(d: string, start: nat, delim: char)
    requires delim != '"'
    requires start <= |d|
    ensures WellFormedFields(Fields(d, start, delim), delim)
    decreases |d| - start
  {
    if start < |d| {
      var e := Scan(d, start, delim, false);
      FieldsUnfold(d, start, delim);
      FieldNoBareDelimiter(d, start, delim);
      if e < |d| {
        FieldsWellFormed(d, e + 1, delim);
        ScanStopBalanced(d, start, delim);
      } else {
        assert Fields(d, e + 1, delim) == [];
      }
      WellFormedCons(d[start..e], Fields(d, e + 1, delim), delim);
    }
  }

  /** `fs` joined with the delimiter gives back `d` from `start`, plus the final
      delimiter when `d` ends in one outside quotes. */
  predicate Rejoins(fs: seq<string>, d: string, start: nat, delim: char)
    requires start <= |d|
  {
    Join(fs, [delim]) + (if EndsBare(d, start, delim) then [delim] else []) == d[start..]
  }

  lemma JoinFieldStep(d: string, start: nat, e: nat, delim: char, rest: seq<string>)
    requires start <= e && e + 1 < |d| && d[e] == delim && rest != []
    requires EndsBare(d, start, delim) == EndsBare(d, e + 1, delim)
    requires Rejoins(rest, d, e + 1, delim)
    ensures Rejoins([d[start..e]] + rest, d, start, delim)
  {
    var tail := if EndsBare(d, start, delim) then [delim] else [];
    JoinConsAppend(d[start..e], rest, [delim], tail, d[e + 1..]);
    assert d[start..] == d[start..e] + [delim] + d[e + 1..];
  }

  /** The last field: the input from `start` on is that field and possibly the
      unquoted delimiter closing it. */
  lemma FieldsJoinLast(d: string, start: nat, delim: char)
    requires start < |d| && Scan(d, start, delim, false) + 1 >= |d|
    ensures Rejoins(Fields(d, start, delim), d, start, delim)
  {
    var e := Scan(d, start, delim, false);
    var f := d[start..e];
    FieldsUnfold(d, start, delim);
    assert Fields(d, start, delim) == [f];
    if e + 1 == |d| {
      assert EndsBare(d, start, delim) by { ScanStopBalanced(d, start, delim); }
      assert d[start..] == f + [delim];
    } else {
      assert !EndsBare(d, start, delim) by { ScanParity(d, start, delim, false); }
      assert d[start..] == f;
    }
  }

  /** Joining the fields with the delimiter gives back the input, plus the final
      delimiter when the input ends in one outside quotes. */
  lemma {:induction false} FieldsJoin(d: string, start: nat, delim: char)
    requires delim != '"'
    requires start <= |d|
    ensures Rejoins(Fields(d, start, delim), d, start, delim)
    decreases |d| - start
  {
    if start == |d| {
      assert Rejoins([], d, start, delim);
    } else if Scan(d, start, delim, false) + 1 >= |d| {
      FieldsJoinLast(d, start, delim);
    } else {
      FieldsJoin(d, Scan(d, start, delim, false) + 1, delim);
      FieldsJoinMiddle(d, start, delim);
    }
  }

  /** A field followed by more: it rejoins when the fields after it do. */
  lemma FieldsJoinMiddle(d: string, start: nat, delim: char)
    requires delim != '"'
    requires start < |d| && Scan(d, start, delim, false) + 1 < |d|
    requires var e := Scan(d, start, delim, false);
      Rejoins(Fields(d, e + 1, delim), d, e + 1, delim)
    ensures Rejoins(Fields(d, start, delim), d, start, delim)
  {
    var e := Scan(d, start, delim, false);
    FieldsUnfold(d, start, delim);
    var rest := Fields(d, e + 1, delim);
    FieldsNonEmpty(d, e + 1, delim);
    EndsBareNextField(d, start, delim);
    JoinFieldStep(d, start, e, delim, rest);
  }

  /** `GetAll` on a string: the fields joined back give the input exactly when it
      does not end in an unquoted delimiter, and otherwise lack only that delimiter. */
  lemma GetAllJoin(d: string, delim: char)
    requires delim != '"'
    ensures var fs := GetAll(Some(d), delim).value;
      && WellFormedFields(fs, delim)
      && (!EndsBare(d, 0, delim) ==> Join(fs, [delim]) == d)
      && (EndsBare(d, 0, delim) ==> Join(fs, [delim]) + [delim] == d)
  {
    assert GetAll(Some(d), delim).value == Fields(d, 0, delim);
    FieldsJoin(d, 0, delim);
    FieldsWellFormed(d, 0, delim);
    assert d[0..] == d;
  }

  /** Without quotes the quote-aware split is the plain split, provided the
      input does not end in the delimiter. */
  lemma GetAllNoQuotes(d: string, delim: char)
    requires delim != '"' && '"' !in d
    requires d != "" && d[|d| - 1] != delim
    ensures GetAll(Some(d), delim).value == Split(d, delim)
  {
    var fs := GetAll(Some(d), delim).value;
    GetAllJoin(d, delim);
    JoinMissing(fs, [delim], '"');
    forall j | 0 <= j < |fs| ensures delim !in fs[j] {
      NoDelimiterWithoutQuotes(fs[j], delim);
    }
    SplitJoin(fs, delim);
  }

  lemma NoDelimiterWithoutQuotes(f: string, delim: char)
    requires '"' !in f && NoBareDelimiter(f, delim)
    ensures delim !in f
  {
    forall c | 0 <= c < |f| ensures f[c] != delim {
      NoQuoteCount(f[..c]);
    }
  }

  /** From a field start before an unclosed opening quote, the scan stops before
      that quote or runs to the end. */
  lemma ScanBeforeQuote(d: string, start: nat, q: nat, delim: char)
    requires delim != '"'
    requires start <= q < |d| && d[q] == '"' && '"' !in d[q + 1..]
    requires !Odd(d[start..q])
    ensures var e := Scan(d, start, delim, false); e < q || e == |d|
  {
    var e := Scan(d, start, delim, false);
    ScanParity(d, start, delim, false);
    if q <= e < |d| {
      QuoteCountSlices(d, start, q, e);
      assert d[q..e][1..] == d[q + 1..e];
      assert d[q + 1..e] == d[q + 1..][..e - q - 1];
      NoQuoteCount(d[q + 1..e]);
      assert false;
    }
  }

  /** The last of `fs` is a suffix of `d` that begins at or before index `q`. */
  predicate LastFieldCovers(fs: seq<string>, d: string, q: nat) {
    |fs| >= 1 && |d| - q <= |fs[|fs| - 1]| <= |d| && fs[|fs| - 1] == d[|d| - |fs[|fs| - 1]|..]
  }

  lemma LastFieldCoversCons(f: string, fs: seq<string>, d: string, q: nat)
    requires LastFieldCovers(fs, d, q)
    ensures LastFieldCovers([f] + fs, d, q)
  {
    assert ([f] + fs)[|fs|] == fs[|fs| - 1];
  }

  /** An opening quote that is never closed puts all the input after it into the
      last field. */
  lemma {:induction false} UnterminatedQuote(d: string, start: nat, q: nat, delim: char)
    requires delim != '"'
    requires start <= q < |d| && d[q] == '"' && '"' !in d[q + 1..]
    requires !Odd(d[start..q])
    ensures LastFieldCovers(Fields(d, start, delim), d, q)
    decreases |d| - start
  {
    var e := Scan(d, start, delim, false);
    FieldsUnfold(d, start, delim);
    if e == |d| {
      assert Fields(d, e + 1, delim) == [];
      assert LastFieldCovers([d[start..]], d, q);
    } else {
      assert e < q by { ScanBeforeQuote(d, start, q, delim); }
      assert !Odd(d[e + 1..q]) by {
        ScanStopBalanced(d, start, delim);
        ParityAcrossDelimiter(d, start, e, q, delim);
      }
      UnterminatedQuote(d, e + 1, q, delim);
      LastFieldCoversCons(d[start..e], Fields(d, e + 1, delim), d, q);
    }
  }
}

=== FILE: subscriptions.dfy ===
/** The subscription side of `Events`: a reference count per event kind, kept
    by the `add`/`remove` accessors of the public events through `AddEvent` and
    `RemoveEvent`, and the `SETEVENTS` command (section 3.4 of Tor's control
    protocol) that tells Tor which kinds to send. */
module Subscriptions {
  import opened Wrappers
  import opened Text
  import opened EventKinds

  /** A registered handler, identified by a number. */
  type Handler = nat

  /** `counts` is the `events` dictionary; `connected` stands for a socket that
      exists and is connected; `handlers` are the invocation lists of the
      public events. */
  datatype Monitor = Monitor(
    counts: map<Event, int>,
    handlers: map<Event, seq<Handler>>,
    enabled: bool,
    disposed: bool,
    connected: bool)

  /** The state the constructor leaves: enabled, nothing subscribed, no socket. */
  const NewMonitor := Monitor(map[], map[], true, false, false)

  /** Every stored count is at least 1. */
  predicate Valid(m: Monitor) {
    forall e :: e in m.counts ==> m.counts[e] >= 1
  }

  function Count(m: Monitor, e: Event): int {
    if e in m.counts then m.counts[e] else 0
  }

  /** The kinds with a stored count, in declaration order. */
  function SubscribedIn(kinds: seq<Event>, counts: map<Event, int>): (r: seq<Event>)
    ensures forall e :: e in r <==> e in kinds && e in counts
    ensures |r| <= |kinds|
  {
    if |kinds| == 0 then []
    else if kinds[0] in counts then [kinds[0]] + SubscribedIn(kinds[1..], counts)
    else SubscribedIn(kinds[1..], counts)
  }

  function Subscribed(counts: map<Event, int>): (r: seq<Event>)
    ensures forall e :: e in r <==> e in counts
  {
    assert forall e: Event :: e in AllEvents by {
      forall e: Event ensures e in AllEvents {
        InAllEvents(e);
      }
    }
    SubscribedIn(AllEvents, counts)
  }

  /** The text a kind adds to the command; a kind with no name adds nothing. */
  function NameText(e: Event): string {
    Name(e).GetOr("")
  }

  /** ` NAME` for each kind, in order. */
  function NameList(kinds: seq<Event>): string {
    if |kinds| == 0 then "" else " " + NameText(kinds[0]) + NameList(kinds[1..])
  }

  function NameTexts(kinds: seq<Event>): (r: seq<string>)
    ensures |r| == |kinds|
    ensures forall i :: 0 <= i < |r| ==> r[i] == NameText(kinds[i])
  {
    if |kinds| == 0 then [] else [NameText(kinds[0])] + NameTexts(kinds[1..])
  }

  /** The command `SetEvents` writes. */
  function SetEventsCommand(counts: map<Event, int>): (r: string)
    ensures |r| >= 11 && r[..9] == "SETEVENTS" && r[|r| - 2..] == CRLF
    ensures counts == map[] ==> r == "SETEVENTS" + CRLF
  {
    var kinds := Subscribed(counts);
    assert |kinds| > 0 ==> kinds[0] in counts;
    "SETEVENTS" + NameList(kinds) + CRLF
  }

  /** Splitting the command line on spaces gives `SETEVENTS` and then exactly
      the names of the subscribed kinds. */
  lemma SetEventsCommandWords(counts: map<Event, int>)
    requires Unknown !in counts
    ensures var c := SetEventsCommand(counts);
      c[..|c| - 2] == "SETEVENTS" + NameList(Subscribed(counts))
      && Split(c[..|c| - 2], ' ') == ["SETEVENTS"] + NameTexts(Subscribed(counts))
  {
    var ks := Subscribed(counts);
    var c := SetEventsCommand(counts);
    assert c == ("SETEVENTS" + NameList(ks)) + CRLF;
    assert c[..|c| - 2] == "SETEVENTS" + NameList(ks);
    assert Unknown !in ks;
    NameListWords("SETEVENTS", ks);
  }

  lemma NameListWords(head: string, ks: seq<Event>)
    requires ' ' !in head
    requires Unknown !in ks
    ensures Split(head + NameList(ks), ' ') == [head] + NameTexts(ks)
  {
    var words := [head] + NameTexts(ks);
    NameListJoin(head, ks);
    forall j | 0 <= j < |words| ensures ' ' !in words[j] {
      if j > 0 {
        assert ks[j - 1] in ks;
        NameHasNoSpace(ks[j - 1]);
      }
    }
    SplitJoinSpace(words);
  }

  /** The name list after `head` is `head` and the names joined by spaces. */
  lemma {:induction false} NameListJoin(head: string, ks: seq<Event>)
    ensures head + NameList(ks) == Join([head] + NameTexts(ks), " ")
    decreases |ks|
  {
    if |ks| == 0 {
      assert head + NameList(ks) == head;
      assert [head] + NameTexts(ks) == [head];
    } else {
      var n := NameText(ks[0]);
      NameListJoin(n, ks[1..]);
      assert head + NameList(ks) == head + " " + (n + NameList(ks[1..]));
      assert NameTexts(ks) == [n] + NameTexts(ks[1..]);
      JoinCons(head, NameTexts(ks), " ");
    }
  }

  lemma NameHasNoSpace(e: Event)
    requires e != Unknown
    ensures ' ' !in NameText(e)
  {
  }

  /** `SetEvents()`: throws once disposed; writes nothing without a connected
      socket or while disabled. */
  function SetEvents(m: Monitor): (r: Result<Option<string>>)
    ensures r.Failure? <==> m.disposed
    ensures r.Failure? ==> r.error == ObjectDisposed
    ensures r.Success? ==> (r.value.Some? <==> m.connected && m.enabled)
    ensures r.Success? && r.value.Some? ==> r.value.value == SetEventsCommand(m.counts)
  {
    if m.disposed then Failure(ObjectDisposed)
    else if !m.connected || !m.enabled then Success(None)
    else Success(Some(SetEventsCommand(m.counts)))
  }

  /** A changed monitor and the command written, if any. */
  datatype Outcome = Outcome(monitor: Monitor, sent: Option<string>)

  /** `AddEvent(evt)`: one more reference; the command goes out only when the
      kind was not subscribed before. */
  function AddEvent(m: Monitor, e: Event): (r: Result<Outcome>)
    requires Valid(m)
    ensures r.Failure? <==> m.disposed
    ensures r.Failure? ==> r.error == ObjectDisposed
    ensures r.Success? ==> Valid(r.value.monitor) && r.value.monitor.(counts := m.counts) == m
    ensures r.Success? ==> Count(r.value.monitor, e) == Count(m, e) + 1
    ensures r.Success? ==> forall k :: k != e ==> Count(r.value.monitor, k) == Count(m, k)
    ensures r.Success? ==> (r.value.sent.Some? <==> Count(m, e) == 0 && m.enabled && m.connected)
    ensures r.Success? && r.value.sent.Some? ==> r.value.sent.value == SetEventsCommand(r.value.monitor.counts)
  {
    if m.disposed then Failure(ObjectDisposed)
    else
      var counter := Count(m, e) + 1;
      var m1 := m.(counts := m.counts[e := counter]);
      if m.enabled && counter == 1 then Success(Outcome(m1, SetEvents(m1).value))
      else Success(Outcome(m1, None))
  }

  /** `RemoveEvent(evt)`: an unsubscribed kind is left alone; the last
      reference deletes the kind and calls `SetEvents`. */
  function RemoveEvent(m: Monitor, e: Event): (r: Result<Outcome>)
    requires Valid(m)
    ensures r.Failure? <==> m.disposed
    ensures r.Failure? ==> r.error == ObjectDisposed
    ensures r.Success? ==> Valid(r.value.monitor) && r.value.monitor.(counts := m.counts) == m
    ensures r.Success? && e !in m.counts ==> r.value == Outcome(m, None)
    ensures r.Success? && e in m.counts ==> Count(r.value.monitor, e) == Count(m, e) - 1
    ensures r.Success? ==> forall k :: k != e ==> Count(r.value.monitor, k) == Count(m, k)
    ensures r.Success? ==> (r.value.sent.Some? <==> Count(m, e) == 1 && m.enabled && m.connected)
    ensures r.Success? && r.value.sent.Some? ==> r.value.sent.value == SetEventsCommand(r.value.monitor.counts)
  {
    if m.disposed then Failure(ObjectDisposed)
    else if e !in m.counts then Success(Outcome(m, None))
    else
      var counter := m.counts[e] - 1;
      if counter == 0 then
        var m1 := m.(counts := m.counts - {e});
        Success(Outcome(m1, SetEvents(m1).value))
      else Success(Outcome(m.(counts := m.counts[e := counter]), None))
  }

  /** Removing a reference right after adding one restores the counts. */
  lemma AddThenRemove(m: Monitor, e: Event)
    requires Valid(m) && !m.disposed
    ensures var m1 := AddEvent(m, e).value.monitor;
      RemoveEvent(m1, e).value.monitor.counts == m.counts
  {
    var m1 := AddEvent(m, e).value.monitor;
    SameCounts(RemoveEvent(m1, e).value.monitor, m);
  }

  /** Two valid monitors with the same count for every kind have the same
      count map. */
  lemma SameCounts(a: Monitor, b: Monitor)
    requires Valid(a) && Valid(b)
    requires forall k :: Count(a, k) == Count(b, k)
    ensures a.counts == b.counts
  {
    assert forall k :: k in a.counts <==> k in b.counts by {
      forall k ensures k in a.counts <==> k in b.counts {
        assert Count(a, k) == Count(b, k);
      }
    }
    forall k | k in a.counts ensures a.counts[k] == b.counts[k] {
      assert Count(a, k) == Count(b, k);
    }
  }

  /** `Dispose`: the socket is shut down and every later call throws. */
  function Dispose(m: Monitor): (r: Monitor)
    ensures r.disposed && !r.connected
    ensures r.counts == m.counts
  {
    m.(disposed := true, connected := false)
  }

  lemma DisposedThrows(m: Monitor, e: Event)
    requires Valid(m)
    ensures AddEvent(Dispose(m), e) == Failure(ObjectDisposed)
    ensures RemoveEvent(Dispose(m), e) == Failure(ObjectDisposed)
    ensures SetEvents(Dispose(m)) == Failure(ObjectDisposed)
  {
  }

  // ---------------------------------------------------------------------
  // The `add` / `remove` accessors of the public events.

  function Handlers(m: Monitor, e: Event): seq<Handler> {
    if e in m.handlers then m.handlers[e] else []
  }

  /** Delegate `-=`: drops the last occurrence of the handler, if any. */
  function RemoveLast(list: seq<Handler>, h: Handler): (r: seq<Handler>)
    ensures h in list ==> |r| == |list| - 1 && multiset(r) == multiset(list) - multiset{h}
    ensures h !in list ==> r == list
  {
    if |list| == 0 then []
    else
      var init := list[..|list| - 1];
      var last := list[|list| - 1];
      assert list == init + [last];
      if last == h then init else RemoveLast(init, h) + [last]
  }

  /** `add`: the handler joins the invocation list, then `AddEvent`. */
  function Subscribe(m: Monitor, e: Event, h: Handler): (r: Result<Outcome>)
    requires Valid(m)
    ensures r.Failure? <==> m.disposed
    ensures r.Success? ==> Valid(r.value.monitor) && Handlers(r.value.monitor, e) == Handlers(m, e) + [h]
    ensures r.Success? ==> forall k :: Count(r.value.monitor, k) == Count(m, k) + (if k == e then 1 else 0)
  {
    var m1 := m.(handlers := m.handlers[e := Handlers(m, e) + [h]]);
    AddEvent(m1, e)
  }

  /** `remove` as written: `BandwidthChanged` adds the handler again where
      every other event removes it. */
  function UnsubscribeAsWritten(m: Monitor, e: Event, h: Handler): (r: Result<Outcome>)
    requires Valid(m)
    ensures r.Success? ==> Valid(r.value.monitor)
    ensures r.Success? && e == Bandwidth ==> Handlers(r.value.monitor, e) == Handlers(m, e) + [h]
    ensures r.Success? && e != Bandwidth ==> Handlers(r.value.monitor, e) == RemoveLast(Handlers(m, e), h)
  {
    var list := if e == Bandwidth then Handlers(m, e) + [h] else RemoveLast(Handlers(m, e), h);
    RemoveEvent(m.(handlers := m.handlers[e := list]), e)
  }

  /** `remove` as intended: the handler leaves the invocation list for every
      event. */
  function Unsubscribe(m: Monitor, e: Event, h: Handler): (r: Result<Outcome>)
    requires Valid(m)
    ensures r.Failure? <==> m.disposed
    ensures r.Success? ==> Valid(r.value.monitor)
    ensures r.Success? ==> Handlers(r.value.monitor, e) == RemoveLast(Handlers(m, e), h)
    ensures r.Success? ==> forall k :: Count(r.value.monitor, k) == Count(m, k) - (if k == e && e in m.counts then 1 else 0)
  {
    RemoveEvent(m.(handlers := m.handlers[e := RemoveLast(Handlers(m, e), h)]), e)
  }

  /** As written, removing the only bandwidth handler leaves it registered
      twice while the kind itself is unsubscribed. */
  lemma BandwidthRemoveReAdds(h: Handler)
    ensures var m1 := Subscribe(NewMonitor, Bandwidth, h).value.monitor;
      var m2 := UnsubscribeAsWritten(m1, Bandwidth, h).value.monitor;
      Handlers(m2, Bandwidth) == [h, h] && Count(m2, Bandwidth) == 0
  {
  }

  /** With the intended accessor, subscribing and unsubscribing a handler
      restores both the invocation list and the count. */
  lemma SubscribeThenUnsubscribe(m: Monitor, e: Event, h: Handler)
    requires Valid(m) && !m.disposed
    ensures var m1 := Subscribe(m, e, h).value.monitor;
      var m2 := Unsubscribe(m1, e, h).value.monitor;
      Handlers(m2, e) == Handlers(m, e) && m2.counts == m.counts
  {
    var m1 := Subscribe(m, e, h).value.monitor;
    RemoveLastAppended(Handlers(m, e), h);
    UnsubscribeCounts(m, m1, e);
  }

  lemma RemoveLastAppended(list: seq<Handler>, h: Handler)
    ensures RemoveLast(list + [h], h) == list
  {
    assert (list + [h])[..|list + [h]| - 1] == list;
  }

  lemma UnsubscribeCounts(m: Monitor, m1: Monitor, e: Event)
    requires Valid(m) && Valid(m1) && !m1.disposed
    requires forall k :: Count(m1, k) == Count(m, k) + (if k == e then 1 else 0)
    ensures forall h :: Unsubscribe(m1, e, h).value.monitor.counts == m.counts
  {
    assert Count(m1, e) == Count(m, e) + 1;
    assert Count(m, e) >= 0 by {
      if e in m.counts { assert m.counts[e] >= 1; }
    }
    assert e in m1.counts;
    forall h ensures Unsubscribe(m1, e, h).value.monitor.counts == m.counts {
      SameCounts(Unsubscribe(m1, e, h).value.monitor, m);
    }
  }
}

=== FILE: text.dfy ===
/** The .NET string operations the controller code relies on, stated over
    `seq<char>`. Culture-sensitive comparisons are modelled ordinally, and
    "ignore case" folds ASCII letters only. */
module Text {
  import opened Wrappers

  const CRLF: string := "\r\n"

  /** `char.IsWhiteSpace`: the Unicode white-space characters. */
  predicate IsWhiteSpace(c: char) {
    || c == ' ' || ('\t' <= c <= '\r')
    || c == '\U{0085}' || c == '\U{00A0}' || c == '\U{1680}'
    || ('\U{2000}' <= c <= '\U{200A}')
    || c == '\U{2028}' || c == '\U{2029}' || c == '\U{202F}' || c == '\U{205F}' || c == '\U{3000}'
  }

  /** `string.IsNullOrWhiteSpace` on a non-null string. */
  predicate IsBlank(s: string) {
    forall i :: 0 <= i < |s| ==> IsWhiteSpace(s[i])
  }

  predicate IsNullOrWhiteSpace(s: Option<string>) {
    s.None? || IsBlank(s.value)
  }

  /** Number of white-space characters at the start of `s`. */
  function LeadingWhite(s: string): (n: nat)
    ensures n <= |s|
    ensures forall i :: 0 <= i < n ==> IsWhiteSpace(s[i])
    ensures n < |s| ==> !IsWhiteSpace(s[n])
  {
    if |s| > 0 && IsWhiteSpace(s[0]) then 1 + LeadingWhite(s[1..]) else 0
  }

  /** Number of white-space characters at the end of `s`. */
  function TrailingWhite(s: string): (n: nat)
    ensures n <= |s|
    ensures forall i :: |s| - n <= i < |s| ==> IsWhiteSpace(s[i])
    ensures n < |s| ==> !IsWhiteSpace(s[|s| - n - 1])
  {
    if |s| > 0 && IsWhiteSpace(s[|s| - 1]) then 1 + TrailingWhite(s[..|s| - 1]) else 0
  }

  /** `string.Trim()`: drops leading and trailing white space and nothing else. */
  function Trim(s: string): (r: string)
    ensures LeadingWhite(s) + |r| <= |s|
    ensures r == s[LeadingWhite(s)..LeadingWhite(s) + |r|]
    ensures forall i :: LeadingWhite(s) + |r| <= i < |s| ==> IsWhiteSpace(s[i])
    ensures |r| > 0 ==> !IsWhiteSpace(r[0]) && !IsWhiteSpace(r[|r| - 1])
  {
    var a := s[LeadingWhite(s)..];
    a[..|a| - TrailingWhite(a)]
  }

  lemma TrimOfTrimmed(s: string)
    requires |s| > 0 ==> !IsWhiteSpace(s[0]) && !IsWhiteSpace(s[|s| - 1])
    ensures Trim(s) == s
  {
  }

  /** Trailing white space after a trimmed string is all that `Trim` removes. */
  lemma TrimBlankTail(s: string, t: string)
    requires |s| > 0 && !IsWhiteSpace(s[0]) && !IsWhiteSpace(s[|s| - 1])
    requires IsBlank(t)
    ensures Trim(s + t) == s
  {
    var u := s + t;
    var r := Trim(u);
    assert LeadingWhite(u) == 0 by {
      assert u[0] == s[0];
    }
    assert u[|s| - 1] == s[|s| - 1];
    assert forall j :: |s| <= j < |u| ==> u[j] == t[j - |s|];
    assert u[..|s|] == s;
  }

  lemma TrimEmptyIffBlank(s: string)
    ensures Trim(s) == "" <==> IsBlank(s)
  {
  }

  /** Text holding a space is put in quotes, as it is; other text is left
      bare. Both the command line Tor is started with and `setconf` quote
      values this way. */
  function QuoteIfSpaced(s: string): (r: string)
    ensures ' ' in s ==> r == "\"" + s + "\""
    ensures ' ' !in s ==> r == s
  {
    if ' ' in s then "\"" + s + "\"" else s
  }

  predicate StartsWith(s: string, prefix: string) {
    |prefix| <= |s| && s[..|prefix|] == prefix
  }

  /** ASCII case folding, the part of culture-aware comparison the model keeps. */
  function Lower(c: char): char {
    if 'A' <= c <= 'Z' then (c as int + 32) as char else c
  }

  predicate EqualsIgnoreCase(a: string, b: string) {
    |a| == |b| && forall i :: 0 <= i < |a| ==> Lower(a[i]) == Lower(b[i])
  }

  predicate StartsWithIgnoreCase(s: string, prefix: string) {
    |prefix| <= |s| && EqualsIgnoreCase(s[..|prefix|], prefix)
  }

  /** First index of `c` in `s`, if any (`string.IndexOf(char)`). */
  function IndexOf(s: string, c: char): (r: Option<nat>)
    ensures r.None? <==> c !in s
    ensures r.Some? ==> r.value < |s| && s[r.value] == c && c !in s[..r.value]
  {
    if |s| == 0 then None
    else if s[0] == c then Some(0)
    else
      match IndexOf(s[1..], c)
      case None => None
      case Some(i) =>
        assert s[..i + 1] == [s[0]] + s[1..][..i];
        Some(i + 1)
  }

  /** `parts` joined with `sep` in between. */
  function Join(parts: seq<string>, sep: string): string {
    if |parts| == 0 then ""
    else if |parts| == 1 then parts[0]
    else parts[0] + sep + Join(parts[1..], sep)
  }

  lemma AppendAssoc<T>(a: seq<T>, b: seq<T>, c: seq<T>, d: seq<T>)
    ensures (a + b + c) + d == a + (b + c + d)
  {
  }

  lemma AppendAssoc3<T>(a: seq<T>, b: seq<T>, c: seq<T>)
    ensures a + (b + c) == (a + b) + c
  {
  }

  lemma HeadTailCons<T>(h: T, a: seq<T>, b: seq<T>)
    ensures var s := [h] + a + b; |s| > 0 && s[0] == h && s[1..] == a + b
  {
  }

  /** Dropping the last element of `p` and appending `q`. */
  lemma InitAppend<T>(p: seq<T>, q: seq<T>)
    requires |p| >= 1 && |q| >= 1
    ensures var w := p[..|p| - 1] + q;
      w[..|w| - 1] == p[..|p| - 1] + q[..|q| - 1] && w[|w| - 1] == q[|q| - 1]
  {
  }

  lemma JoinCons(p: string, rest: seq<string>, sep: string)
    requires rest != []
    ensures Join([p] + rest, sep) == p + sep + Join(rest, sep)
  {
    assert ([p] + rest)[1..] == rest;
  }

  /** A join begins with its first piece. */
  lemma JoinStartsWith(parts: seq<string>, sep: string)
    requires |parts| >= 1
    ensures StartsWith(Join(parts, sep), parts[0])
  {
    if |parts| > 1 {
      JoinCons(parts[0], parts[1..], sep);
      assert parts == [parts[0]] + parts[1..];
    }
  }

  lemma JoinConsAppend(p: string, rest: seq<string>, sep: string, tail: string, x: string)
    requires rest != [] && Join(rest, sep) + tail == x
    ensures Join([p] + rest, sep) + tail == p + sep + x
  {
    JoinCons(p, rest, sep);
  }

  /** A join ends with the last piece's last character. */
  lemma {:induction false} JoinLast(parts: seq<string>, sep: string)
    requires |parts| >= 1 && |parts[|parts| - 1]| > 0
    ensures var j := Join(parts, sep); var l := parts[|parts| - 1];
      |j| > 0 && j[|j| - 1] == l[|l| - 1]
    decreases |parts|
  {
    if |parts| > 1 {
      JoinLast(parts[1..], sep);
    }
  }

  /** Concatenation without separator. */
  function Concat(parts: seq<string>): string {
    if |parts| == 0 then "" else parts[0] + Concat(parts[1..])
  }

  /** `s.Split(c)`: every piece between occurrences of `c`, empty ones included. */
  function Split(s: string, c: char): (r: seq<string>)
    ensures |r| >= 1
    ensures forall i :: 0 <= i < |r| ==> c !in r[i]
    ensures Join(r, [c]) == s
    decreases |s|
  {
    match IndexOf(s, c)
    case None => [s]
    case Some(i) =>
      var rest := Split(s[i + 1..], c);
      assert s == s[..i] + [c] + s[i + 1..];
      [s[..i]] + rest
  }

  /** `s.Split(new[] { c }, 2)`: at most two pieces, cut at the first `c`. */
  function SplitFirst(s: string, c: char): (r: seq<string>)
    ensures |r| == 1 <==> c !in s
    ensures |r| == 1 || |r| == 2
    ensures |r| == 1 ==> r[0] == s
    ensures |r| == 2 ==> c !in r[0] && s == r[0] + [c] + r[1]
  {
    match IndexOf(s, c)
    case None => [s]
    case Some(i) =>
      assert s == s[..i] + [c] + s[i + 1..];
      [s[..i], s[i + 1..]]
  }

  /** The first `c` in `a + [c] + b` is the one after `a`. */
  lemma IndexOfAt(a: string, c: char, b: string)
    requires c !in a
    ensures IndexOf(a + [c] + b, c) == Some(|a|)
  {
    var s := a + [c] + b;
    assert s[|a|] == c;
    assert forall j :: 0 <= j < |a| ==> s[j] == a[j];
    assert forall j :: |a| < j <= |s| ==> s[..j][|a|] == c;
  }

  /** Where the first `c` is known, `SplitFirst` cuts there. */
  lemma SplitFirstAt(a: string, c: char, b: string)
    requires c !in a
    ensures SplitFirst(a + [c] + b, c) == [a, b]
  {
    var s := a + [c] + b;
    IndexOfAt(a, c, b);
    assert s[..|a|] == a;
    assert s[|a| + 1..] == b;
  }

  /** `Split` cuts at the first `c` and carries on with the rest. */
  lemma SplitCons(a: string, c: char, b: string)
    requires c !in a
    ensures Split(a + [c] + b, c) == [a] + Split(b, c)
  {
    var s := a + [c] + b;
    IndexOfAt(a, c, b);
    assert s[..|a|] == a;
    assert s[|a| + 1..] == b;
  }

  /** Splitting pieces joined by a character none of them holds gives them back. */
  lemma {:induction false} SplitJoin(parts: seq<string>, c: char)
    requires |parts| >= 1
    requires forall j :: 0 <= j < |parts| ==> c !in parts[j]
    ensures Split(Join(parts, [c]), c) == parts
    decreases |parts|
  {
    if |parts| == 1 {
      assert IndexOf(parts[0], c) == None;
    } else {
      SplitCons(parts[0], c, Join(parts[1..], [c]));
      SplitJoin(parts[1..], c);
      assert parts == [parts[0]] + parts[1..];
    }
  }

  /** The same for words joined by single spaces. */
  lemma SplitJoinSpace(words: seq<string>)
    requires |words| >= 1
    requires forall j :: 0 <= j < |words| ==> ' ' !in words[j]
    ensures Split(Join(words, " "), ' ') == words
  {
    assert [' '] == " ";
    SplitJoin(words, ' ');
  }

  /** A character missing from a joined string is missing from every piece. */
  lemma {:induction false} JoinMissing(parts: seq<string>, sep: string, x: char)
    requires x !in Join(parts, sep)
    ensures forall j :: 0 <= j < |parts| ==> x !in parts[j]
    decreases |parts|
  {
    if |parts| > 1 {
      var rest := Join(parts[1..], sep);
      assert Join(parts, sep) == parts[0] + sep + rest;
      assert forall i :: 0 <= i < |parts[0]| ==> parts[0][i] == Join(parts, sep)[i];
      assert forall i :: 0 <= i < |rest| ==> rest[i] == Join(parts, sep)[|parts[0]| + |sep| + i];
      JoinMissing(parts[1..], sep, x);
      assert forall j :: 1 <= j < |parts| ==> parts[j] == parts[1..][j - 1];
    }
  }

  /** `s.Split(new[] { c }, 3)`: at most three pieces, the last keeping any
      further `c`. */
  function SplitAtMost3(s: string, c: char): (r: seq<string>)
    ensures 1 <= |r| <= 3
    ensures |r| == 1 <==> c !in s
    ensures |r| >= 2 ==> c !in r[0] && c !in r[1]
    ensures |r| == 2 ==> c !in r[1]
    ensures Join(r, [c]) == s
  {
    var p := SplitFirst(s, c);
    if |p| == 1 then p
    else
      var q := SplitFirst(p[1], c);
      JoinCons(p[0], q, [c]);
      assert Join(q, [c]) == p[1];
      [p[0]] + q
  }

  predicate IsCrlfAt(s: string, i: int) {
    0 <= i && i + 1 < |s| && s[i] == '\r' && s[i + 1] == '\n'
  }

  ghost predicate HasCrlf(s: string) {
    exists i :: IsCrlfAt(s, i)
  }

  /** First index where CRLF starts (`string.IndexOf("\r\n")`). */
  function FindCrlf(s: string): (r: Option<nat>)
    ensures r.None? <==> !HasCrlf(s)
    ensures r.Some? ==> IsCrlfAt(s, r.value) && forall j :: 0 <= j < r.value ==> !IsCrlfAt(s, j)
  {
    if |s| < 2 then
      assert !HasCrlf(s) by {
        forall i ensures !IsCrlfAt(s, i) { }
      }
      None
    else if s[0] == '\r' && s[1] == '\n' then
      assert IsCrlfAt(s, 0);
      Some(0)
    else
      match FindCrlf(s[1..])
      case None =>
        assert !HasCrlf(s) by {
          forall i | IsCrlfAt(s, i) ensures false {
            assert i != 0;
            assert IsCrlfAt(s[1..], i - 1);
          }
        }
        None
      case Some(i) =>
        assert IsCrlfAt(s, i + 1);
        assert forall j :: 1 <= j < i + 1 ==> !IsCrlfAt(s, j) by {
          forall j | 1 <= j < i + 1 ensures !IsCrlfAt(s, j) {
            assert !IsCrlfAt(s[1..], j - 1);
          }
        }
        Some(i + 1)
  }

  /** A CRLF found in a prefix is still the first one after text is appended. */
  lemma FindCrlfAppend(s: string, u: string)
    requires FindCrlf(s).Some?
    ensures FindCrlf(s + u) == FindCrlf(s)
  {
    var i := FindCrlf(s).value;
    assert IsCrlfAt(s + u, i);
    forall j | 0 <= j < i ensures !IsCrlfAt(s + u, j) {
      assert !IsCrlfAt(s, j);
    }
  }

  /** `s.Split(new[] { "\r\n" }, StringSplitOptions.None)`: all CRLF-separated pieces. */
  function SplitCrlf(s: string): (r: seq<string>)
    ensures |r| >= 1
    ensures forall i :: 0 <= i < |r| ==> !HasCrlf(r[i])
    decreases |s|
  {
    match FindCrlf(s)
    case None => [s]
    case Some(i) =>
      var head := s[..i];
      assert !HasCrlf(head) by {
        forall j | IsCrlfAt(head, j) ensures false {
          assert IsCrlfAt(s, j);
        }
      }
      [head] + SplitCrlf(s[i + 2..])
  }

  lemma SplitCrlfAt(s: string, i: nat)
    requires FindCrlf(s) == Some(i)
    ensures SplitCrlf(s) == [s[..i]] + SplitCrlf(s[i + 2..])
  {
  }

  lemma SplitCrlfNone(s: string)
    requires FindCrlf(s) == None
    ensures SplitCrlf(s) == [s]
  {
  }

  lemma ConsInitLast<T>(h: T, q: seq<T>)
    requires |q| >= 1
    ensures var p := [h] + q; p[..|p| - 1] == [h] + q[..|q| - 1] && p[|p| - 1] == q[|q| - 1]
  {
  }

  lemma SplitCrlfAppendAt(x: string, y: string, i: nat)
    requires FindCrlf(x) == Some(i)
    ensures SplitCrlf(x + y) == [x[..i]] + SplitCrlf(x[i + 2..] + y)
  {
    FindCrlfAppend(x, y);
    assert (x + y)[..i] == x[..i];
    assert (x + y)[i + 2..] == x[i + 2..] + y;
    SplitCrlfAt(x + y, i);
  }

  /** Appending text only touches the last CRLF-separated piece: the complete
      pieces of `x` stay, and the rest of the split is that of the last piece
      followed by `y`. */
  lemma {:induction false} SplitCrlfAppend(x: string, y: string)
    ensures var p := SplitCrlf(x);
      SplitCrlf(x + y) == p[..|p| - 1] + SplitCrlf(p[|p| - 1] + y)
    decreases |x|
  {
    var f := FindCrlf(x);
    if f.None? {
      SplitCrlfNone(x);
    } else {
      var i := f.value;
      var q := SplitCrlf(x[i + 2..]);
      var p := SplitCrlf(x);
      var w := SplitCrlf(x + y);
      var t := SplitCrlf(q[|q| - 1] + y);
      SplitCrlfAt(x, i);
      SplitCrlfAppendAt(x, y, i);
      SplitCrlfAppend(x[i + 2..], y);
      assert w == [x[..i]] + (q[..|q| - 1] + t);
      ConsInitLastAppend(p, x[..i], q, t, w);
      assert p[|p| - 1] == q[|q| - 1];
    }
  }

  /** The sequence algebra of one step of `SplitCrlfAppend`. */
  lemma ConsInitLastAppend<T>(p: seq<T>, h: T, q: seq<T>, tail: seq<T>, whole: seq<T>)
    requires |q| >= 1 && p == [h] + q
    requires whole == [h] + (q[..|q| - 1] + tail)
    ensures p[|p| - 1] == q[|q| - 1] && whole == p[..|p| - 1] + tail
  {
    assert p[..|p| - 1] == [h] + q[..|q| - 1];
  }

  /** The last CRLF-separated piece is the text after the last CRLF: a suffix
      with no CRLF, preceded by a CRLF unless it is the whole string. */
  lemma {:induction false} SplitCrlfLast(s: string)
    ensures var p := SplitCrlf(s); var l := p[|p| - 1];
      |l| <= |s| && s[|s| - |l|..] == l && (|l| < |s| ==> IsCrlfAt(s, |s| - |l| - 2))
    decreases |s|
  {
    var f := FindCrlf(s);
    if f.None? {
      SplitCrlfNone(s);
    } else {
      var i := f.value;
      var q := SplitCrlf(s[i + 2..]);
      SplitCrlfAt(s, i);
      SplitCrlfLast(s[i + 2..]);
      ConsInitLast(s[..i], q);
      CrlfSuffixStep(s, i, q[|q| - 1]);
    }
  }

  /** A suffix of the text after a CRLF is a suffix of the whole text. */
  lemma CrlfSuffixStep(s: string, i: nat, l: string)
    requires IsCrlfAt(s, i)
    requires var t := s[i + 2..];
      |l| <= |t| && t[|t| - |l|..] == l && (|l| < |t| ==> IsCrlfAt(t, |t| - |l| - 2))
    ensures |l| <= |s| && s[|s| - |l|..] == l && (|l| < |s| ==> IsCrlfAt(s, |s| - |l| - 2))
  {
    var t := s[i + 2..];
    var k := |t| - |l|;
    assert |s| - |l| == i + 2 + k;
    assert t[k..] == s[i + 2 + k..];
    if |l| < |t| {
      assert s[i + k] == t[k - 2] && s[i + k + 1] == t[k - 1];
    }
  }

  /** `s.Split(new[] { "\r\n" }, 2, StringSplitOptions.None)`. */
  function SplitCrlfFirst(s: string): (r: seq<string>)
    ensures |r| == 1 <==> !HasCrlf(s)
    ensures |r| == 1 || |r| == 2
    ensures |r| == 1 ==> r[0] == s
    ensures |r| == 2 ==> s == r[0] + CRLF + r[1] && !HasCrlf(r[0])
  {
    match FindCrlf(s)
    case None => [s]
    case Some(i) =>
      var head := s[..i];
      assert !HasCrlf(head) by {
        forall j | IsCrlfAt(head, j) ensures false {
          assert IsCrlfAt(s, j);
        }
      }
      assert s == s[..i] + CRLF + s[i + 2..];
      [head, s[i + 2..]]
  }

  /** After a piece with no CR, the first CRLF is the one that follows it. */
  lemma CrlfAfter(a: string, b: string)
    requires '\r' !in a
    ensures var s := a + CRLF + b;
      FindCrlf(s) == Some(|a|) && s[..|a|] == a && s[|a| + 2..] == b
  {
    var s := a + CRLF + b;
    var tail := CRLF + b;
    AppendAssoc3(a, CRLF, b);
    assert s == a + tail;
    assert s[..|a|] == a;
    assert s[|a|..] == tail;
    assert s[|a| + 2..] == tail[2..] == b;
    assert IsCrlfAt(s, |a|);
    assert forall j :: 0 <= j < |a| ==> s[j] == a[j];
  }

  /** Text with no CR is one piece. */
  lemma SplitCrlfNoCr(s: string)
    requires '\r' !in s
    ensures SplitCrlf(s) == [s]
  {
    assert !HasCrlf(s) by {
      forall i ensures !IsCrlfAt(s, i) {
        if 0 <= i < |s| {
          assert s[i] in s;
        }
      }
    }
    SplitCrlfNone(s);
  }

  /** A piece with no CR, a CRLF and the rest split into the piece and the
      rest's own pieces. */
  lemma SplitCrlfCons(a: string, b: string)
    requires '\r' !in a
    ensures SplitCrlf(a + CRLF + b) == [a] + SplitCrlf(b)
  {
    CrlfAfter(a, b);
    SplitCrlfAt(a + CRLF + b, |a|);
  }

  /** Where the first CRLF is known, `SplitCrlfFirst` cuts there. */
  lemma SplitCrlfFirstAt(a: string, b: string)
    requires '\r' !in a
    ensures SplitCrlfFirst(a + CRLF + b) == [a, b]
  {
    CrlfAfter(a, b);
  }

  /** The non-empty members of `parts`, in order. */
  function NonEmpty(parts: seq<string>): (r: seq<string>)
    ensures |r| <= |parts|
    ensures forall i :: 0 <= i < |r| ==> r[i] != "" && r[i] in parts
    ensures (forall i :: 0 <= i < |parts| ==> parts[i] == "") <==> r == []
  {
    if |parts| == 0 then []
    else if parts[0] == "" then NonEmpty(parts[1..])
    else [parts[0]] + NonEmpty(parts[1..])
  }

  /** `s.Split(new[] { "\r\n" }, StringSplitOptions.RemoveEmptyEntries)`. */
  function SplitCrlfRemoveEmpty(s: string): (r: seq<string>)
    ensures forall i :: 0 <= i < |r| ==> r[i] != "" && !HasCrlf(r[i])
  {
    NonEmpty(SplitCrlf(s))
  }

  /** Joining pieces that hold no CR with CRLF and splitting again gives them back. */
  lemma {:induction false} SplitCrlfJoin(parts: seq<string>)
    requires |parts| >= 1
    requires forall i, j :: 0 <= i < |parts| && 0 <= j < |parts[i]| ==> parts[i][j] != '\r'
    ensures SplitCrlf(Join(parts, CRLF)) == parts
  {
    var p := parts[0];
    assert '\r' !in p by {
      forall j | 0 <= j < |p| ensures p[j] != '\r' {
        assert parts[0][j] != '\r';
      }
    }
    if |parts| == 1 {
      SplitCrlfNoCr(p);
    } else {
      var rest := Join(parts[1..], CRLF);
      assert Join(parts, CRLF) == p + CRLF + rest;
      SplitCrlfJoin(parts[1..]);
      SplitCrlfCons(p, rest);
      assert parts == [p] + parts[1..];
    }
  }

  // ---------------------------------------------------------------------
  // Integers: `int.TryParse` / `long.TryParse` with NumberStyles.Integer and
  // the decimal formatting of `{0}`.

  const Int32Min: int := -0x8000_0000
  const Int32Max: int := 0x7FFF_FFFF
  const Int64Min: int := -0x8000_0000_0000_0000
  const Int64Max: int := 0x7FFF_FFFF_FFFF_FFFF

  /** The white space number parsing tolerates around a number. */
  predicate IsNumberWhite(c: char) {
    c == ' ' || ('\t' <= c <= '\r')
  }

  function TrimNumberWhite(s: string): (r: string)
    ensures |r| <= |s|
    ensures |r| > 0 ==> !IsNumberWhite(r[0]) && !IsNumberWhite(r[|r| - 1])
    decreases |s|
  {
    if |s| > 0 && IsNumberWhite(s[0]) then TrimNumberWhite(s[1..])
    else if |s| > 0 && IsNumberWhite(s[|s| - 1]) then TrimNumberWhite(s[..|s| - 1])
    else s
  }

  predicate IsDigit(c: char) {
    '0' <= c <= '9'
  }

  predicate AllDigits(s: string) {
    forall i :: 0 <= i < |s| ==> IsDigit(s[i])
  }

  function DigitsValue(s: string): nat
    requires AllDigits(s)
  {
    if |s| == 0 then 0
    else DigitsValue(s[..|s| - 1]) * 10 + (s[|s| - 1] as int - '0' as int)
  }

  function DigitChar(d: nat): (c: char)
    requires d < 10
    ensures IsDigit(c) && c as int - '0' as int == d
  {
    ('0' as int + d) as char
  }

  /** Decimal digits of `n`, without leading zeros. */
  function NatToDigits(n: nat): (r: string)
    ensures |r| >= 1 && AllDigits(r)
    ensures DigitsValue(r) == n
  {
    if n < 10 then [DigitChar(n)]
    else
      var r := NatToDigits(n / 10) + [DigitChar(n % 10)];
      assert r[..|r| - 1] == NatToDigits(n / 10);
      r
  }

  /** `n.ToString()` in the invariant culture. */
  function IntToString(n: int): (r: string)
    ensures |r| >= 1
    ensures r[0] == '-' <==> n < 0
    ensures n >= 0 ==> AllDigits(r)
    ensures ' ' !in r && ':' !in r && '"' !in r && '=' !in r
    ensures !IsWhiteSpace(r[0]) && !IsWhiteSpace(r[|r| - 1])
  {
    if n < 0 then "-" + NatToDigits(-n) else NatToDigits(n)
  }

  /** `TryParse` for an integer type whose range is `lo..hi`: optional white space,
      an optional sign, at least one decimal digit, and a value in range. */
  function ParseInteger(s: string, lo: int, hi: int): (r: Option<int>)
    ensures r.Some? ==> lo <= r.value <= hi
  {
    var t := TrimNumberWhite(s);
    if |t| == 0 then None
    else
      var body := if t[0] == '-' || t[0] == '+' then t[1..] else t;
      if |body| == 0 || !AllDigits(body) then None
      else
        var v: int := if t[0] == '-' then 0 - DigitsValue(body) as int else DigitsValue(body);
        if lo <= v <= hi then Some(v) else None
  }

  function ParseInt32(s: string): (r: Option<int>)
    ensures r.Some? ==> Int32Min <= r.value <= Int32Max
  {
    ParseInteger(s, Int32Min, Int32Max)
  }

  /** Formatting an integer and parsing it back is the identity within range. */
  lemma ParseIntToString(n: int, lo: int, hi: int)
    requires lo <= n <= hi
    ensures ParseInteger(IntToString(n), lo, hi) == Some(n)
  {
    var s := IntToString(n);
    assert TrimNumberWhite(s) == s;
    if n < 0 {
      assert s[1..] == NatToDigits(-n);
    }
  }

  lemma ParseInt32ToString(n: int)
    requires Int32Min <= n <= Int32Max
    ensures ParseInt32(IntToString(n)) == Some(n)
  {
    ParseIntToString(n, Int32Min, Int32Max);
  }
}

=== FILE: wrappers.dfy ===
/** Failure-compatible wrappers used across the model: `Option` stands for a
    value that may be C# `null`, `Result` for an operation that either returns
    or throws; `byte` is an octet, as a network buffer or an address holds it. */
module Wrappers {

  /** An octet: a C# `byte`. */
  newtype byte = b: int | 0 <= b < 256

  datatype Option<+T> = None | Some(value: T) {

    predicate IsFailure() {
      None?
    }

    function PropagateFailure<U>(): Option<U>
      requires None?
    {
      None
    }

    function Extract(): T
      requires Some?
    {
      value
    }

    function GetOr(default: T): T {
      match this
      case Some(v) => v
      case None => default
    }
  }

  /** The exception classes the modelled code throws, reduced to their kind. */
  datatype Error =
    | ArgumentNull
    | Argument
    | ArgumentOutOfRange
    | InvalidCast
    | InvalidOperation
    | ObjectDisposed
    | Format
    | IndexOutOfRange
    /** `TorException`, which `Command.Dispatch` wraps around any other. */
    | TorFailure

  datatype Result<+R> = Success(value: R) | Failure(error: Error) {

    predicate IsFailure() {
      Failure?
    }

    function PropagateFailure<U>(): Result<U>
      requires Failure?
    {
      Failure(error)
    }

    function Extract(): R
      requires Success?
    {
      value
    }
  }

  /** The values present in `os`, in order. */
  function Present<T>(os: seq<Option<T>>): (r: seq<T>)
    ensures |r| <= |os|
  {
    if |os| == 0 then []
    else if os[0].None? then Present(os[1..])
    else [os[0].value] + Present(os[1..])
  }

  /** Where every entry is present, `Present` gives all of them back. */
  lemma {:induction false} PresentAll<T>(os: seq<Option<T>>, d: seq<T>)
    requires |os| == |d|
    requires forall i :: 0 <= i < |d| ==> os[i] == Some(d[i])
    ensures Present(os) == d
  {
    if |d| > 0 {
      PresentAll(os[1..], d[1..]);
      assert [d[0]] + d[1..] == d;
    }
  }
}
